=== FILE: README.md ===
# ByteBite core logic in Dafny

ByteBite is a recipe assistant. It has a React Native client with sign-up, password change, a fridge inventory, saved recipes and a chatbot. Behind the client are a Flask backend over SQLite tables (`users`, `fridge_items`, `recipes_dataset`) and a Rasa chatbot whose custom actions read the same database and a recipe dataset.

This project models the pure decision logic of that system as immutable datatypes and functions. The client screens are state records, and every event or server answer maps the old state to the new one. Each backend route maps a database and a request to the new database and the reply. The tables are sequences of records in storage order. The chatbot's text helpers are functions on strings.

Modules, one per source file of the core:

- `Base` holds `Option` and the truthiness rule for string fields. `Text` holds substring search, split and join, strip, character counting and ASCII lower-casing.
- `Tables` models the shared `users` and `fridge_items` tables: lookups, updates and uniqueness.
- `AuthRoutes`, `UserSettings`, `FridgeRoutes` and `RecipeRoutes` model the four backend route files.
- `RecipeText` models the helpers in the chatbot actions: the ingredient parser, the all/any predicates, the fridge recommendation and the shopping suggestion.
- `SignUp`, `ChangePassword`, `FridgeStore`, `FridgeScreen`, `SavedRecipes` and `ChatbotScreen` model the client screens and the fridge store.

Conventions used throughout:

- A JSON field or storage slot is `Option<string>`. `Given` is the `not x` / `!x` test of Python and JavaScript, under which both absent and `""` count as missing.
- SQLite's `fetchone()` is the first matching row in storage order. `UPDATE` and `DELETE` act on every matching row.
- A new row id is one more than the largest in use.
- A password hash is an exact pair: `CheckPassword(HashPassword(p), q)` holds iff `p == q`.

## Model

| member | source | states |
|---|---|---|
| Tables.HashChecks | backend/routes/auth_routes.py:61 | a stored hash accepts exactly the password it was made from, so login and verify compare passwords |
| Tables.FindUser | backend/routes/auth_routes.py:150-151 | a row is found iff some row has the handle, and it is the first such row in storage order |
| Tables.FindEmail | backend/routes/auth_routes.py:206-207 | a row is found iff the e-mail is registered, and it is the first such row in storage order |
| Tables.FindUserAppend | backend/routes/auth_routes.py:64-67 | an appended row is found by its handle only when no earlier row holds that handle |
| Tables.NextId | backend/routes/auth_routes.py:64-67 | the id SQLite assigns to an insert is positive and larger than every id in use |
| Tables.SetUsername | backend/routes/auth_routes.py:90-93 | afterwards the handle looks up its old first row with the new name and nothing else changed, every other handle looks up what it did before, and unique users stay unique |
| Tables.SetPassword | backend/routes/user_settings.py:88 | afterwards the handle looks up its old first row carrying the new hash, every other handle looks up what it did before, and unique users stay unique |
| Tables.SetPasswordByEmail | backend/routes/auth_routes.py:221 | afterwards the e-mail looks up its old first row carrying the new hash, every other e-mail looks up what it did before, and unique users stay unique |
| Tables.FindUserMoved | backend/routes/auth_routes.py:150-151 | a rewrite that keeps every handle in place keeps the first match of each handle at the same position |
| Tables.FindEmailMoved | backend/routes/auth_routes.py:206-207 | a rewrite that keeps every e-mail in place keeps the first match of each e-mail at the same position |
| Tables.KeysKeptUnique | backend/routes/auth_routes.py:49-58 | an update that leaves ids, handles and e-mails alone keeps unique users unique |
| Tables.ItemsOf | backend/routes/fridge_routes.py:110-111 | a user's rows are exactly the table rows with that owner |
| AuthRoutes.Signup | backend/routes/auth_routes.py:28-71 | 400 iff a field is missing; a taken handle gives 409 before a taken e-mail does; a 409 or 400 leaves the table unchanged; a 201 appends exactly one user, with the request's fields, a hash of the password and a fresh id |
| AuthRoutes.SignupKeepsUnique | backend/routes/auth_routes.py:49-71 | sign-up keeps ids, handles and e-mails unique |
| AuthRoutes.CheckId | backend/routes/auth_routes.py:100-114 | 409 iff the handle is registered, else 200, with no change to the table |
| AuthRoutes.CheckEmail | backend/routes/auth_routes.py:117-131 | 409 iff the e-mail is registered, else 200, with no change to the table |
| AuthRoutes.ChecksPredictSignup | backend/routes/auth_routes.py:49-71 | when both checks say free, a complete sign-up succeeds, and afterwards both checks report the values taken |
| AuthRoutes.FindId | backend/routes/auth_routes.py:178-187 | an id is returned iff the e-mail is registered, and it is the handle of the first row with that e-mail |
| AuthRoutes.Login | backend/routes/auth_routes.py:141-167 | 400 for a missing field, 404 iff the handle is unknown, 401 iff the first row with the handle does not accept the password; success returns the stored handle, e-mail and name |
| AuthRoutes.SignupThenLogin | backend/routes/auth_routes.py:61-71 | right after a sign-up, logging in with the same handle and password succeeds and returns the stored profile |
| AuthRoutes.ResetPassword | backend/routes/auth_routes.py:197-251 | 400, 404 and 401 change nothing; otherwise every row with the e-mail gets the temporary hash before the mail is attempted; the answer is 200 iff the mail went out, else 500 |
| AuthRoutes.RewriteReachesHandle | backend/routes/auth_routes.py:206-221 | with unique users, rewriting by e-mail rewrites the password that the verified handle logs in with |
| AuthRoutes.ResetThenLogin | backend/routes/auth_routes.py:213-223 | after an accepted reset the handle logs in with the temporary password and with no other, even when the mail failed |
| AuthRoutes.LoginWithStoredHash | backend/routes/auth_routes.py:150-167 | a handle whose first row holds the hash of `p` logs in with `p`, and any other non-empty password gets 401 |
| AuthRoutes.UpdateUsername | backend/routes/auth_routes.py:74-97 | 400 iff a field is missing, otherwise 200 even when no row matches; only the name of rows with that handle changes |
| AuthRoutes.RenameKeepsUnique | backend/routes/auth_routes.py:90-97 | renaming keeps the users unique, and an unknown handle leaves the table as it was |
| UserSettings.VerifyPassword | backend/routes/user_settings.py:44-68 | 400, 404, 401 or 200 exactly as the fields, the handle and the password decide; the route has no database result, so it never writes |
| UserSettings.UpdatePassword | backend/routes/user_settings.py:72-92 | 400 iff a field is missing and then nothing changes; otherwise 200, and exactly the rows with that handle get the new hash |
| UserSettings.NoPasswordRules | backend/routes/user_settings.py:77-81 | the server accepts any non-empty new password, with no length or differs-from-old rule |
| UserSettings.UpdateThenVerify | backend/routes/user_settings.py:81-92 | for a registered handle, after an update to `p` verifying `p` gives 200 and any other password gives 401 |
| UserSettings.RenameFrame | backend/routes/user_settings.py:33-36 | the rename touches only the `username` of the rows with the handle; ids, handles, e-mails, passwords and the fridge table stay |
| FridgeRoutes.Owner | backend/routes/fridge_routes.py:18-44 | the owner is the id of the first row with the handle, and it exists iff that row exists and its id is not 0; with unique positive ids, iff the handle is registered |
| FridgeRoutes.Row | backend/routes/fridge_routes.py:33-44 | a request names a row iff both fields are given and the user is known; the row is (owner, name, flag) |
| FridgeRoutes.Add | backend/routes/fridge_routes.py:31-66 | 400 before any lookup, then 404 for an unknown user, then 409 iff the identical row exists; no change unless 201, and a 201 appends exactly that row |
| FridgeRoutes.AddKeepsItemsUnique | backend/routes/fridge_routes.py:50-62 | when add is the only insert path, no two rows are identical |
| FridgeRoutes.AddTwiceConflicts | backend/routes/fridge_routes.py:50-56 | the same accepted add sent again gives 409 and changes nothing |
| FridgeRoutes.SameNameBothKinds | backend/routes/fridge_routes.py:35-62 | a name can be added both as an ingredient and as a seasoning, since the kind is part of the key; a request without `is_seasoning` stores an ingredient |
| FridgeRoutes.Without | backend/routes/fridge_routes.py:89-92 | after the DELETE exactly the rows other than the deleted one remain |
| FridgeRoutes.WithoutAppend | backend/routes/fridge_routes.py:89-92 | deleting keeps the remaining rows in storage order |
| FridgeRoutes.WithoutAbsent | backend/routes/fridge_routes.py:89-96 | deleting a row that is not there changes nothing |
| FridgeRoutes.WithoutKeepsUnique | backend/routes/fridge_routes.py:89-92 | deleting keeps the table free of identical rows |
| FridgeRoutes.Delete | backend/routes/fridge_routes.py:70-96 | the same 400 and 404 guards as add; otherwise 200 even when nothing matched; every matching row goes and every other row stays |
| FridgeRoutes.AddThenDelete | backend/routes/fridge_routes.py:59-96 | an accepted add followed by the same delete gives the table back |
| FridgeRoutes.List | backend/routes/fridge_routes.py:101-116 | 404 iff the user is unknown; otherwise exactly that user's (name, flag) pairs, one per row |
| FridgeRoutes.ListAfterAdd | backend/routes/fridge_routes.py:59-66 | after an accepted add, the user's listing ends with the new item |
| FridgeRoutes.ItemsOfAppend | backend/routes/fridge_routes.py:110-111 | a row appended for an owner is appended to that owner's rows |
| RecipeRoutes.Wrap | backend/routes/recipe_routes.py:35 | the parameter is the ingredient between two `%` |
| RecipeRoutes.BaseHasNoPlaceholder | backend/routes/recipe_routes.py:31 | the fixed query holds no `?` |
| RecipeRoutes.BaseCountsNoPlaceholder | backend/routes/recipe_routes.py:31 | the fixed query counts zero placeholders |
| RecipeRoutes.ClauseHasOnePlaceholder | backend/routes/recipe_routes.py:34 | each added clause holds exactly one `?` |
| RecipeRoutes.BuildSearch | backend/routes/recipe_routes.py:31-35 | the query is the fixed part followed by one LIKE clause per ingredient; the parameters are the wrapped ingredients in order; the placeholder count equals the parameter count |
| RecipeRoutes.PlaceholderCount | backend/routes/recipe_routes.py:31-34 | the fixed query followed by `n` LIKE clauses holds exactly `n` placeholders |
| RecipeRoutes.LikeWrapped | backend/routes/recipe_routes.py:34-35 | `LIKE '%x%'` holds exactly when the column is not NULL and contains `x` |
| RecipeRoutes.QueryIsConjunctive | backend/routes/recipe_routes.py:33-37 | with at least one ingredient, a row satisfies the query iff its material text contains every ingredient, which is the chatbot's all-ingredients test |
| RecipeRoutes.ParamsLike | backend/routes/recipe_routes.py:33-35 | the `k`-th LIKE clause, bound to the `k`-th wrapped ingredient, matches exactly the texts containing that ingredient; NULL never matches |
| RecipeRoutes.Selected | backend/routes/recipe_routes.py:37-38 | the selected rows are exactly the table rows satisfying the query |
| RecipeRoutes.SelectedAppend | backend/routes/recipe_routes.py:37-38 | selection keeps table order |
| RecipeRoutes.SearchNarrows | backend/routes/recipe_routes.py:33-35 | adding an ingredient can only narrow the result |
| RecipeRoutes.Search | backend/routes/recipe_routes.py:17-53 | 400 iff no ingredient is given, 404 iff no row matches, else the matching rows normalised in order |
| RecipeRoutes.SearchIsConjunctive | backend/routes/recipe_routes.py:31-53 | every returned recipe contains every ingredient, and every row containing them all is returned |
| RecipeRoutes.InCategory | backend/routes/recipe_routes.py:70-76 | the rows chosen are exactly those whose category equals the argument |
| RecipeRoutes.ByCategory | backend/routes/recipe_routes.py:56-91 | 400 iff the category is missing or empty; 404 with the category named iff no row has it; else those rows, each with that category |
| RecipeText.StripBrackets | chatbot_rasa/actions/actions.py:38 | no `[` is ever followed by a `]` in the output, only input characters survive, and bracket-free text is unchanged |
| RecipeText.StripBracketsPlainPrefix | chatbot_rasa/actions/actions.py:38 | text before the first `[` passes through, and removal continues after it |
| RecipeText.BracketSpanDeleted | chatbot_rasa/actions/actions.py:38 | a `[`…first `]` span is deleted whole, whatever it holds |
| RecipeText.SameAfterPlainPrefix | chatbot_rasa/actions/actions.py:38 | texts that clean alike still clean alike behind the same bracket-free prefix |
| RecipeText.LeadingSpanDeleted | chatbot_rasa/actions/actions.py:38 | a bracket span at the very start disappears together with its brackets, leaving the cleaning of what follows |
| RecipeText.Field | chatbot_rasa/actions/actions.py:43-45 | each field comes out stripped, and a field the item lacks reads as `''` |
| RecipeText.PartsOf | chatbot_rasa/actions/actions.py:42-45 | name, quantity and unit are stripped; an item without `\a` has empty quantity and unit |
| RecipeText.PartsRoundTrip | chatbot_rasa/actions/actions.py:42-45 | fields written as `name\aqty\aunit` read back as those fields |
| RecipeText.SplitThree | chatbot_rasa/actions/actions.py:42 | splitting `name\aqty\aunit` on the bell character gives back exactly the three fields |
| RecipeText.Format | chatbot_rasa/actions/actions.py:46-51 | the line starts with the name; without a quantity it is the name alone; it is empty iff name and quantity are |
| RecipeText.FormatShape | chatbot_rasa/actions/actions.py:46-51 | the name leads; a unit without a quantity is dropped; quantity and unit appear when set; the line is empty iff name and quantity are |
| RecipeText.FormatAvoids | chatbot_rasa/actions/actions.py:46-51 | formatting adds no character except a space |
| RecipeText.DropEmpty | chatbot_rasa/actions/actions.py:52-53 | exactly the non-empty lines survive |
| RecipeText.DropEmptyAppend | chatbot_rasa/actions/actions.py:41-53 | dropping empty lines keeps input order |
| RecipeText.Render | chatbot_rasa/actions/actions.py:54-57 | a list of at most `max_items` lines is their newline join; a longer one ends in the fixed suffix line |
| RecipeText.RenderReadsBack | chatbot_rasa/actions/actions.py:54-57 | read back line by line, the output is the first `max_items` lines, then the fixed suffix exactly when more survived |
| RecipeText.ParsedLinesAvoid | chatbot_rasa/actions/actions.py:38-53 | a character other than a space that is absent from the raw text is absent from every output line |
| RecipeText.ParseIngredients | chatbot_rasa/actions/actions.py:37-57 | with at most `max_items` surviving items the output is their newline join, otherwise it ends in the fixed suffix line; the line-by-line reading is `ParseIngredientsLines` |
| RecipeText.ParseIngredientsLines | chatbot_rasa/actions/actions.py:37-57 | the parser's output lists the surviving items in input order, cut to `max_items` with the suffix line when cut |
| RecipeText.ParseIngredientsCut | chatbot_rasa/actions/actions.py:54-57 | the output ends in the suffix line iff more than `max_items` items survive; otherwise all of them are joined |
| RecipeText.RenderCut | chatbot_rasa/actions/actions.py:54-57 | for any list of lines: the rendering ends in the suffix line when lines are cut off, and is the plain newline join otherwise |
| RecipeText.BracketTextIgnored | chatbot_rasa/actions/actions.py:38 | text inside a closed bracket span never reaches the parser's output |
| RecipeText.CellText | chatbot_rasa/actions/actions.py:135-144 | a present material cell is its text; a missing one reads as pandas prints NaN, so it contains `nan`, `n` and `a` and matches fridge items with those names |
| RecipeText.ContainsAll | chatbot_rasa/actions/actions.py:135-136 | true iff every item is a substring of the text (vacuous for none) |
| RecipeText.ContainsAny | chatbot_rasa/actions/actions.py:143-144 | true iff some item is a substring of the text |
| RecipeText.AllImpliesAny | chatbot_rasa/actions/actions.py:135-144 | a recipe with all of a non-empty list has one of them |
| RecipeText.FullMatches | chatbot_rasa/actions/actions.py:138 | exactly the recipes containing every fridge item |
| RecipeText.PartialMatches | chatbot_rasa/actions/actions.py:146 | exactly the recipes containing some fridge item |
| RecipeText.FridgeOf | chatbot_rasa/actions/actions.py:119-128 | the fridge is found iff the handle is registered, and it holds the names of the rows owned by the first account with that handle, in storage order |
| RecipeText.OwnedNames | chatbot_rasa/actions/actions.py:127-128 | a name is in the owner's list iff the table has a row of that owner with that name |
| RecipeText.FridgeHoldsOwnedNames | chatbot_rasa/actions/actions.py:119-128 | the fridge the chatbot reads holds exactly the names of the `fridge_items` rows of the first account with the handle |
| RecipeText.RecommendFromFridge | chatbot_rasa/actions/actions.py:109-152 | login is asked for without a handle, an unknown handle is reported, the empty-fridge answer comes iff the user's fridge is empty; a recommendation is drawn for exactly that fridge; the fallback to partial matches happens iff there is no full match; nothing is cookable iff no recipe matches partially, and the action goes on to draw from the candidates whenever one does; what it then sends is `RecipeText.Deliver` |
| RecipeText.RecommendIffCookable | chatbot_rasa/actions/actions.py:131-152 | a known user's request reaches the random draw iff the fridge is not empty and some recipe's material text mentions one of its items; whether cards are then sent is `RecipeText.CardsIffCookableDraw` |
| RecipeText.Deliver | chatbot_rasa/actions/actions.py:152-176 | an early answer is sent as it is; after the draw, the action raises iff some drawn candidate has a NaN material cell (`re.sub` on a float at :164, outside the `try`); otherwise it sends the fridge and, in draw order, one card per drawn recipe with its title and `parse_ingredients(raw, max_items=3)` |
| RecipeText.DrawnRecipes | chatbot_rasa/actions/actions.py:153-164 | the drawn candidates in draw order, all with material text, or failure iff some drawn recipe has a NaN material cell |
| RecipeText.DistinctCovers | chatbot_rasa/actions/actions.py:152 | `min(3, n)` distinct positions drawn from at most three candidates are all of them |
| RecipeText.SmallPoolWithNaNRaises | chatbot_rasa/actions/actions.py:152-164 | with at most three candidates every draw takes them all, so one NaN material cell among them makes the action raise |
| RecipeText.CardsIffCookableDraw | chatbot_rasa/actions/actions.py:131-176 | a known user receives recipe cards iff the fridge is not empty, some recipe mentions one of its items and the draw avoids every candidate with a NaN material cell |
| RecipeText.NaNMaterialRaises | chatbot_rasa/actions/actions.py:135-164 | a fridge holding `a` and one recipe with an empty material cell: the recipe is a full match, the only possible draw takes it, and the action raises |
| RecipeText.PartialMatchesNonEmpty | chatbot_rasa/actions/actions.py:143-150 | some recipe matches partially iff some recipe mentions an item |
| RecipeText.FridgeOfAfterAdd | backend/routes/fridge_routes.py:59-62 | an accepted add through the fridge route appends the item's name to the fridge the chatbot reads for that handle |
| RecipeText.AddedItemReachesAdvice | chatbot_rasa/actions/actions.py:109-133 | after an accepted add the recommendation neither asks for login nor reports an unknown user or an empty fridge, and any recommendation is made from a fridge holding the new item |
| RecipeText.FallbackWidens | chatbot_rasa/actions/actions.py:138-146 | every full match is also a partial match |
| RecipeText.Missing | chatbot_rasa/actions/actions.py:204-205 | exactly the staples absent from the fridge, in staple order |
| RecipeText.MissingAppend | chatbot_rasa/actions/actions.py:204-205 | missing staples keep staple order: the list for two runs of staples is the first run's list followed by the second's |
| RecipeText.ShoppingSuggestion | chatbot_rasa/actions/actions.py:182-221 | login is asked for without a handle, an unknown handle is reported; for the user's own fridge, an empty fridge is reported before the well-stocked case, which comes iff no staple is missing; otherwise the first five missing staples (or all, if fewer) are shown |
| RecipeText.Suggest | chatbot_rasa/actions/actions.py:204-221 | for a known fridge: empty iff no items, well stocked iff none of the staples is missing, else a prefix of at most five missing staples, each a staple not in the fridge |
| RecipeText.ShoppingIffStapleMissing | chatbot_rasa/actions/actions.py:204-218 | a known user with a non-empty fridge is told to buy something iff some staple is not in the fridge |
| RecipeText.StockingUpShrinksList | chatbot_rasa/actions/actions.py:204-218 | after an accepted add the answer is never the login, unknown-user or empty-fridge one, and the added item is not among the staples listed |
| RecipeText.EmptyFridgeFirst | chatbot_rasa/actions/actions.py:207-209 | an empty fridge is reported as empty, not as missing every staple |
| ChangePassword.Validate | src/screens/ChangePasswordScreen.js:47-70 | with an empty confirmation there is no message and the entry is invalid; valid iff it matches, has at least 6 characters and differs from the verified password |
| ChangePassword.RuleOrder | src/screens/ChangePasswordScreen.js:49-63 | the first failing rule wins: mismatch, then too short, then same as old |
| ChangePassword.Step | src/screens/ChangePasswordScreen.js:37-70 | verification is never withdrawn; a successful reply verifies, remembers the current password and shows the confirmation, and leaves the three text fields as typed; a failed one changes only the verification message; typing sets the field typed into and leaves the other fields, the flag, the remembered password and the message alone; the new-password fields ignore typing until verified; afterwards the button state is the rule chain on the fields |
| ChangePassword.SubmitReachable | src/screens/ChangePasswordScreen.js:37-70 | typing a current password, a successful verification, and a long enough different new password typed twice enable submit |
| ChangePassword.StepConsistent | src/screens/ChangePasswordScreen.js:47-70 | every event keeps the button state equal to the rules applied to the fields |
| ChangePassword.RunConsistent | src/screens/ChangePasswordScreen.js:47-70 | any run of events keeps the screen consistent |
| ChangePassword.VerifiedForever | src/screens/ChangePasswordScreen.js:37-43 | once verified, the screen stays verified whatever follows |
| ChangePassword.OriginalFromVerification | src/screens/ChangePasswordScreen.js:37-40 | the remembered password is the initial one unless some verification succeeded |
| ChangePassword.SubmitGate | src/screens/ChangePasswordScreen.js:118-152 | from the first render, submit is enabled iff verified and the entry meets every rule |
| ChangePassword.Submit | src/screens/ChangePasswordScreen.js:83-89 | nothing while disabled; success goes to Settings with the changed flag; a failure alerts the server's error when it sent one, and `변경 실패` otherwise |
| ChangePassword.SubmitSendsOnlyValid | src/screens/ChangePasswordScreen.js:47-89 | from the first render, a press of submit sends the update iff the entry is verified, confirmed, at least 6 long and different from the verified password |
| SignUp.ValidateEmail | src/screens/SignUpScreen.js:38 | a passing string has an `@`, a `.` and at least five characters; the unanchored matching is stated by `SignUp.EmailSurvivesContext` and `SignUp.EmailRejects` |
| SignUp.PlainAddressPasses | src/screens/SignUpScreen.js:38 | a plain address passes the e-mail test |
| SignUp.EmailSurvivesContext | src/screens/SignUpScreen.js:38 | the test is unanchored: any text around a passing string still passes |
| SignUp.EmailNeeds | src/screens/SignUpScreen.js:38 | a passing string has an `@`, a `.` and at least five characters |
| SignUp.EmailRejects | src/screens/SignUpScreen.js:38 | no dot after the `@`, a space after the `@` or nothing before it fails the test |
| SignUp.Check | src/screens/SignUpScreen.js:41-76 | id error iff shorter than 4; e-mail error for empty, then for a failed test; password error iff shorter than 6; confirm error iff different; valid iff no error |
| SignUp.ValidIff | src/screens/SignUpScreen.js:42-75 | validity in terms of the four fields alone |
| SignUp.ChecksIndependent | src/screens/SignUpScreen.js:44-74 | each error depends only on its own fields |
| SignUp.Edit | src/screens/SignUpScreen.js:41-76 | an edit sets exactly the field typed into; afterwards each of the four errors and the button state are the checks on the new fields, and the duplicate-check notes stay |
| SignUp.IdChecked | src/screens/SignUpScreen.js:79-89 | 409 shows the error and clears the note, 200 clears the error and shows the note, any other status changes nothing |
| SignUp.EmailChecked | src/screens/SignUpScreen.js:92-102 | the same rules for the e-mail field |
| SignUp.DuplicateCheckLeavesButton | src/screens/SignUpScreen.js:79-89 | a 200 on the id check clears a too-short error and shows the note, yet the button stays disabled |
| SignUp.DuplicateEmailCheckLeavesButton | src/screens/SignUpScreen.js:92-102 | a 200 on the e-mail check clears the format error and shows the note, yet the button stays disabled |
| SignUp.OnSignUp | src/screens/SignUpScreen.js:105-138 | a request is sent iff the form is valid; a 409 error goes under the id if it mentions `아이디`, else under the e-mail if it mentions `이메일`, else nowhere; only success leads to the welcome screen |
| SignUp.ButtonFollowsFields | src/screens/SignUpScreen.js:75-208 | the button is enabled iff the fields pass all four checks, and a sign-up reply does not change that |
| FridgeStore.Add | src/stores/fridgeStore.js:5-6 | the item is appended and the earlier elements are kept, duplicates included |
| FridgeStore.Remove | src/stores/fridgeStore.js:7-8 | no copy of the item remains and every other element stays |
| FridgeStore.Clear | src/stores/fridgeStore.js:9 | the list is empty whatever it held |
| FridgeStore.RemoveAppend | src/stores/fridgeStore.js:7-8 | removal keeps the order of the survivors |
| FridgeStore.RemoveAbsent | src/stores/fridgeStore.js:7-8 | removing an absent item changes nothing |
| FridgeStore.AddThenRemove | src/stores/fridgeStore.js:5-8 | adding a new item and removing it restores the list |
| FridgeStore.RemoveIdempotent | src/stores/fridgeStore.js:7-8 | removing twice is removing once |
| FridgeStore.RemoveCount | src/stores/fridgeStore.js:7-8 | exactly as many elements go as there were copies of the item |
| FridgeScreen.NamesOf | src/screens/FridgeScreen.js:47-48 | a name is in a kind's list iff some listed item of that kind has it |
| FridgeScreen.NamesOfAppend | src/screens/FridgeScreen.js:47-48 | each kind's list keeps server order: the list for two runs of items is the first run's list followed by the second's |
| FridgeScreen.PartitionExact | src/screens/FridgeScreen.js:47-48 | every loaded item lands in exactly one list: together the two lists hold the listed names with their multiplicities |
| FridgeScreen.Loaded | src/screens/FridgeScreen.js:46-51 | an ok answer replaces both lists, which together hold exactly the listed names with their multiplicities; anything else changes nothing |
| FridgeScreen.Submit | src/screens/FridgeScreen.js:60-100 | empty input does nothing; 409 shows the server error; success appends to the store and to the selected kind's list only; other failures show a fixed error and change no list; the input is cleared |
| FridgeScreen.Delete | src/screens/FridgeScreen.js:103-134 | success removes every copy from the matching list only; failure shows the server error or `삭제 실패`; the store is untouched and the input cleared |
| FridgeScreen.AddThenDelete | src/screens/FridgeScreen.js:84-123 | an accepted add then an accepted delete restore the list, but the store keeps the added copy |
| SavedRecipes.Filtered | src/screens/SavedRecipesScreen.js:15-17 | exactly the recipes whose lower-cased name contains the lower-cased search |
| SavedRecipes.FilteredInOrder | src/screens/SavedRecipesScreen.js:15-17 | the filtered list is an order-preserving subsequence of the list |
| SavedRecipes.FilteredAppend | src/screens/SavedRecipesScreen.js:15-17 | filtering distributes over concatenation |
| SavedRecipes.EmptySearchKeepsAll | src/screens/SavedRecipesScreen.js:15-17 | an empty search shows every recipe |
| SavedRecipes.SearchIgnoresCase | src/screens/SavedRecipesScreen.js:16 | lower-casing the search text changes nothing |
| SavedRecipes.Remove | src/screens/SavedRecipesScreen.js:19-21 | exactly the recipes with another name remain |
| SavedRecipes.RemoveIsCaseSensitive | src/screens/SavedRecipesScreen.js:20 | a name differing only in case survives removal |
| SavedRecipes.RemoveInOrder | src/screens/SavedRecipesScreen.js:19-21 | removal keeps the survivors in order |
| SavedRecipes.EmptyState | src/screens/SavedRecipesScreen.js:34-35 | the empty-state text shows iff no recipe passes the filter |
| SavedRecipes.EmptyStateInitially | src/screens/SavedRecipesScreen.js:13-35 | with an empty search the text shows iff nothing is saved, and so on the first render |
| ChatbotScreen.Greeting | src/screens/ChatbotScreen.js:59-61 | personalised with the stored name iff one is stored; either way it ends with the plain greeting |
| ChatbotScreen.Start | src/screens/ChatbotScreen.js:56-64 | the conversation starts with the greeting alone |
| ChatbotScreen.GreetingShape | src/screens/ChatbotScreen.js:59-61 | the greeting differs from the plain one iff a name is stored, and then starts with the name |
| ChatbotScreen.Convert | src/screens/ChatbotScreen.js:98-116 | a card iff `custom.type` is `recipe`, copying its five fields; otherwise the text or `응답 텍스트가 없습니다` |
| ChatbotScreen.BotMessages | src/screens/ChatbotScreen.js:98-116 | one bot message per reply element, in order, with pairwise distinct ids |
| ChatbotScreen.Answer | src/screens/ChatbotScreen.js:90-124 | a failure gives one `❌ 서버 오류` message; a non-array or empty reply gives one fallback message; otherwise one per element; none is from the user, all carry the reply's clock reading, and their ids are pairwise distinct |
| ChatbotScreen.Send | src/screens/ChatbotScreen.js:73-126 | blank input does nothing; otherwise the user's message is appended and the input cleared, the sender is the screen's id, else the stored one, else `default`, and the bot messages follow |
| ChatbotScreen.UserCountAppend | src/screens/ChatbotScreen.js:75-118 | user messages count additively across appended messages |
| ChatbotScreen.NoUserMessages | src/screens/ChatbotScreen.js:98-124 | bot-only messages add no user message |
| ChatbotScreen.SendCounts | src/screens/ChatbotScreen.js:75-124 | a non-blank send adds exactly one user message, then as many bot messages as the reply has elements, or one |
| ChatbotScreen.TextsReadBack | src/screens/ChatbotScreen.js:111-115 | a reply of plain texts reads back as exactly those texts |
| ChatbotScreen.Favorite | src/screens/ChatbotScreen.js:173-198 | the card joins the favourites iff a user id is known and the server said ok; without an id only an alert shows; otherwise the toast or alert follows the server's answer |
| ChatbotScreen.FavoriteLightsStar | src/screens/ChatbotScreen.js:138-198 | the pressed card's star is lit after a save with a known user; otherwise every star stays as it was; no star is ever put out and no other star changes |

## Left out

- HTTP, Flask request parsing, CORS and blueprint wiring are not modelled. Requests are records and replies are a status with a text.
- SQLite connections and SQL execution are not modelled. The tables are sequences of records.
- `LIKE` is read as a plain substring test. SQLite's ASCII case-folding and the `%` and `_` wildcards inside an ingredient are not modelled.
- werkzeug password hashing is an exact, collision-free pair; salting and the hash format are not modelled.
- `random.choices` in `reset_password` becomes a parameter constrained to 8 ASCII letters and digits. The SMTP send becomes a boolean saying whether it succeeded.
- `int()` conversion of `is_seasoning` is not modelled, nor the 500 a non-number causes. The request carries the converted integer.
- A missing JSON body (`get_json()` giving `None`) and the 500 it causes are not modelled.
- In the chatbot actions, the crawler (`crawl_recipe`), Okt noun extraction, pandas loading and `ActionRecommendMenu` are left out. A card holds a recipe's title and parsed materials, without the crawled steps and link. The random draw of `.sample(min(3, len(matched)))` is a parameter: the drawn positions, constrained to be as many as the sample takes, in range and distinct.
- Client side effects are left out: AsyncStorage (stored values are parameters), navigation (an outcome value), Alert and Toast texts, the three-second message timer and `Date.now()` ids (abstract stamps).
- The chatbot's start-up webhook call `sendUserIdIntent` is left out.
- The fridge screen's load is modelled without its request, whose failure is caught and ignored.
- `toLowerCase` is modelled for ASCII letters only. Other Unicode case mappings are left out.
- String lengths count code points. JavaScript counts UTF-16 units, which differ only outside the Basic Multilingual Plane.
- Overlapping asynchronous requests are not modelled. Each answer is applied to the state it was sent from.
- ChatbotScreen.FavoriteLightsStar: the screen posts to `/recipes/save` (src/screens/ChatbotScreen.js:177), but no blueprint registered in backend/app.py:14-17 serves that URL. Against this backend every press of the star ends in the error branch (`SaveFailed`), so the `Saved` case describes a server that provides the route.
- Presentational and storage-only files are not part of this model: LoginScreen.js, FindAccountScreen.js, HomeScreen.js, WelcomeScreen.js, NameInputScreen.js, AccountSettingsScreen.js, HeaderBar.js, FooterBar.js and App.js. So are the schema file and the one-off load scripts.
- The `update_username` handler in backend/routes/user_settings.py is the same code as the one in backend/routes/auth_routes.py and serves the same URL. It is modelled once, as `AuthRoutes.UpdateUsername`, and `UserSettings.RenameFrame` states its frame property.
- Editing the current password does not withdraw an earlier verification; the model follows the code.
- RecipeText.ParseIngredientsLines: states the line-by-line reading only for raw text without newlines, at least one surviving item and `max_items` of at least 1. A newline inside an item would read back as two lines. `RecipeText.ParseIngredientsCut` covers the other cases.
- RecipeText.RecommendFromFridge: states the candidate list the draw is taken from. Which recipes are drawn, and whether a NaN material cell among them makes the action raise at chatbot_rasa/actions/actions.py:164, is stated by `RecipeText.Deliver` for a given draw.
- FridgeRoutes.Owner: states that the owner exists iff the handle is registered only for tables with unique positive ids. In general it exists iff the first row with the handle has an id other than 0: `if not user_numeric_id` would treat a registered user with row id 0 as unknown, and the model keeps that behaviour.

=== FILE: auth_routes.dfy ===
/** The authentication routes over the abstract `users` table: sign-up,
    the two duplicate checks, login, finding an id by e-mail, resetting a
    password and renaming. Each route maps the database and the request to
    the new database and the reply. */
module AuthRoutes {
  import opened Base
  import opened Tables

  const AllFieldsMsg: string := "모든 필드를 입력해주세요."
  const IdTakenMsg: string := "이미 사용 중인 아이디입니다."
  const EmailTakenMsg: string := "이미 가입된 이메일입니다."
  const SignedUpMsg: string := "회원가입이 완료되었습니다."
  const RenameMissingMsg: string := "유저 ID와 새로운 이름이 필요합니다."
  const RenamedMsg: string := "사용자 이름이 성공적으로 업데이트되었습니다."
  const IdFreeMsg: string := "✅ 사용 가능한 아이디입니다."
  const EmailFreeMsg: string := "✅ 사용 가능한 이메일입니다."
  const LoginMissingMsg: string := "아이디와 비밀번호를 입력해주세요."
  const NoSuchIdMsg: string := "존재하지 않는 아이디입니다."
  const WrongPasswordMsg: string := "비밀번호가 일치하지 않습니다."
  const NoIdForEmailMsg: string := "해당 이메일로 가입된 아이디가 없습니다."
  const ResetMissingMsg: string := "이메일과 아이디를 모두 입력해주세요."
  const NoAccountMsg: string := "해당 이메일로 가입된 정보가 없습니다."
  const IdMismatchMsg: string := "아이디가 일치하지 않습니다."
  const MailSentMsg: string := "비밀번호 재설정 이메일이 발송되었습니다."
  const MailFailedMsg: string := "메일 전송 실패"

  // ---------------------------------------------------------------------
  // signup
  // ---------------------------------------------------------------------

  /** The JSON body of a sign-up request. */
  datatype SignupRequest = SignupRequest(userId: Option<string>, username: Option<string>,
                                         email: Option<string>, password: Option<string>)

  predicate Complete(req: SignupRequest) {
    Given(req.userId) && Given(req.username) && Given(req.email) && Given(req.password)
  }

  /** The row a complete sign-up request inserts. */
  function NewUser(users: seq<User>, req: SignupRequest): User
    requires Complete(req)
  {
    User(NextId(users), req.userId.value, req.username.value, req.email.value, HashPassword(req.password.value))
  }

  /** `signup`: 400 unless all four fields are given; then 409 for a taken
      id, checked before a taken e-mail (409); otherwise exactly one user is
      appended with the hashed password and the answer is 201. */
  function Signup(db: Db, req: SignupRequest): (r: (Db, Reply))
    ensures r.1.status in {400, 409, 201}
    ensures r.1.status == 400 <==> !Complete(req)
    ensures r.1 == Reply(409, IdTakenMsg) <==> Complete(req) && UserIdTaken(db.users, req.userId.value)
    ensures r.1 == Reply(409, EmailTakenMsg) <==>
              Complete(req) && !UserIdTaken(db.users, req.userId.value) && EmailTaken(db.users, req.email.value)
    ensures r.1.status != 201 ==> r.0 == db
    ensures r.1.status == 201 ==>
              && Complete(req)
              && r.0.items == db.items
              && |r.0.users| == |db.users| + 1
              && r.0.users[..|db.users|] == db.users
              && var u := r.0.users[|db.users|];
                 u.userId == req.userId.value && u.username == req.username.value && u.email == req.email.value
                 && CheckPassword(u.password, req.password.value)
                 && forall k | 0 <= k < |db.users| :: db.users[k].id < u.id
  {
    if !Complete(req) then (db, Reply(400, AllFieldsMsg))
    else if UserIdTaken(db.users, req.userId.value) then (db, Reply(409, IdTakenMsg))
    else if EmailTaken(db.users, req.email.value) then (db, Reply(409, EmailTakenMsg))
    else
      var users := db.users + [NewUser(db.users, req)];
      assert users[..|db.users|] == db.users;
      (db.(users := users), Reply(201, SignedUpMsg))
  }

  /** Sign-up keeps ids, handles and e-mails unique. */
  lemma SignupKeepsUnique(db: Db, req: SignupRequest)
    requires UniqueUsers(db.users)
    ensures UniqueUsers(Signup(db, req).0.users)
  {
    var r := Signup(db, req);
    if r.1.status == 201 {
      var u := NewUser(db.users, req);
      var users := db.users + [u];
      assert r.0.users == users;
      forall i, j | 0 <= i < j < |users|
        ensures users[i].id != users[j].id && users[i].userId != users[j].userId && users[i].email != users[j].email
      {
        if j == |db.users| {
          assert users[i] == db.users[i];
        }
      }
    }
  }

  // ---------------------------------------------------------------------
  // check-id, check-email, find-id
  // ---------------------------------------------------------------------

  /** `check_id`: 409 iff the handle is registered, else 200; read-only. */
  function CheckId(db: Db, uid: string): (r: Reply)
    ensures r.status == 409 <==> UserIdTaken(db.users, uid)
    ensures r.status == 200 <==> !UserIdTaken(db.users, uid)
  {
    if UserIdTaken(db.users, uid) then Reply(409, IdTakenMsg) else Reply(200, IdFreeMsg)
  }

  /** `check_email`: 409 iff the address is registered, else 200. */
  function CheckEmail(db: Db, email: string): (r: Reply)
    ensures r.status == 409 <==> EmailTaken(db.users, email)
    ensures r.status == 200 <==> !EmailTaken(db.users, email)
  {
    if EmailTaken(db.users, email) then Reply(409, EmailTakenMsg) else Reply(200, EmailFreeMsg)
  }

  /** A free handle and a free address predict the sign-up's outcome: a
      complete request with both free succeeds, and afterwards both checks
      report them taken. */
  lemma ChecksPredictSignup(db: Db, req: SignupRequest)
    requires Complete(req)
    requires CheckId(db, req.userId.value).status == 200
    requires CheckEmail(db, req.email.value).status == 200
    ensures Signup(db, req).1.status == 201
    ensures var db1 := Signup(db, req).0;
            CheckId(db1, req.userId.value).status == 409 && CheckEmail(db1, req.email.value).status == 409
  {
    var db1 := Signup(db, req).0;
    assert db1.users[|db.users|].userId == req.userId.value;
    assert db1.users[|db.users|].email == req.email.value;
  }

  /** The answer to finding an id by e-mail. */
  datatype FindReply = IdFound(userId: string) | NoId(error: string)

  /** `find_id`: the handle of the first row with that e-mail, else 404. */
  function FindId(db: Db, email: string): (r: FindReply)
    ensures r.IdFound? <==> EmailTaken(db.users, email)
    ensures r.IdFound? ==> exists k | 0 <= k < |db.users| :: FirstWithEmail(db.users, email, k) && db.users[k].userId == r.userId
  {
    match FindEmail(db.users, email)
    case Some(u) => IdFound(u.userId)
    case None => NoId(NoIdForEmailMsg)
  }

  // ---------------------------------------------------------------------
  // login
  // ---------------------------------------------------------------------

  /** The JSON body of a login request. */
  datatype LoginRequest = LoginRequest(userId: Option<string>, password: Option<string>)

  /** The answer to a login: the stored profile on success. */
  datatype LoginReply =
    | LoggedIn(userId: string, email: string, username: string)
    | Refused(status: int, error: string)

  /** `login`: 400 for a missing field, 404 for an unknown handle, 401 for
      a wrong password, else the stored handle, e-mail and name. */
  function Login(db: Db, req: LoginRequest): (r: LoginReply)
    ensures r.Refused? ==> r.status in {400, 404, 401}
    ensures r == Refused(400, LoginMissingMsg) <==> !Given(req.userId) || !Given(req.password)
    ensures r == Refused(404, NoSuchIdMsg) <==>
              Given(req.userId) && Given(req.password) && !UserIdTaken(db.users, req.userId.value)
    ensures r == Refused(401, WrongPasswordMsg) <==>
              && Given(req.userId) && Given(req.password)
              && FindUser(db.users, req.userId.value).Some?
              && !CheckPassword(FindUser(db.users, req.userId.value).value.password, req.password.value)
    ensures r.LoggedIn? <==>
              && Given(req.userId) && Given(req.password)
              && FindUser(db.users, req.userId.value).Some?
              && CheckPassword(FindUser(db.users, req.userId.value).value.password, req.password.value)
    ensures r.LoggedIn? ==>
              var u := FindUser(db.users, req.userId.value).value;
              r == LoggedIn(u.userId, u.email, u.username) && r.userId == req.userId.value
  {
    if !Given(req.userId) || !Given(req.password) then Refused(400, LoginMissingMsg)
    else match FindUser(db.users, req.userId.value)
      case None => Refused(404, NoSuchIdMsg)
      case Some(u) =>
        if !CheckPassword(u.password, req.password.value) then Refused(401, WrongPasswordMsg)
        else LoggedIn(u.userId, u.email, u.username)
  }

  /** Round trip: right after signing up, logging in with the same handle
      and password succeeds and returns the profile just stored. */
  lemma SignupThenLogin(db: Db, req: SignupRequest)
    requires Signup(db, req).1.status == 201
    ensures Login(Signup(db, req).0, LoginRequest(req.userId, req.password))
            == LoggedIn(req.userId.value, req.email.value, req.username.value)
  {
    var u := NewUser(db.users, req);
    FindUserAppend(db.users, u, req.userId.value);
    assert Signup(db, req).0.users == db.users + [u];
  }

  // ---------------------------------------------------------------------
  // reset-password
  // ---------------------------------------------------------------------

  predicate IsAlnum(c: char) {
    'a' <= c <= 'z' || 'A' <= c <= 'Z' || '0' <= c <= '9'
  }

  /** A possible temporary password: what `random.choices` over
      `string.ascii_letters + string.digits` with `k=8` can produce. */
  predicate TempShaped(temp: string) {
    |temp| == 8 && forall k | 0 <= k < 8 :: IsAlnum(temp[k])
  }

  /** The JSON body of a reset request. */
  datatype ResetRequest = ResetRequest(email: Option<string>, userId: Option<string>)

  /** `reset_password`: 400 for a missing field, 404 when no row has the
      e-mail, 401 when the first such row has another handle; none of these
      changes anything. Otherwise every row with that e-mail gets the hash
      of the temporary password, before the mail is attempted: the answer is
      200 when the mail went out and 500 when it failed, the password
      changed either way. */
  function ResetPassword(db: Db, req: ResetRequest, temp: string, mailSent: bool): (r: (Db, Reply))
    requires TempShaped(temp)
    ensures r.1.status in {400, 404, 401, 200, 500}
    ensures r.1.status == 400 <==> !Given(req.email) || !Given(req.userId)
    ensures r.1.status == 404 <==> Given(req.email) && Given(req.userId) && !EmailTaken(db.users, req.email.value)
    ensures r.1.status == 401 <==>
              && Given(req.email) && Given(req.userId)
              && FindEmail(db.users, req.email.value).Some?
              && FindEmail(db.users, req.email.value).value.userId != req.userId.value
    ensures r.1.status in {400, 404, 401} ==> r.0 == db
    ensures r.1.status in {200, 500} ==>
              && (r.1.status == 200 <==> mailSent)
              && r.0 == db.(users := SetPasswordByEmail(db.users, req.email.value, HashPassword(temp)))
  {
    if !Given(req.email) || !Given(req.userId) then (db, Reply(400, ResetMissingMsg))
    else match FindEmail(db.users, req.email.value)
      case None => (db, Reply(404, NoAccountMsg))
      case Some(u) =>
        if u.userId != req.userId.value then (db, Reply(401, IdMismatchMsg))
        else
          var db1 := db.(users := SetPasswordByEmail(db.users, req.email.value, HashPassword(temp)));
          if mailSent then (db1, Reply(200, MailSentMsg)) else (db1, Reply(500, MailFailedMsg))
  }

  /** With unique users, the row found by e-mail is the row found by its
      handle, so rewriting the password by e-mail rewrites the password the
      handle logs in with. */
  lemma RewriteReachesHandle(users: seq<User>, email: string, uid: string, h: Hash)
    requires UniqueUsers(users)
    requires FindEmail(users, email).Some? && FindEmail(users, email).value.userId == uid
    ensures var f := FindUser(SetPasswordByEmail(users, email, h), uid);
            f.Some? && f.value.password == h
  {
    var users1 := SetPasswordByEmail(users, email, h);
    var j :| 0 <= j < |users| && users[j] == FindEmail(users, email).value;
    assert users1[j].userId == uid;
    assert UserIdTaken(users1, uid);
    var f := FindUser(users1, uid).value;
    var k :| 0 <= k < |users1| && users1[k] == f;
    assert users[k].userId == uid;
    assert k == j;
  }

  /** After an accepted reset (even one whose mail failed), the handle
      logs in with the temporary password and no longer with any other. */
  lemma ResetThenLogin(db: Db, req: ResetRequest, temp: string, mailSent: bool, other: string)
    requires TempShaped(temp)
    requires UniqueUsers(db.users)
    requires ResetPassword(db, req, temp, mailSent).1.status in {200, 500}
    requires other != temp && other != ""
    ensures var db1 := ResetPassword(db, req, temp, mailSent).0;
            && Login(db1, LoginRequest(req.userId, Some(temp))).LoggedIn?
            && Login(db1, LoginRequest(req.userId, Some(other))) == Refused(401, WrongPasswordMsg)
  {
    RewriteReachesHandle(db.users, req.email.value, req.userId.value, HashPassword(temp));
    LoginWithStoredHash(ResetPassword(db, req, temp, mailSent).0, req.userId.value, temp, other);
  }

  /** A handle whose first row holds the hash of `p` logs in with `p` and
      is refused with 401 for any other non-empty password. */
  lemma LoginWithStoredHash(db: Db, uid: string, p: string, other: string)
    requires uid != "" && p != "" && other != "" && other != p
    requires FindUser(db.users, uid).Some? && FindUser(db.users, uid).value.password == HashPassword(p)
    ensures Login(db, LoginRequest(Some(uid), Some(p))).LoggedIn?
    ensures Login(db, LoginRequest(Some(uid), Some(other))) == Refused(401, WrongPasswordMsg)
  {
  }

  // ---------------------------------------------------------------------
  // update-username
  // ---------------------------------------------------------------------

  /** The JSON body of a rename request. */
  datatype RenameRequest = RenameRequest(userId: Option<string>, username: Option<string>)

  /** `update_username`: 400 for a missing field; otherwise every row with
      that handle takes the new name and the answer is 200, even when no
      row matched. */
  function UpdateUsername(db: Db, req: RenameRequest): (r: (Db, Reply))
    ensures r.1.status in {400, 200}
    ensures r.1.status == 400 <==> !Given(req.userId) || !Given(req.username)
    ensures r.1.status == 400 ==> r.0 == db
    ensures r.0.items == db.items && |r.0.users| == |db.users|
    ensures r.1.status == 200 ==>
              forall k | 0 <= k < |db.users| ::
                if db.users[k].userId == req.userId.value
                then r.0.users[k] == db.users[k].(username := req.username.value)
                else r.0.users[k] == db.users[k]
  {
    if !Given(req.userId) || !Given(req.username) then (db, Reply(400, RenameMissingMsg))
    else (db.(users := SetUsername(db.users, req.userId.value, req.username.value)), Reply(200, RenamedMsg))
  }

  /** Renaming keeps the users unique and an unknown handle changes
      nothing. */
  lemma RenameKeepsUnique(db: Db, req: RenameRequest)
    requires UniqueUsers(db.users)
    ensures UniqueUsers(UpdateUsername(db, req).0.users)
    ensures Given(req.userId) && !UserIdTaken(db.users, req.userId.value) ==> UpdateUsername(db, req).0 == db
  {
    var r := UpdateUsername(db, req).0;
    KeysKeptUnique(db.users, r.users);
    if Given(req.userId) && !UserIdTaken(db.users, req.userId.value) {
      assert r.users == db.users;
    }
  }
}

=== FILE: base.dfy ===
/** Small shared vocabulary: optional values and the truthiness rule that
    Python's `not x` and JavaScript's `!x` apply to string fields. */
module Base {

  /** A value that may be absent: a missing JSON field, a SQL NULL, an empty
      `AsyncStorage` slot. */
  datatype Option<T> = None | Some(value: T) {

    /** The value, or `default` when absent (Python `x or default` when the
        value itself is truthy). */
    function GetOr(default: T): T {
      match this
      case Some(v) => v
      case None => default
    }
  }

  /** A string field counts as given when it is present and non-empty: both
      `None`/`undefined`/`null` and `""` are falsy in Python and JavaScript. */
  predicate Given(o: Option<string>) {
    o.Some? && o.value != ""
  }

  /** `a || b` on optional strings: the first truthy one, else `b`. */
  function OrElse(a: Option<string>, b: Option<string>): (r: Option<string>)
    ensures Given(a) ==> r == a
    ensures !Given(a) ==> r == b
  {
    if Given(a) then a else b
  }
}

=== FILE: change_password.dfy ===
/** The change-password screen: the rule chain its validation effect runs on
    every edit, the verify-then-reveal gate around the current password,
    and what the screen does with the server's answer to the final update.
    The screen is a state record driven by events; the verification reply
    arrives as an event carrying only whether the server said ok. */
module ChangePassword {
  import opened Base

  const MismatchMsg: string := "❌ 비밀번호가 일치하지 않습니다."
  const TooShortMsg: string := "❌ 비밀번호는 최소 6자 이상이어야 합니다."
  const SameAsOldMsg: string := "❌ 기존 비밀번호와 동일합니다."
  const ConfirmedMsg: string := "✅ 비밀번호가 확인되었습니다."
  const VerifiedMsg: string := "✅ 비밀번호가 확인되었습니다."
  const NotVerifiedMsg: string := "❌ 비밀번호가 일치하지 않습니다."
  const ChangeFailedMsg: string := "변경 실패"

  /** Minimum length of a new password. */
  const MinLength: nat := 6

  /** The inline message under the new-password fields and whether the
      submit button is enabled. */
  datatype Report = Report(message: string, valid: bool)

  /** The validation effect: with an empty confirmation nothing is shown;
      otherwise the first failing rule of mismatch, too short, same as the
      verified password wins. */
  function Validate(newPw: string, confirm: string, original: string): (r: Report)
    ensures confirm == "" ==> r == Report("", false)
    ensures r.valid <==> confirm != "" && newPw == confirm && |newPw| >= MinLength && newPw != original
    ensures r.valid ==> r.message == ConfirmedMsg
    ensures !r.valid && confirm != "" ==> r.message in {MismatchMsg, TooShortMsg, SameAsOldMsg}
  {
    if |confirm| > 0 then
      if newPw != confirm then Report(MismatchMsg, false)
      else if |newPw| < MinLength then Report(TooShortMsg, false)
      else if newPw == original then Report(SameAsOldMsg, false)
      else Report(ConfirmedMsg, true)
    else Report("", false)
  }

  /** The first failing rule wins: a mismatch is reported even when the new
      password is also short, and shortness even when it also equals the
      old password. */
  lemma RuleOrder(newPw: string, confirm: string, original: string)
    requires confirm != ""
    ensures newPw != confirm ==> Validate(newPw, confirm, original).message == MismatchMsg
    ensures newPw == confirm && |newPw| < MinLength ==> Validate(newPw, confirm, original).message == TooShortMsg
    ensures newPw == confirm && |newPw| >= MinLength && newPw == original ==>
              Validate(newPw, confirm, original).message == SameAsOldMsg
  {
  }

  /** The screen's state. `original` is the password that the server last
      confirmed; `isVerified` reveals the new-password fields. */
  datatype Screen = Screen(
    current: string,
    newPw: string,
    confirm: string,
    verificationMsg: string,
    matchMsg: string,
    isVerified: bool,
    isValid: bool,
    original: string)

  /** The screen as first rendered. */
  const Initial: Screen := Screen("", "", "", "", "", false, false, "")

  /** What can happen to the screen: typing in one of the three fields, or
      the reply to a press of the verify button arriving. The two
      new-password fields exist only once verified, so typing into them is
      possible only then. */
  datatype Event =
    | TypeCurrent(text: string)
    | TypeNew(text: string)
    | TypeConfirm(text: string)
    | VerifyReply(ok: bool)

  /** Re-runs the validation effect on the state's own fields. */
  function Revalidate(s: Screen): Screen {
    var r := Validate(s.newPw, s.confirm, s.original);
    s.(matchMsg := r.message, isValid := r.valid)
  }

  /** One event followed by the validation effect. A successful
      verification sets the flag and remembers the current password; a
      failed one changes only the message. Editing the current password
      does not withdraw an earlier verification. */
  function Step(s: Screen, e: Event): (t: Screen)
    ensures s.isVerified ==> t.isVerified
    ensures t.original != s.original ==> e == VerifyReply(true) && t.original == s.current
    ensures e == VerifyReply(false) ==> t.isVerified == s.isVerified && t.original == s.original
    ensures t.isVerified && !s.isVerified ==> e == VerifyReply(true)
    ensures e == VerifyReply(true) ==>
              && t.isVerified && t.original == s.current && t.verificationMsg == VerifiedMsg
              && t.current == s.current && t.newPw == s.newPw && t.confirm == s.confirm
    ensures e == VerifyReply(false) ==> t == s.(verificationMsg := NotVerifiedMsg)
    ensures e.TypeCurrent? ==>
              && t.current == e.text && t.newPw == s.newPw && t.confirm == s.confirm
              && t.isVerified == s.isVerified && t.original == s.original
              && t.verificationMsg == s.verificationMsg
    ensures (e.TypeNew? || e.TypeConfirm?) && !s.isVerified ==> t == s
    ensures e.TypeNew? && s.isVerified ==>
              && t.newPw == e.text && t.current == s.current && t.confirm == s.confirm
              && t.isVerified && t.original == s.original && t.verificationMsg == s.verificationMsg
    ensures e.TypeConfirm? && s.isVerified ==>
              && t.confirm == e.text && t.current == s.current && t.newPw == s.newPw
              && t.isVerified && t.original == s.original && t.verificationMsg == s.verificationMsg
    ensures e != VerifyReply(false) && (s.isVerified || !(e.TypeNew? || e.TypeConfirm?)) ==>
              t.isValid == Validate(t.newPw, t.confirm, t.original).valid
  {
    match e
    case TypeCurrent(x) => Revalidate(s.(current := x))
    case TypeNew(x) => if s.isVerified then Revalidate(s.(newPw := x)) else s
    case TypeConfirm(x) => if s.isVerified then Revalidate(s.(confirm := x)) else s
    case VerifyReply(ok) =>
      if ok then Revalidate(s.(isVerified := true, verificationMsg := VerifiedMsg, original := s.current))
      else s.(verificationMsg := NotVerifiedMsg)
  }

  /** The state after a sequence of events. */
  function Run(s: Screen, events: seq<Event>): Screen
    decreases |events|
  {
    if |events| == 0 then s else Run(Step(s, events[0]), events[1..])
  }

  /** What every reachable state satisfies: the button state is the rule
      chain applied to the fields, and before verification the new fields
      are untouched and nothing has been remembered. */
  predicate Consistent(s: Screen) {
    && s.isValid == Validate(s.newPw, s.confirm, s.original).valid
    && s.matchMsg == Validate(s.newPw, s.confirm, s.original).message
    && (!s.isVerified ==> s.original == "" && s.newPw == "" && s.confirm == "")
  }

  /** Every event keeps the screen consistent. */
  lemma StepConsistent(s: Screen, e: Event)
    requires Consistent(s)
    ensures Consistent(Step(s, e))
  {
  }

  /** Every run from a consistent screen stays consistent. */
  lemma {:induction false} RunConsistent(s: Screen, events: seq<Event>)
    requires Consistent(s)
    ensures Consistent(Run(s, events))
    decreases |events|
  {
    if |events| > 0 {
      StepConsistent(s, events[0]);
      RunConsistent(Step(s, events[0]), events[1..]);
    }
  }

  /** Verification is never withdrawn, whatever follows. */
  lemma {:induction false} VerifiedForever(s: Screen, events: seq<Event>)
    requires s.isVerified
    ensures Run(s, events).isVerified
    decreases |events|
  {
    if |events| > 0 {
      VerifiedForever(Step(s, events[0]), events[1..]);
    }
  }

  /** The remembered password is always one the server confirmed: it is
      either still the initial one or was the current password at the
      moment of some successful verification. */
  lemma {:induction false} OriginalFromVerification(s: Screen, events: seq<Event>)
    ensures var t := Run(s, events);
            t.original == s.original
            || exists k | 0 <= k < |events| :: events[k] == VerifyReply(true)
    decreases |events|
  {
    if |events| > 0 {
      OriginalFromVerification(Step(s, events[0]), events[1..]);
      if Run(s, events).original != s.original && Step(s, events[0]).original == s.original {
        var k :| 0 <= k < |events[1..]| && events[1..][k] == VerifyReply(true);
        assert events[k + 1] == VerifyReply(true);
      }
    }
  }

  /** The new-password fields are shown exactly when verified. */
  predicate FieldsShown(s: Screen) {
    s.isVerified
  }

  /** The submit button is rendered with the fields and enabled iff valid. */
  predicate SubmitEnabled(s: Screen) {
    FieldsShown(s) && s.isValid
  }

  /** From the initial screen, submit is never enabled before verification,
      and when enabled the entry meets every rule. */
  lemma SubmitGate(events: seq<Event>)
    ensures var t := Run(Initial, events);
            SubmitEnabled(t) <==> t.isVerified && t.confirm != "" && t.newPw == t.confirm
                                  && |t.newPw| >= MinLength && t.newPw != t.original
  {
    assert Consistent(Initial);
    RunConsistent(Initial, events);
  }

  /** The gate can be passed: verifying some current password and then
      typing a long enough, different new password twice enables submit. */
  lemma SubmitReachable(cur: string, pw: string)
    requires |pw| >= MinLength && pw != cur
    ensures SubmitEnabled(Run(Initial, [TypeCurrent(cur), VerifyReply(true), TypeNew(pw), TypeConfirm(pw)]))
  {
    var events := [TypeCurrent(cur), VerifyReply(true), TypeNew(pw), TypeConfirm(pw)];
    var s1 := Step(Initial, events[0]);
    var s2 := Step(s1, events[1]);
    var s3 := Step(s2, events[2]);
    var s4 := Step(s3, events[3]);
    assert Run(s4, []) == s4;
    assert Run(s3, [events[3]]) == s4;
    assert Run(s2, events[2..]) == Run(s3, [events[3]]);
    assert Run(s1, events[1..]) == Run(s2, events[2..]);
    assert Run(Initial, events) == Run(s1, events[1..]);
  }

  /** The server's answer to the update request. */
  datatype UpdateReply = UpdateReply(ok: bool, error: Option<string>)

  /** What the screen does after pressing submit. */
  datatype Outcome =
    | NotSent
    | ToSettings(passwordChanged: bool)
    | Alert(message: string)

  /** `onChangePassword` behind the button: nothing happens while the
      button is disabled; success goes back to Settings with the changed
      flag; failure alerts the server's error or the generic text. */
  function Submit(s: Screen, reply: UpdateReply): (o: Outcome)
    ensures !SubmitEnabled(s) ==> o == NotSent
    ensures SubmitEnabled(s) && reply.ok ==> o == ToSettings(true)
    ensures SubmitEnabled(s) && !reply.ok ==>
              o.Alert? && (o.message == ChangeFailedMsg || (reply.error.Some? && o.message == reply.error.value))
    ensures SubmitEnabled(s) && !reply.ok && !Given(reply.error) ==> o == Alert(ChangeFailedMsg)
    ensures SubmitEnabled(s) && !reply.ok && Given(reply.error) ==> o == Alert(reply.error.value)
  {
    if !SubmitEnabled(s) then NotSent
    else if reply.ok then ToSettings(true)
    else Alert(OrElse(reply.error, Some(ChangeFailedMsg)).value)
  }

  /** From the first render, a press of submit sends the update exactly
      when the entry meets every rule against the verified password; the
      server never sees a rejected entry. */
  lemma SubmitSendsOnlyValid(events: seq<Event>, reply: UpdateReply)
    ensures var t := Run(Initial, events);
            Submit(t, reply) != NotSent
            <==> t.isVerified && t.confirm != "" && t.newPw == t.confirm
                 && |t.newPw| >= MinLength && t.newPw != t.original
  {
    SubmitGate(events);
  }
}

=== FILE: chatbot_screen.dfy ===
/** The chatbot screen: the greeting, the guard and bookkeeping of sending
    a message, the mapping from the webhook's reply to the bot messages
    appended to the conversation, and the favourite button on recipe cards.
    Message ids come from the clock; here they are abstract stamps. */
module ChatbotScreen {
  import opened Base
  import opened Text

  const NoReplyMsg: string := "죄송합니다. 서버에서 응답을 받지 못했어요 😢"
  const NoTextMsg: string := "응답 텍스트가 없습니다"
  const ServerErrorPrefix: string := "❌ 서버 오류: "
  const DefaultSender: string := "default"
  const GreetingTail: string := "님, 안녕하세요! 무엇을 도와드릴까요?"
  const PlainGreeting: string := "안녕하세요! 무엇을 도와드릴까요?"

  /** A message id: the fixed id of the greeting, or a clock reading with,
      for the messages mapped from one reply, the element's index. */
  datatype MsgId = GreetingId | Stamp(clock: int, index: Option<nat>)

  /** A conversation entry: a text bubble, or a recipe card carrying the
      fields the bot sent. */
  datatype Message =
    | Bubble(id: MsgId, text: string, isUser: bool)
    | Card(id: MsgId, title: Option<string>, ingredients: Option<string>,
           instructions: Option<string>, url: Option<string>, rcpSno: Option<string>)
  {
    predicate FromUser() {
      Bubble? && isUser
    }
  }

  /** The `custom` payload of one reply element. */
  datatype Custom = Custom(kind: Option<string>, title: Option<string>, ingredients: Option<string>,
                           instructions: Option<string>, url: Option<string>, rcpSno: Option<string>)

  /** One element of the webhook's reply array. */
  datatype Element = Element(text: Option<string>, custom: Option<Custom>)

  /** The webhook's answer: a JSON array, some other JSON value, or a
      failure (network error or unparsable body) with its message. */
  datatype Reply = Elements(elems: seq<Element>) | NotArray | Failed(error: string)

  /** The screen's state. */
  datatype Chat = Chat(messages: seq<Message>, input: string, favorites: seq<MsgId>,
                       userName: Option<string>, userId: Option<string>)

  /** The first bot message: personalised iff a name is stored. */
  function Greeting(name: Option<string>): (g: string)
    ensures Given(name) ==> g == name.value + GreetingTail
    ensures !Given(name) ==> g == PlainGreeting
    ensures |g| >= |PlainGreeting| && g[|g| - |PlainGreeting|..] == PlainGreeting
  {
    assert GreetingTail == "님, " + PlainGreeting;
    if Given(name) then name.value + GreetingTail else PlainGreeting
  }

  /** The screen after its start-up effect read the stored name and id. */
  function Start(name: Option<string>, id: Option<string>): (c: Chat)
    ensures c.messages == [Bubble(GreetingId, Greeting(name), false)]
    ensures c.input == "" && c.favorites == []
  {
    Chat([Bubble(GreetingId, Greeting(name), false)], "", [], name, id)
  }

  /** A personalised greeting starts with the name and ends with the fixed
      tail; the plain one never mentions a name. */
  lemma GreetingShape(name: Option<string>)
    ensures Given(name) <==> Greeting(name) != PlainGreeting
    ensures Given(name) ==> Greeting(name)[..|name.value|] == name.value
  {
    if Given(name) {
      var g := Greeting(name);
      assert |g| == |name.value| + |GreetingTail|;
      assert GreetingTail == "님, " + PlainGreeting;
    }
  }

  /** The bot message for one reply element: a card when `custom.type` is
      `recipe`, else the element's text or a placeholder when it has none. */
  function Convert(e: Element, clock: int, index: nat): (m: Message)
    ensures m.id == Stamp(clock, Some(index)) && !m.FromUser()
    ensures m.Card? <==> e.custom.Some? && e.custom.value.kind == Some("recipe")
    ensures m.Card? ==> var c := e.custom.value;
              m.title == c.title && m.ingredients == c.ingredients && m.instructions == c.instructions
              && m.url == c.url && m.rcpSno == c.rcpSno
    ensures m.Bubble? ==> m.text == (if Given(e.text) then e.text.value else NoTextMsg)
  {
    var id := Stamp(clock, Some(index));
    if e.custom.Some? && e.custom.value.kind == Some("recipe") then
      var c := e.custom.value;
      Card(id, c.title, c.ingredients, c.instructions, c.url, c.rcpSno)
    else Bubble(id, OrElse(e.text, Some(NoTextMsg)).value, false)
  }

  /** The bot messages for a reply array, one per element in order. */
  function BotMessages(elems: seq<Element>, clock: int): (ms: seq<Message>)
    ensures |ms| == |elems|
    ensures forall k | 0 <= k < |elems| :: ms[k] == Convert(elems[k], clock, k)
    ensures forall i, j | 0 <= i < j < |ms| :: ms[i].id != ms[j].id
  {
    seq(|elems|, k requires 0 <= k < |elems| => Convert(elems[k], clock, k))
  }

  /** The bot messages for what the webhook answered. */
  function Answer(reply: Reply, clock: int): (ms: seq<Message>)
    ensures reply.Failed? ==> ms == [Bubble(Stamp(clock, None), ServerErrorPrefix + reply.error, false)]
    ensures reply.NotArray? || reply == Elements([]) ==> ms == [Bubble(Stamp(clock, None), NoReplyMsg, false)]
    ensures reply.Elements? && |reply.elems| > 0 ==> |ms| == |reply.elems|
    ensures |ms| >= 1
    ensures forall m | m in ms :: !m.FromUser()
    ensures forall m | m in ms :: m.id.Stamp? && m.id.clock == clock
    ensures forall i, j | 0 <= i < j < |ms| :: ms[i].id != ms[j].id
  {
    match reply
    case Failed(error) => [Bubble(Stamp(clock, None), ServerErrorPrefix + error, false)]
    case NotArray => [Bubble(Stamp(clock, None), NoReplyMsg, false)]
    case Elements(elems) =>
      if |elems| == 0 then [Bubble(Stamp(clock, None), NoReplyMsg, false)]
      else BotMessages(elems, clock)
  }

  /** The request the screen sends: sender and message text. */
  datatype Request = Request(sender: string, message: string)

  /** `sendMessage`. A blank input (only white space) does nothing. Otherwise
      the user's message is appended and the input cleared, the request goes
      out under the screen's user id, else the stored one, else `default`,
      and the reply's bot messages are appended after it. `sentAt` and
      `answeredAt` are the clock readings taken for the ids. */
  function Send(c: Chat, stored: Option<string>, reply: Reply, sentAt: int, answeredAt: int)
    : (r: (Chat, Option<Request>))
    ensures Strip(c.input, IsJsSpace) == "" ==> r == (c, None)
    ensures Strip(c.input, IsJsSpace) != "" ==>
              && r.1 == Some(Request(OrElse(OrElse(c.userId, stored), Some(DefaultSender)).value, c.input))
              && r.0.input == ""
              && r.0.favorites == c.favorites && r.0.userId == c.userId && r.0.userName == c.userName
              && r.0.messages == c.messages + [Bubble(Stamp(sentAt, None), c.input, true)] + Answer(reply, answeredAt)
  {
    if Strip(c.input, IsJsSpace) == "" then (c, None)
    else
      var sender := OrElse(OrElse(c.userId, stored), Some(DefaultSender)).value;
      var mine := Bubble(Stamp(sentAt, None), c.input, true);
      (c.(messages := c.messages + [mine] + Answer(reply, answeredAt), input := ""),
       Some(Request(sender, c.input)))
  }

  /** How many messages the user wrote. */
  function UserCount(ms: seq<Message>): nat {
    if |ms| == 0 then 0 else (if ms[0].FromUser() then 1 else 0) + UserCount(ms[1..])
  }

  lemma {:induction false} UserCountAppend(a: seq<Message>, b: seq<Message>)
    ensures UserCount(a + b) == UserCount(a) + UserCount(b)
    decreases |a|
  {
    if |a| == 0 {
      assert a + b == b;
    } else {
      assert (a + b)[0] == a[0];
      assert (a + b)[1..] == a[1..] + b;
      UserCountAppend(a[1..], b);
    }
  }

  lemma {:induction false} NoUserMessages(ms: seq<Message>)
    requires forall m | m in ms :: !m.FromUser()
    ensures UserCount(ms) == 0
    decreases |ms|
  {
    if |ms| > 0 {
      assert ms[0] in ms;
      NoUserMessages(ms[1..]);
    }
  }

  /** Each non-blank send adds exactly one user message, followed by as
      many bot messages as the reply array has elements (one when it has
      none, is not an array, or the request failed). */
  lemma SendCounts(c: Chat, stored: Option<string>, reply: Reply, sentAt: int, answeredAt: int)
    requires Strip(c.input, IsJsSpace) != ""
    ensures var t := Send(c, stored, reply, sentAt, answeredAt).0;
            && UserCount(t.messages) == UserCount(c.messages) + 1
            && |t.messages| == |c.messages| + 1
                 + (if reply.Elements? && |reply.elems| > 0 then |reply.elems| else 1)
  {
    var bot := Answer(reply, answeredAt);
    var mine := Bubble(Stamp(sentAt, None), c.input, true);
    UserCountAppend(c.messages, [mine]);
    UserCountAppend(c.messages + [mine], bot);
    NoUserMessages(bot);
    assert UserCount([mine]) == 1 by {
      assert [mine][1..] == [];
    }
  }

  /** A reply of plain texts reads back: the bot bubbles carry exactly the
      texts the webhook sent. */
  lemma TextsReadBack(elems: seq<Element>, clock: int)
    requires forall k | 0 <= k < |elems| :: elems[k].custom.None? && Given(elems[k].text)
    ensures var ms := BotMessages(elems, clock);
            forall k | 0 <= k < |elems| :: ms[k].Bubble? && ms[k].text == elems[k].text.value
  {
  }

  /** The answer to saving a favourite. */
  datatype SaveReply = Saved | Refused(error: Option<string>) | SaveFailed

  /** What the user sees after pressing the star. */
  datatype Notice = NoUserAlert | SavedToast | RefusedToast(error: Option<string>) | SaveErrorAlert

  /** `handleFavorite`: without a user id nothing is sent and only an alert
      shows; the card's id joins the favourites only when the server said
      ok. */
  function Favorite(c: Chat, card: MsgId, stored: Option<string>, reply: SaveReply): (r: (Chat, Notice))
    ensures r.0.favorites == (if Given(OrElse(c.userId, stored)) && reply.Saved? then c.favorites + [card]
                              else c.favorites)
    ensures r.0.messages == c.messages && r.0.input == c.input
    ensures !Given(OrElse(c.userId, stored)) ==> r.1 == NoUserAlert
    ensures Given(OrElse(c.userId, stored)) ==>
              r.1 == (match reply
                      case Saved => SavedToast
                      case Refused(error) => RefusedToast(error)
                      case SaveFailed => SaveErrorAlert)
  {
    if !Given(OrElse(c.userId, stored)) then (c, NoUserAlert)
    else match reply
      case Saved => (c.(favorites := c.favorites + [card]), SavedToast)
      case Refused(error) => (c, RefusedToast(error))
      case SaveFailed => (c, SaveErrorAlert)
  }

  /** The star on a card is lit when the card's id is among the favourites. */
  predicate StarLit(c: Chat, card: MsgId) {
    card in c.favorites
  }

  /** Pressing the star lights it exactly when a user id is known and the
      server saved the recipe; otherwise every star stays as it was, and a
      lit star is never put out. */
  lemma FavoriteLightsStar(c: Chat, card: MsgId, stored: Option<string>, reply: SaveReply)
    ensures var t := Favorite(c, card, stored, reply).0;
            Given(OrElse(c.userId, stored)) && reply.Saved? ==> StarLit(t, card)
    ensures var t := Favorite(c, card, stored, reply).0;
            !(Given(OrElse(c.userId, stored)) && reply.Saved?) ==>
              forall other :: StarLit(t, other) <==> StarLit(c, other)
    ensures var t := Favorite(c, card, stored, reply).0;
            forall other | StarLit(c, other) :: StarLit(t, other)
    ensures var t := Favorite(c, card, stored, reply).0;
            forall other | other != card :: StarLit(t, other) <==> StarLit(c, other)
  {
  }
}

=== FILE: fridge_routes.dfy ===
/** The fridge routes: adding, deleting and listing a user's items over
    the abstract `fridge_items` table. Each route maps the database and the
    request to the new database and the reply. */
module FridgeRoutes {
  import opened Base
  import opened Tables

  const MissingMsg: string := "필수 정보가 누락되었습니다."
  const UnknownUserMsg: string := "사용자 정보를 찾을 수 없습니다."
  const ListUnknownMsg: string := "사용자를 찾을 수 없습니다."
  const DuplicateMsg: string := "이미 등록된 재료입니다."
  const AddedMsg: string := "재료가 추가되었습니다."
  const DeletedMsg: string := "재료가 삭제되었습니다."

  /** The JSON body of an add or delete request. `isSeasoning` is the
      value of `is_seasoning` after `int()`, absent when the key is. */
  datatype ItemRequest = ItemRequest(userId: Option<string>, itemName: Option<string>, isSeasoning: Option<int>)

  /** `is_seasoning` defaults to 0 when the key is absent. */
  function Flag(isSeasoning: Option<int>): (f: int)
    ensures isSeasoning.None? ==> f == 0
    ensures isSeasoning.Some? ==> f == isSeasoning.value
  {
    isSeasoning.GetOr(0)
  }

  /** `get_user_numeric_id` behind `if not user_numeric_id`: the numeric
      id of the handle, treated as unknown when there is no row or its id
      is 0. */
  function Owner(users: seq<User>, uid: string): (r: Option<int>)
    ensures r.Some? ==> UserIdTaken(users, uid) && r.value != 0
    ensures UniqueUsers(users) ==> (r.Some? <==> UserIdTaken(users, uid))
    ensures r.Some? ==> exists k | 0 <= k < |users| :: FirstWithId(users, uid, k) && users[k].id == r.value
    ensures r.Some? <==> FindUser(users, uid).Some? && FindUser(users, uid).value.id != 0
  {
    match FindUser(users, uid)
    case None => None
    case Some(u) => if u.id == 0 then None else Some(u.id)
  }

  /** The row an accepted request is about. */
  function Row(users: seq<User>, req: ItemRequest): (row: Option<FridgeItem>)
    ensures row.Some? <==> Given(req.userId) && Given(req.itemName) && Owner(users, req.userId.value).Some?
    ensures row.Some? ==> row.value == FridgeItem(Owner(users, req.userId.value).value, req.itemName.value, Flag(req.isSeasoning))
  {
    if !Given(req.userId) || !Given(req.itemName) then None
    else match Owner(users, req.userId.value)
      case None => None
      case Some(owner) => Some(FridgeItem(owner, req.itemName.value, Flag(req.isSeasoning)))
  }

  /** `add_ingredient`: 400 for a missing field before any lookup, 404 for
      an unknown user, 409 when the same (user, name, kind) row exists;
      otherwise exactly one row is appended and the answer is 201. */
  function Add(db: Db, req: ItemRequest): (r: (Db, Reply))
    ensures r.1.status in {400, 404, 409, 201}
    ensures r.1.status == 400 <==> !Given(req.userId) || !Given(req.itemName)
    ensures r.1.status == 404 <==> Given(req.userId) && Given(req.itemName) && Owner(db.users, req.userId.value).None?
    ensures r.1.status == 409 <==> Row(db.users, req).Some? && Row(db.users, req).value in db.items
    ensures r.1.status != 201 ==> r.0 == db
    ensures r.1.status == 201 ==> Row(db.users, req).Some? && r.0 == db.(items := db.items + [Row(db.users, req).value])
  {
    if !Given(req.userId) || !Given(req.itemName) then (db, Reply(400, MissingMsg))
    else
      var row := Row(db.users, req);
      if row.None? then (db, Reply(404, UnknownUserMsg))
      else if row.value in db.items then (db, Reply(409, DuplicateMsg))
      else (db.(items := db.items + [row.value]), Reply(201, AddedMsg))
  }

  /** Adding keeps every (user, name, kind) row unique. */
  lemma AddKeepsItemsUnique(db: Db, req: ItemRequest)
    requires NoDuplicateItems(db.items)
    ensures NoDuplicateItems(Add(db, req).0.items)
  {
    var r := Add(db, req);
    if r.1.status == 201 {
      var row := Row(db.users, req).value;
      var items := db.items + [row];
      forall i, j | 0 <= i < j < |items| ensures items[i] != items[j] {
        if j == |db.items| {
          assert items[i] == db.items[i];
        }
      }
    }
  }

  /** The same request sent twice: the second one is a 409 and changes
      nothing. */
  lemma AddTwiceConflicts(db: Db, req: ItemRequest)
    requires Add(db, req).1.status == 201
    ensures var db1 := Add(db, req).0;
            Add(db1, req) == (db1, Reply(409, DuplicateMsg))
  {
    var db1 := Add(db, req).0;
    assert db1.users == db.users;
    assert Row(db.users, req).value in db1.items;
  }

  /** Because the kind is part of the key, the same name can be held both
      as an ingredient and as a seasoning; a request without the flag
      stores an ingredient. */
  lemma SameNameBothKinds(db: Db, uid: string, name: string)
    requires name != "" && uid != ""
    requires Owner(db.users, uid).Some?
    requires forall k | 0 <= k < |db.items| :: db.items[k].name != name
    ensures var db1 := Add(db, ItemRequest(Some(uid), Some(name), None)).0;
            Add(db, ItemRequest(Some(uid), Some(name), None)).1.status == 201
            && Add(db1, ItemRequest(Some(uid), Some(name), Some(1))).1.status == 201
            && Add(db1, ItemRequest(Some(uid), Some(name), Some(1))).0.items
               == db.items + [FridgeItem(Owner(db.users, uid).value, name, 0),
                              FridgeItem(Owner(db.users, uid).value, name, 1)]
  {
    var owner := Owner(db.users, uid).value;
    assert FridgeItem(owner, name, 0) !in db.items;
    var db1 := Add(db, ItemRequest(Some(uid), Some(name), None)).0;
    assert db1.items == db.items + [FridgeItem(owner, name, 0)];
    assert FridgeItem(owner, name, 1) !in db1.items;
  }

  /** The rows that remain after deleting every copy of `row`. */
  function Without(items: seq<FridgeItem>, row: FridgeItem): (r: seq<FridgeItem>)
    ensures |r| <= |items|
    ensures forall x :: x in r <==> x in items && x != row
  {
    if |items| == 0 then []
    else
      var rest := Without(items[1..], row);
      assert items == [items[0]] + items[1..];
      if items[0] == row then rest else [items[0]] + rest
  }

  /** Deleting distributes over concatenation, so the remaining rows keep
      their order. */
  lemma {:induction false} WithoutAppend(a: seq<FridgeItem>, b: seq<FridgeItem>, row: FridgeItem)
    ensures Without(a + b, row) == Without(a, row) + Without(b, row)
    decreases |a|
  {
    if |a| == 0 {
      assert a + b == b;
    } else {
      assert (a + b)[0] == a[0];
      assert (a + b)[1..] == a[1..] + b;
      WithoutAppend(a[1..], b, row);
    }
  }

  /** Deleting an absent row changes nothing. */
  lemma {:induction false} WithoutAbsent(items: seq<FridgeItem>, row: FridgeItem)
    requires row !in items
    ensures Without(items, row) == items
    decreases |items|
  {
    if |items| > 0 {
      assert row !in items[1..];
      WithoutAbsent(items[1..], row);
      assert items == [items[0]] + items[1..];
    }
  }

  /** `delete_fridge_item`: the same 400 and 404 guards as adding; then
      every matching row goes, and the answer is 200 even when none
      matched. */
  function Delete(db: Db, req: ItemRequest): (r: (Db, Reply))
    ensures r.1.status in {400, 404, 200}
    ensures r.1.status == 400 <==> !Given(req.userId) || !Given(req.itemName)
    ensures r.1.status == 200 <==> Row(db.users, req).Some?
    ensures r.0.users == db.users
    ensures r.1.status != 200 ==> r.0 == db
    ensures r.1.status == 200 ==>
              forall x :: x in r.0.items <==> x in db.items && x != Row(db.users, req).value
  {
    if !Given(req.userId) || !Given(req.itemName) then (db, Reply(400, MissingMsg))
    else
      var row := Row(db.users, req);
      if row.None? then (db, Reply(404, UnknownUserMsg))
      else (db.(items := Without(db.items, row.value)), Reply(200, DeletedMsg))
  }

  /** Deleting keeps the table free of duplicates. */
  lemma {:induction false} WithoutKeepsUnique(items: seq<FridgeItem>, row: FridgeItem)
    requires NoDuplicateItems(items)
    ensures NoDuplicateItems(Without(items, row))
    decreases |items|
  {
    if |items| > 0 {
      assert NoDuplicateItems(items[1..]) by {
        forall i, j | 0 <= i < j < |items[1..]| ensures items[1..][i] != items[1..][j] {
          assert items[1..][i] == items[i + 1] && items[1..][j] == items[j + 1];
        }
      }
      WithoutKeepsUnique(items[1..], row);
      var rest := Without(items[1..], row);
      if items[0] != row {
        assert items[0] !in items[1..] by {
          forall k | 0 <= k < |items[1..]| ensures items[1..][k] != items[0] {
            assert items[1..][k] == items[k + 1];
          }
        }
        var r := [items[0]] + rest;
        forall i, j | 0 <= i < j < |r| ensures r[i] != r[j] {
          if i == 0 {
            assert r[j] in rest;
          } else {
            assert r[i] == rest[i - 1] && r[j] == rest[j - 1];
          }
        }
      }
    }
  }

  /** An accepted add followed by the same delete gives the table back. */
  lemma AddThenDelete(db: Db, req: ItemRequest)
    requires Add(db, req).1.status == 201
    ensures Delete(Add(db, req).0, req).0 == db
  {
    var row := Row(db.users, req).value;
    WithoutAppend(db.items, [row], row);
    WithoutAbsent(db.items, row);
    assert Without([row], row) == [];
  }

  /** One element of the listing: name and stored flag. */
  datatype Listed = Listed(name: string, isSeasoning: int)

  /** The listing of some rows, in storage order. */
  function Listing(items: seq<FridgeItem>): (r: seq<Listed>)
    ensures |r| == |items|
    ensures forall k | 0 <= k < |items| :: r[k] == Listed(items[k].name, items[k].isSeasoning)
  {
    seq(|items|, k requires 0 <= k < |items| => Listed(items[k].name, items[k].isSeasoning))
  }

  /** The answer to a listing request. */
  datatype ListReply = Found(items: seq<Listed>) | NotFound(error: string)

  /** `get_fridge_items`: 404 for an unknown user, otherwise exactly that
      user's rows as (name, flag) pairs in storage order; never changes the
      table. */
  function List(db: Db, uid: string): (r: ListReply)
    ensures r.NotFound? <==> Owner(db.users, uid).None?
    ensures r.Found? ==>
              var owner := Owner(db.users, uid).value;
              && |r.items| == |ItemsOf(db.items, owner)|
              && (forall k | 0 <= k < |db.items| :: db.items[k].owner == owner ==>
                    Listed(db.items[k].name, db.items[k].isSeasoning) in r.items)
              && (forall x | x in r.items :: FridgeItem(owner, x.name, x.isSeasoning) in db.items)
  {
    match Owner(db.users, uid)
    case None => NotFound(ListUnknownMsg)
    case Some(owner) =>
      var mine := ItemsOf(db.items, owner);
      var r := Listing(mine);
      assert forall k | 0 <= k < |db.items| :: db.items[k].owner == owner ==>
               exists j | 0 <= j < |mine| :: mine[j] == db.items[k];
      assert forall x | x in r :: exists j | 0 <= j < |mine| :: r[j] == x;
      Found(r)
  }

  /** After an accepted add, the user's listing ends with the new row. */
  lemma ListAfterAdd(db: Db, req: ItemRequest)
    requires Add(db, req).1.status == 201
    ensures var row := Row(db.users, req).value;
            var l := List(Add(db, req).0, req.userId.value);
            l.Found? && |l.items| > 0 && l.items[|l.items| - 1] == Listed(row.name, row.isSeasoning)
  {
    var row := Row(db.users, req).value;
    ItemsOfAppend(db.items, row, row.owner);
  }

  /** Appending a row of `owner` appends it to the owner's rows. */
  lemma {:induction false} ItemsOfAppend(items: seq<FridgeItem>, row: FridgeItem, owner: int)
    requires row.owner == owner
    ensures ItemsOf(items + [row], owner) == ItemsOf(items, owner) + [row]
    decreases |items|
  {
    if |items| == 0 {
      assert items + [row] == [row];
    } else {
      assert (items + [row])[0] == items[0];
      assert (items + [row])[1..] == items[1..] + [row];
      ItemsOfAppend(items[1..], row, owner);
    }
  }
}

=== FILE: fridge_screen.dfy ===
/** The fridge screen: splitting the loaded items into ingredients and
    seasonings, and what adding and deleting an item do to the two lists,
    the global store, the message and the input field for each kind of
    server answer. The three-second message timer is not modelled. */
module FridgeScreen {
  import opened Base
  import FridgeStore

  const ServerTroubleMsg: string := "문제가 발생했습니다."
  const AddCrashedMsg: string := "서버 오류가 발생했습니다."
  const DeleteFailedMsg: string := "삭제 실패"
  const DeleteCrashedMsg: string := "삭제 중 오류 발생"

  /** One element of the list the server returns: the name and the stored
      `is_seasoning` value (truthy when non-zero). */
  datatype Listed = Listed(name: string, isSeasoning: int)

  /** The names of the listed items of one kind, in server order. */
  function NamesOf(items: seq<Listed>, seasoning: bool): (r: seq<string>)
    ensures |r| <= |items|
    ensures forall x :: x in r <==> exists k | 0 <= k < |items| :: items[k].name == x && (items[k].isSeasoning != 0) == seasoning
  {
    if |items| == 0 then []
    else
      var rest := NamesOf(items[1..], seasoning);
      assert forall k | 1 <= k < |items| :: items[k] == items[1..][k - 1];
      if (items[0].isSeasoning != 0) == seasoning then [items[0].name] + rest else rest
  }

  /** Each kind's list keeps the server's order: the list for two runs of
      items is the first run's list followed by the second's. */
  lemma {:induction false} NamesOfAppend(a: seq<Listed>, b: seq<Listed>, seasoning: bool)
    ensures NamesOf(a + b, seasoning) == NamesOf(a, seasoning) + NamesOf(b, seasoning)
    decreases |a|
  {
    if |a| == 0 {
      assert a + b == b;
    } else {
      assert (a + b)[0] == a[0];
      assert (a + b)[1..] == a[1..] + b;
      NamesOfAppend(a[1..], b, seasoning);
    }
  }

  /** The names of all listed items, in server order. */
  function Names(items: seq<Listed>): (r: seq<string>)
    ensures |r| == |items|
    ensures forall k | 0 <= k < |items| :: r[k] == items[k].name
  {
    if |items| == 0 then [] else [items[0].name] + Names(items[1..])
  }

  /** Every loaded item lands in exactly one of the two lists: together they
      hold the listed names, each as often as it was listed. */
  lemma {:induction false} PartitionExact(items: seq<Listed>)
    ensures |NamesOf(items, false)| + |NamesOf(items, true)| == |items|
    ensures multiset(NamesOf(items, false)) + multiset(NamesOf(items, true)) == multiset(Names(items))
    decreases |items|
  {
    if |items| > 0 {
      PartitionExact(items[1..]);
      var x := items[0].name;
      assert multiset(Names(items)) == multiset([x]) + multiset(Names(items[1..]));
      var seasoning := items[0].isSeasoning != 0;
      assert NamesOf(items, seasoning) == [x] + NamesOf(items[1..], seasoning);
      assert multiset(NamesOf(items, seasoning)) == multiset([x]) + multiset(NamesOf(items[1..], seasoning));
      assert NamesOf(items, !seasoning) == NamesOf(items[1..], !seasoning);
    }
  }

  /** Which list new input goes to (the toggle above the input). */
  datatype Kind = Ingredient | Seasoning

  /** The screen's state. */
  datatype Screen = Screen(
    kind: Kind,
    ingredients: seq<string>,
    seasonings: seq<string>,
    store: seq<string>,
    message: string,
    isError: bool,
    input: string)

  /** The screen before anything is loaded. */
  function Initial(store: seq<string>): Screen {
    Screen(Ingredient, [], [], store, "", false, "")
  }

  /** The answer to the load request: ok with the items, or anything else. */
  datatype ListReply = Listing(items: seq<Listed>) | NotListed

  /** The load effect: on an ok answer the lists become the two kinds of
      items; otherwise nothing changes. */
  function Loaded(s: Screen, reply: ListReply): (t: Screen)
    ensures reply.NotListed? ==> t == s
    ensures reply.Listing? ==>
              t == s.(ingredients := NamesOf(reply.items, false), seasonings := NamesOf(reply.items, true))
    ensures reply.Listing? ==>
              multiset(t.ingredients) + multiset(t.seasonings) == multiset(Names(reply.items))
  {
    match reply
    case Listing(items) =>
      PartitionExact(items);
      s.(ingredients := NamesOf(items, false), seasonings := NamesOf(items, true))
    case NotListed => s
  }

  /** An answer to an add or delete request: status with the body's
      `message` and `error`, or `Crashed` when the request or its body
      failed. */
  datatype Reply = Answered(status: int, message: string, error: Option<string>) | Crashed

  predicate Ok(status: int) {
    200 <= status < 300
  }

  /** The accepted add: the input joins the store and the list of the
      selected kind, and the server's message is shown. */
  function Accepted(s: Screen, message: string): Screen {
    var s1 := s.(store := FridgeStore.Add(s.store, s.input), message := message, isError := false);
    if s.kind == Seasoning then s1.(seasonings := s.seasonings + [s.input])
    else s1.(ingredients := s.ingredients + [s.input])
  }

  /** `onSubmit`: empty input does nothing at all; 409 shows the server's
      error; success appends to the store and to the list of the selected
      kind; other failures show a generic error; the input is then
      cleared. */
  function Submit(s: Screen, reply: Reply): (t: Screen)
    ensures s.input == "" ==> t == s
    ensures s.input != "" ==> t.input == "" && t.kind == s.kind
    ensures s.input != "" && reply.Answered? && Ok(reply.status) && reply.status != 409 ==>
              && t.store == FridgeStore.Add(s.store, s.input)
              && t.ingredients == (if s.kind == Ingredient then s.ingredients + [s.input] else s.ingredients)
              && t.seasonings == (if s.kind == Seasoning then s.seasonings + [s.input] else s.seasonings)
              && !t.isError && t.message == reply.message
    ensures !(reply.Answered? && Ok(reply.status)) ==>
              t.store == s.store && t.ingredients == s.ingredients && t.seasonings == s.seasonings
    ensures s.input != "" && reply.Answered? && reply.status == 409 ==>
              t.isError && t.message == reply.error.GetOr("")
    ensures s.input != "" && reply.Answered? && reply.status != 409 && !Ok(reply.status) ==>
              t.isError && t.message == ServerTroubleMsg
    ensures s.input != "" && reply.Crashed? ==> t.isError && t.message == AddCrashedMsg
  {
    if s.input == "" then s
    else
      var item := s.input;
      var u :=
        match reply
        case Crashed => s.(message := AddCrashedMsg, isError := true)
        case Answered(status, message, error) =>
          if status == 409 then s.(message := error.GetOr(""), isError := true)
          else if Ok(status) then Accepted(s, message)
          else s.(message := ServerTroubleMsg, isError := true);
      u.(input := "")
  }

  /** `handleDelete`: success removes every copy of the item from the list
      it was shown in and nowhere else; failure shows the server's error or
      a generic text; the store is never touched; the input is cleared. */
  function Delete(s: Screen, item: string, seasoning: bool, reply: Reply): (t: Screen)
    ensures t.input == "" && t.store == s.store && t.kind == s.kind
    ensures reply.Answered? && Ok(reply.status) ==>
              && t.ingredients == (if seasoning then s.ingredients else FridgeStore.Remove(s.ingredients, item))
              && t.seasonings == (if seasoning then FridgeStore.Remove(s.seasonings, item) else s.seasonings)
              && !t.isError && t.message == reply.message
    ensures !(reply.Answered? && Ok(reply.status)) ==>
              t.ingredients == s.ingredients && t.seasonings == s.seasonings && t.isError
    ensures reply.Answered? && !Ok(reply.status) ==>
              t.message == OrElse(reply.error, Some(DeleteFailedMsg)).value
    ensures reply.Crashed? ==> t.message == DeleteCrashedMsg
  {
    var u :=
      match reply
      case Crashed => s.(message := DeleteCrashedMsg, isError := true)
      case Answered(status, message, error) =>
        if Ok(status) then
          var s1 := if seasoning then s.(seasonings := FridgeStore.Remove(s.seasonings, item))
                    else s.(ingredients := FridgeStore.Remove(s.ingredients, item));
          s1.(message := message, isError := false)
        else s.(message := OrElse(error, Some(DeleteFailedMsg)).value, isError := true);
    u.(input := "")
  }

  /** Adding a new item and deleting it again, both accepted, leaves the
      list as it was, but the store keeps the added copy: deletion never
      reaches the store. */
  lemma AddThenDelete(s: Screen, added: Reply, deleted: Reply)
    requires s.input != "" && s.kind == Ingredient && s.input !in s.ingredients
    requires added.Answered? && Ok(added.status) && added.status != 409
    requires deleted.Answered? && Ok(deleted.status)
    ensures var t := Delete(Submit(s, added), s.input, false, deleted);
            t.ingredients == s.ingredients && t.seasonings == s.seasonings
            && t.store == s.store + [s.input]
  {
    FridgeStore.AddThenRemove(s.ingredients, s.input);
  }
}

=== FILE: fridge_store.dfy ===
/** The global fridge store: one list of ingredient names with three
    operations. Each operation is a function from the old list to the new
    one. */
module FridgeStore {

  /** The list the store starts with. */
  const Initial: seq<string> := []

  /** `addIngredient`: the item goes at the end; duplicates are allowed. */
  function Add(list: seq<string>, item: string): (r: seq<string>)
    ensures |r| == |list| + 1
    ensures r[..|list|] == list && r[|list|] == item
  {
    list + [item]
  }

  /** `removeIngredient`: every element equal to `item` goes, the rest stay
      in order. */
  function Remove(list: seq<string>, item: string): (r: seq<string>)
    ensures |r| <= |list|
    ensures item !in r
    ensures forall x :: x in r <==> x in list && x != item
  {
    if |list| == 0 then []
    else
      var rest := Remove(list[1..], item);
      assert list == [list[0]] + list[1..];
      if list[0] == item then rest else [list[0]] + rest
  }

  /** `clearFridge`: the empty list, whatever was there. */
  function Clear(list: seq<string>): (r: seq<string>)
    ensures |r| == 0
  {
    []
  }

  /** Removal keeps the order: it distributes over concatenation. */
  lemma {:induction false} RemoveAppend(a: seq<string>, b: seq<string>, item: string)
    ensures Remove(a + b, item) == Remove(a, item) + Remove(b, item)
    decreases |a|
  {
    if |a| == 0 {
      assert a + b == b;
    } else {
      assert (a + b)[0] == a[0];
      assert (a + b)[1..] == a[1..] + b;
      RemoveAppend(a[1..], b, item);
    }
  }

  /** Removing an item that is not there changes nothing. */
  lemma {:induction false} RemoveAbsent(list: seq<string>, item: string)
    requires item !in list
    ensures Remove(list, item) == list
    decreases |list|
  {
    if |list| > 0 {
      assert item !in list[1..];
      RemoveAbsent(list[1..], item);
      assert list == [list[0]] + list[1..];
    }
  }

  /** Adding a new item and removing it again gives the list back. */
  lemma AddThenRemove(list: seq<string>, item: string)
    requires item !in list
    ensures Remove(Add(list, item), item) == list
  {
    RemoveAppend(list, [item], item);
    RemoveAbsent(list, item);
    assert Remove([item], item) == [];
  }

  /** Removing twice is removing once. */
  lemma RemoveIdempotent(list: seq<string>, item: string)
    ensures Remove(Remove(list, item), item) == Remove(list, item)
  {
    RemoveAbsent(Remove(list, item), item);
  }

  /** The number of elements removed is the number of copies of the item. */
  lemma {:induction false} RemoveCount(list: seq<string>, item: string)
    ensures |Remove(list, item)| == |list| - multiset(list)[item]
    decreases |list|
  {
    if |list| > 0 {
      assert list == [list[0]] + list[1..];
      assert multiset(list) == multiset([list[0]]) + multiset(list[1..]);
      RemoveCount(list[1..], item);
    }
  }
}

=== FILE: recipe_routes.dfy ===
/** The recipe routes: the search by ingredients, which builds one `LIKE`
    condition per ingredient, and the search by category, both over the
    abstract `recipes_dataset` table, with the row normalisation they
    share. `LIKE` is read as a plain substring test (see README). */
module RecipeRoutes {
  import opened Base
  import opened Text
  import RecipeText

  const Select: string := "SELECT RCP_SNO, RCP_TTL, "
  const Columns: string := "CKG_MTRL_CN, CKG_STA_ACTO_NM"
  const From: string := " FROM recipes_dataset"
  const Where: string := " WHERE 1=1"
  const BaseSql: string := Select + Columns + From + Where
  const ClauseHead: string := " AND CKG_MTRL_CN LIKE "
  const Clause: string := ClauseHead + "?"

  const NoIngredientsMsg: string := "검색할 재료를 최소 1개 이상 지정해주세요."
  const NoMatchMsg: string := "조건에 맞는 레시피가 없습니다."
  const NoCategoryMsg: string := "카테고리 이름을 지정해주세요."
  const EmptyCategoryTail: string := "' 카테고리의 레시피가 없습니다."

  // ---------------------------------------------------------------------
  // Query construction
  // ---------------------------------------------------------------------

  /** `n` copies of `s`, one after the other. */
  function Repeat(s: string, n: nat): (r: string)
    ensures |r| == n * |s|
  {
    if n == 0 then "" else Repeat(s, n - 1) + s
  }

  /** The parameter bound to one ingredient's placeholder. */
  function Wrap(ing: string): (p: string)
    ensures |p| == |ing| + 2 && p[0] == '%' && p[|p| - 1] == '%' && p[1..|p| - 1] == ing
  {
    "%" + ing + "%"
  }

  /** The parameter list: one wrapped ingredient per ingredient, in order. */
  function Params(ings: seq<string>): (ps: seq<string>)
    ensures |ps| == |ings|
    ensures forall k | 0 <= k < |ings| :: ps[k] == Wrap(ings[k])
  {
    seq(|ings|, k requires 0 <= k < |ings| => Wrap(ings[k]))
  }

  /** The fixed part of the query holds no placeholder. */
  lemma BaseHasNoPlaceholder()
    ensures '?' !in BaseSql
  {
    SelectClean();
    FromClean();
    assert BaseSql == (Select + Columns) + (From + Where);
  }

  lemma SelectClean()
    ensures '?' !in Select + Columns
  {
    assert '?' !in Select;
    assert '?' !in Columns;
  }

  lemma FromClean()
    ensures '?' !in From + Where
  {
    assert '?' !in From;
    assert '?' !in Where;
  }

  lemma HeadHasNoPlaceholder()
    ensures '?' !in ClauseHead
  {
  }

  /** Hence the fixed part counts zero placeholders. */
  lemma BaseCountsNoPlaceholder()
    ensures CountChar(BaseSql, '?') == 0
  {
    BaseHasNoPlaceholder();
    CountCharAbsent(BaseSql, '?');
  }

  /** Each clause carries exactly one placeholder. */
  lemma ClauseHasOnePlaceholder()
    ensures CountChar(Clause, '?') == 1
  {
    HeadHasNoPlaceholder();
    CountCharAbsent(ClauseHead, '?');
    CountCharAppend(ClauseHead, "?", '?');
  }

  /** The query-building loop of `search_recipes`: the fixed query, then
      one clause per ingredient, with the parameters aligned to the
      placeholders. */
  method BuildSearch(ings: seq<string>) returns (sql: string, params: seq<string>)
    ensures sql == BaseSql + Repeat(Clause, |ings|)
    ensures params == Params(ings)
    ensures CountChar(sql, '?') == |params|
  {
    sql := BaseSql;
    params := [];
    var i := 0;
    while i < |ings|
      invariant 0 <= i <= |ings|
      invariant sql == BaseSql + Repeat(Clause, i)
      invariant |params| == i
      invariant forall k | 0 <= k < i :: params[k] == Wrap(ings[k])
    {
      sql := sql + Clause;
      params := params + [Wrap(ings[i])];
      i := i + 1;
    }
    PlaceholderCount(|ings|);
  }

  /** The query with `n` clauses counts `n` placeholders. */
  lemma {:induction false} PlaceholderCount(n: nat)
    ensures CountChar(BaseSql + Repeat(Clause, n), '?') == n
  {
    if n == 0 {
      assert BaseSql + Repeat(Clause, n) == BaseSql;
      BaseCountsNoPlaceholder();
    } else {
      PlaceholderCount(n - 1);
      assert BaseSql + Repeat(Clause, n) == (BaseSql + Repeat(Clause, n - 1)) + Clause;
      CountCharAppend(BaseSql + Repeat(Clause, n - 1), Clause, '?');
      ClauseHasOnePlaceholder();
    }
  }

  // ---------------------------------------------------------------------
  // Rows and matching
  // ---------------------------------------------------------------------

  /** A row of `recipes_dataset` with the four selected columns; any of
      them may be NULL. */
  datatype Row = Row(sno: Option<int>, title: Option<string>, material: Option<string>, category: Option<string>)

  /** `CKG_MTRL_CN LIKE ?` for a parameter of the form `%x%`: true when the
      column holds `x`; NULL never matches. */
  predicate Like(value: Option<string>, param: string)
    requires |param| >= 2
  {
    value.Some? && Contains(value.value, param[1..|param| - 1])
  }

  /** A wrapped ingredient matches exactly the texts that contain it. */
  lemma LikeWrapped(value: Option<string>, ing: string)
    ensures Like(value, Wrap(ing)) <==> value.Some? && Contains(value.value, ing)
  {
    var p := Wrap(ing);
    assert p[1..|p| - 1] == ing;
  }

  /** The whole `WHERE` clause of the built query. */
  predicate MatchesQuery(r: Row, params: seq<string>)
    requires forall k | 0 <= k < |params| :: |params[k]| >= 2
  {
    forall k | 0 <= k < |params| :: Like(r.material, params[k])
  }

  /** With at least one ingredient, the query selects exactly the rows
      whose ingredient text contains every ingredient: the conjunctive test
      the chatbot applies. With none, it selects every row, NULL text
      included. */
  lemma QueryIsConjunctive(r: Row, ings: seq<string>)
    ensures MatchesQuery(r, Params(ings))
            <==> |ings| == 0 || (r.material.Some? && RecipeText.ContainsAll(r.material.value, ings))
  {
    var ps := Params(ings);
    ParamsLike(r.material, ings);
    if |ings| > 0 && MatchesQuery(r, ps) {
      assert Like(r.material, ps[0]);
    }
  }

  /** Parameter by parameter: the `k`-th clause matches exactly when the
      text contains the `k`-th ingredient. */
  lemma ParamsLike(value: Option<string>, ings: seq<string>)
    ensures forall k | 0 <= k < |ings| ::
              Like(value, Params(ings)[k]) <==> value.Some? && Contains(value.value, ings[k])
  {
    forall k | 0 <= k < |ings|
      ensures Like(value, Params(ings)[k]) <==> value.Some? && Contains(value.value, ings[k])
    {
      LikeWrapped(value, ings[k]);
    }
  }

  /** The rows satisfying the query, in table order. */
  function Selected(table: seq<Row>, params: seq<string>): (rs: seq<Row>)
    requires forall k | 0 <= k < |params| :: |params[k]| >= 2
    ensures |rs| <= |table|
    ensures forall r :: r in rs <==> r in table && MatchesQuery(r, params)
  {
    if |table| == 0 then []
    else
      var rest := Selected(table[1..], params);
      assert table == [table[0]] + table[1..];
      if MatchesQuery(table[0], params) then [table[0]] + rest else rest
  }

  /** Selection distributes over concatenation: it keeps the table's
      order. */
  lemma {:induction false} SelectedAppend(a: seq<Row>, b: seq<Row>, params: seq<string>)
    requires forall k | 0 <= k < |params| :: |params[k]| >= 2
    ensures Selected(a + b, params) == Selected(a, params) + Selected(b, params)
    decreases |a|
  {
    if |a| == 0 {
      assert a + b == b;
    } else {
      assert (a + b)[0] == a[0];
      assert (a + b)[1..] == a[1..] + b;
      SelectedAppend(a[1..], b, params);
    }
  }

  /** One more ingredient can only narrow the selection. */
  lemma SearchNarrows(table: seq<Row>, ings: seq<string>, extra: string)
    ensures forall r | r in Selected(table, Params(ings + [extra])) :: r in Selected(table, Params(ings))
  {
    forall r | r in Selected(table, Params(ings + [extra]))
      ensures r in Selected(table, Params(ings))
    {
      QueryIsConjunctive(r, ings + [extra]);
      QueryIsConjunctive(r, ings);
      assert forall k | 0 <= k < |ings| :: (ings + [extra])[k] == ings[k];
    }
  }

  // ---------------------------------------------------------------------
  // Output and the two routes
  // ---------------------------------------------------------------------

  /** One element of a route's JSON answer. */
  datatype RecipeJson = RecipeJson(sno: Option<int>, title: Option<string>, material: string, category: string)

  /** The row as returned: number and title copied, NULL text columns
      turned into the empty string. */
  function Normalize(r: Row): (j: RecipeJson)
    ensures j.sno == r.sno && j.title == r.title
    ensures r.material.Some? ==> j.material == r.material.value
    ensures r.material.None? ==> j.material == ""
    ensures r.category.Some? ==> j.category == r.category.value
    ensures r.category.None? ==> j.category == ""
  {
    RecipeJson(r.sno, r.title, r.material.GetOr(""), r.category.GetOr(""))
  }

  /** The answer list, one element per row in row order. */
  function Answer(rows: seq<Row>): (js: seq<RecipeJson>)
    ensures |js| == |rows|
    ensures forall k | 0 <= k < |rows| :: js[k] == Normalize(rows[k])
  {
    seq(|rows|, k requires 0 <= k < |rows| => Normalize(rows[k]))
  }

  /** A route's answer: 400, 404 with a message, or 200 with the list. */
  datatype SearchReply = BadRequest(error: string) | NoMatch(error: string) | Recipes(recipes: seq<RecipeJson>)

  /** `search_recipes`: 400 for an empty ingredient list, 404 when no row
      contains all ingredients, else those rows, normalised, in table
      order. */
  function Search(table: seq<Row>, ings: seq<string>): (r: SearchReply)
    ensures r.BadRequest? <==> |ings| == 0
    ensures r.NoMatch? <==> |ings| > 0 && forall row | row in table :: !MatchesQuery(row, Params(ings))
    ensures r.Recipes? ==> r.recipes == Answer(Selected(table, Params(ings))) && |r.recipes| > 0
  {
    if |ings| == 0 then BadRequest(NoIngredientsMsg)
    else
      var rows := Selected(table, Params(ings));
      if |rows| == 0 then NoMatch(NoMatchMsg)
      else
        assert rows[0] in rows;
        Recipes(Answer(rows))
  }

  /** Every recipe returned by a search contains every ingredient, and
      every row that contains them all is returned. */
  lemma SearchIsConjunctive(table: seq<Row>, ings: seq<string>)
    requires Search(table, ings).Recipes?
    ensures forall j | j in Search(table, ings).recipes :: RecipeText.ContainsAll(j.material, ings)
    ensures forall row | row in table && row.material.Some? && RecipeText.ContainsAll(row.material.value, ings) ::
              Normalize(row) in Search(table, ings).recipes
  {
    var rows := Selected(table, Params(ings));
    var js := Search(table, ings).recipes;
    forall j | j in js ensures RecipeText.ContainsAll(j.material, ings) {
      var k :| 0 <= k < |js| && js[k] == j;
      QueryIsConjunctive(rows[k], ings);
    }
    forall row | row in table && row.material.Some? && RecipeText.ContainsAll(row.material.value, ings)
      ensures Normalize(row) in js
    {
      QueryIsConjunctive(row, ings);
      var k :| 0 <= k < |rows| && rows[k] == row;
      assert js[k] == Normalize(row);
    }
  }

  /** The rows of one category, in table order. */
  function InCategory(table: seq<Row>, category: string): (rs: seq<Row>)
    ensures |rs| <= |table|
    ensures forall r :: r in rs <==> r in table && r.category == Some(category)
  {
    if |table| == 0 then []
    else
      var rest := InCategory(table[1..], category);
      assert table == [table[0]] + table[1..];
      if table[0].category == Some(category) then [table[0]] + rest else rest
  }

  /** `get_recipes_by_category`: 400 when the category is missing or
      empty, 404 naming the category when no row has exactly that
      category, else those rows, normalised, in table order. */
  function ByCategory(table: seq<Row>, category: Option<string>): (r: SearchReply)
    ensures r.BadRequest? <==> !Given(category)
    ensures r.NoMatch? <==> Given(category) && forall row | row in table :: row.category != category
    ensures r.NoMatch? ==> r.error == "'" + category.value + EmptyCategoryTail
    ensures r.Recipes? ==>
              && r.recipes == Answer(InCategory(table, category.value))
              && forall j | j in r.recipes :: j.category == category.value
  {
    if !Given(category) then BadRequest(NoCategoryMsg)
    else
      var rows := InCategory(table, category.value);
      if |rows| == 0 then NoMatch("'" + category.value + EmptyCategoryTail)
      else
        assert rows[0] in rows;
        var js := Answer(rows);
        assert forall j | j in js :: exists k | 0 <= k < |rows| :: js[k] == j;
        Recipes(js)
  }
}

=== FILE: recipe_text.dfy ===
/** The recipe-text helpers of the chatbot's custom actions: the ingredient
    parser that shortens a recipe's raw material list for a chat bubble, the
    all/any ingredient predicates, the fridge recommendation with its
    any-match fallback, and the shopping suggestion. The dataset, the
    crawler, noun extraction and random sampling are not modelled; the
    fridge is read from the shared tables. */
module RecipeText {
  import opened Base
  import opened Text
  import Tables
  import FridgeRoutes

  /** Python's `'\a'`, the field separator inside one material item. */
  const Bel: char := '\U{7}'

  /** The line appended when a recipe has more items than are shown. */
  const MoreLine: string := "... 그 외 재료는 링크에서 확인해보세요!"

  // ---------------------------------------------------------------------
  // Bracket removal: re.sub(r'\[[^\]]*\]', '', s)
  // ---------------------------------------------------------------------

  /** Deletes, left to right, every `[` together with everything up to and
      including the first `]` after it; a `[` with no `]` after it stays. */
  function StripBrackets(s: string): (r: string)
    ensures |r| <= |s|
    ensures forall k | 0 <= k < |r| :: r[k] in s
    ensures forall i, j | 0 <= i < j < |r| :: r[i] == '[' ==> r[j] != ']'
    ensures '[' !in s ==> r == s
    decreases |s|
  {
    if |s| == 0 then ""
    else if s[0] == '[' && ']' in s[1..] then
      var close := 1 + IndexOf(s[1..], ']');
      var r := StripBrackets(s[close + 1..]);
      SuffixMembers(s, close + 1, r);
      r
    else
      var rest := StripBrackets(s[1..]);
      var r := [s[0]] + rest;
      assert forall k | 0 <= k < |rest| :: rest[k] in s[1..];
      assert forall k | 1 <= k < |r| :: r[k] == rest[k - 1];
      r
  }

  /** What a suffix holds, the whole text holds. */
  lemma SuffixMembers(s: string, i: nat, r: string)
    requires i <= |s|
    requires forall k | 0 <= k < |r| :: r[k] in s[i..]
    ensures forall k | 0 <= k < |r| :: r[k] in s
  {
    forall k | 0 <= k < |r| ensures r[k] in s {
      var m :| 0 <= m < |s[i..]| && s[i..][m] == r[k];
      assert s[i + m] == r[k];
    }
  }

  /** Text free of `[` passes through unchanged, and removal continues after
      it. */
  lemma {:induction false} StripBracketsPlainPrefix(pre: string, s: string)
    requires '[' !in pre
    ensures StripBrackets(pre + s) == pre + StripBrackets(s)
    decreases |pre|
  {
    if |pre| > 0 {
      var t := pre[1..] + s;
      assert pre + s == [pre[0]] + t;
      StripBracketsCons(pre[0], t);
      StripBracketsPlainPrefix(pre[1..], s);
      assert pre == [pre[0]] + pre[1..];
    } else {
      assert pre + s == s;
    }
  }

  /** One character other than `[` passes through. */
  lemma StripBracketsCons(c: char, t: string)
    requires c != '['
    ensures StripBrackets([c] + t) == [c] + StripBrackets(t)
  {
    assert ([c] + t)[1..] == t;
  }

  /** A closed bracket span is deleted whole: whatever `inner` holds, the
      result is that of the text with the span cut out. */
  lemma BracketSpanDeleted(pre: string, inner: string, post: string)
    requires '[' !in pre && ']' !in inner
    ensures StripBrackets(pre + "[" + inner + "]" + post) == pre + StripBrackets(post)
    ensures StripBrackets(pre + "[" + inner + "]" + post) == StripBrackets(pre + post)
  {
    SpanRegroup(pre, inner, post);
    LeadingSpanDeleted(inner, post);
    SameAfterPlainPrefix(pre, "[" + inner + "]" + post, post);
  }

  /** Regrouping the text around a bracket span. */
  lemma SpanRegroup(pre: string, inner: string, post: string)
    ensures pre + "[" + inner + "]" + post == pre + ("[" + inner + "]" + post)
  {
  }

  /** Two texts that clean alike still clean alike behind the same
      bracket-free prefix. */
  lemma SameAfterPlainPrefix(pre: string, s: string, t: string)
    requires '[' !in pre && StripBrackets(s) == StripBrackets(t)
    ensures StripBrackets(pre + s) == pre + StripBrackets(t)
    ensures StripBrackets(pre + s) == StripBrackets(pre + t)
  {
    StripBracketsPlainPrefix(pre, s);
    StripBracketsPlainPrefix(pre, t);
  }

  /** A span opening the text is dropped up to its first `]`. */
  lemma LeadingSpanDeleted(inner: string, post: string)
    requires ']' !in inner
    ensures StripBrackets("[" + inner + "]" + post) == StripBrackets(post)
  {
    var span := "[" + inner + "]" + post;
    var rest := inner + [']'] + post;
    assert span[1..] == rest;
    assert rest[|inner|] == ']';
    assert IndexOf(rest, ']') == |inner| by {
      IndexOfAfterFree(inner, post, ']');
    }
    assert span[|inner| + 2..] == post;
  }

  // ---------------------------------------------------------------------
  // One material item: name \a qty \a unit
  // ---------------------------------------------------------------------

  /** The stripped fields of one `|`-separated item. */
  datatype Parts = Parts(name: string, qty: string, unit: string)

  /** A string with no Python whitespace at either end. */
  predicate Stripped(s: string) {
    s != "" ==> !IsPySpace(s[0]) && !IsPySpace(s[|s| - 1])
  }

  /** Field `k` of a split item, stripped; `''` when the item has fewer
      fields. */
  function Field(pieces: seq<string>, k: nat): (f: string)
    ensures Stripped(f)
    ensures k >= |pieces| ==> f == ""
  {
    if k < |pieces| then Strip(pieces[k], IsPySpace) else ""
  }

  /** `item.split('\a')`, each of the first three pieces stripped, absent
      pieces read as `''`. */
  function PartsOf(item: string): (p: Parts)
    ensures Stripped(p.name) && Stripped(p.qty) && Stripped(p.unit)
    ensures Bel !in item ==> p.qty == "" && p.unit == ""
  {
    var pieces := Split(item, Bel);
    assert Bel !in item ==> pieces == [item];
    Parts(Field(pieces, 0), Field(pieces, 1), Field(pieces, 2))
  }

  /** A string with no space at either end is its own strip. */
  lemma StripOfStripped(s: string)
    requires Stripped(s)
    ensures Strip(s, IsPySpace) == s
  {
    assert TrimStart(s, IsPySpace) == s;
    assert TrimEnd(s, IsPySpace) == s;
  }

  /** Reading back fields written as `name\aqty\aunit` gives the fields,
      provided they are already stripped and hold no `\a`. */
  lemma PartsRoundTrip(name: string, qty: string, unit: string)
    requires Bel !in name && Bel !in qty && Bel !in unit
    requires Stripped(name) && Stripped(qty) && Stripped(unit)
    ensures PartsOf(name + [Bel] + qty + [Bel] + unit) == Parts(name, qty, unit)
  {
    SplitThree(name, qty, unit);
    StripOfStripped(name);
    StripOfStripped(qty);
    StripOfStripped(unit);
  }

  /** Three `\a`-free fields joined by `\a` split back into those three. */
  lemma SplitThree(name: string, qty: string, unit: string)
    requires Bel !in name && Bel !in qty && Bel !in unit
    ensures Split(name + [Bel] + qty + [Bel] + unit, Bel) == [name, qty, unit]
  {
    var fields := [name, qty, unit];
    assert Join(fields[1..], [Bel]) == qty + [Bel] + unit by {
      assert fields[1..] == [qty, unit];
      assert fields[1..][1..] == [unit];
    }
    assert Join(fields, [Bel]) == name + [Bel] + qty + [Bel] + unit;
    SplitJoin(fields, Bel);
  }

  /** `f"{name} {qty} {unit}"` when both qty and unit are set, `f"{name}
      {qty}"` when only qty is, `name` otherwise. */
  function Format(p: Parts): (line: string)
    ensures |line| >= |p.name| && line[..|p.name|] == p.name
    ensures p.qty == "" ==> line == p.name
    ensures line == "" <==> p.name == "" && p.qty == ""
  {
    if p.qty != "" && p.unit != "" then p.name + " " + p.qty + " " + p.unit
    else if p.qty != "" then p.name + " " + p.qty
    else p.name
  }

  /** What formatting keeps: the name always leads; a unit without a
      quantity is dropped; the line is empty iff both name and quantity
      are. */
  lemma FormatShape(p: Parts)
    ensures |Format(p)| >= |p.name| && Format(p)[..|p.name|] == p.name
    ensures p.qty == "" ==> Format(p) == p.name
    ensures p.qty != "" ==> Contains(Format(p), p.qty)
    ensures p.qty != "" && p.unit != "" ==> Contains(Format(p), p.unit)
    ensures Format(p) == "" <==> p.name == "" && p.qty == ""
  {
    if p.qty != "" {
      SelfOccurs(p.qty);
      var tail := if p.unit != "" then " " + p.unit else "";
      ContainsWithin(p.name + " ", p.qty, tail, p.qty);
      assert Format(p) == p.name + " " + p.qty + tail;
      if p.unit != "" {
        SelfOccurs(p.unit);
        ContainsWithin(p.name + " " + p.qty + " ", p.unit, "", p.unit);
        assert Format(p) == p.name + " " + p.qty + " " + p.unit + "";
      }
    }
  }

  /** Formatting brings in no character other than a space. */
  lemma FormatAvoids(p: Parts, c: char)
    requires c != ' ' && c !in p.name && c !in p.qty && c !in p.unit
    ensures c !in Format(p)
  {
  }

  // ---------------------------------------------------------------------
  // parse_ingredients
  // ---------------------------------------------------------------------

  /** The formatted line of every item, in order. */
  function Formatted(items: seq<string>): (lines: seq<string>)
    ensures |lines| == |items|
  {
    seq(|items|, k requires 0 <= k < |items| => Format(PartsOf(items[k])))
  }

  /** The non-empty lines, in order. */
  function DropEmpty(lines: seq<string>): (r: seq<string>)
    ensures |r| <= |lines|
    ensures forall k | 0 <= k < |r| :: r[k] != ""
    ensures forall x :: x in r <==> x in lines && x != ""
  {
    if |lines| == 0 then []
    else
      var rest := DropEmpty(lines[1..]);
      assert lines == [lines[0]] + lines[1..];
      if lines[0] != "" then [lines[0]] + rest else rest
  }

  /** Dropping empty lines keeps the order: it distributes over
      concatenation. */
  lemma {:induction false} DropEmptyAppend(a: seq<string>, b: seq<string>)
    ensures DropEmpty(a + b) == DropEmpty(a) + DropEmpty(b)
    decreases |a|
  {
    if |a| == 0 {
      assert a + b == b;
    } else {
      assert (a + b)[0] == a[0];
      assert (a + b)[1..] == a[1..] + b;
      DropEmptyAppend(a[1..], b);
    }
  }

  /** The surviving lines of a raw material string. */
  function ParsedLines(raw: string): seq<string> {
    DropEmpty(Formatted(Split(StripBrackets(raw), '|')))
  }

  /** `parse_ingredients(raw, max_items)`: the surviving lines joined by
      newlines, cut to the first `maxItems` with `MoreLine` after them when
      there are more. */
  function ParseIngredients(raw: string, maxItems: nat): (out: string)
    ensures |ParsedLines(raw)| <= maxItems ==> out == Join(ParsedLines(raw), "\n")
    ensures |ParsedLines(raw)| > maxItems ==> |out| > |MoreLine| && out[|out| - |MoreLine|..] == MoreLine
  {
    Render(ParsedLines(raw), maxItems)
  }

  /** The lines joined by newlines, cut to the first `maxItems` with
      `MoreLine` after them when there are more. */
  function Render(lines: seq<string>, maxItems: nat): (out: string)
    ensures |lines| <= maxItems ==> out == Join(lines, "\n")
    ensures |lines| > maxItems ==> |out| > |MoreLine| && out[|out| - |MoreLine|..] == MoreLine
  {
    if |lines| > maxItems then
      var head := Join(lines[..maxItems], "\n") + "\n";
      assert head + MoreLine == Join(lines[..maxItems], "\n") + "\n" + MoreLine;
      head + MoreLine
    else Join(lines, "\n")
  }

  /** Rendered newline-free lines read back as the shown lines, then
      `MoreLine` exactly when some were cut off. */
  lemma RenderReadsBack(lines: seq<string>, maxItems: nat)
    requires forall k | 0 <= k < |lines| :: '\n' !in lines[k]
    requires maxItems >= 1 && |lines| >= 1
    ensures Split(Render(lines, maxItems), '\n')
            == if |lines| > maxItems then lines[..maxItems] + [MoreLine] else lines
  {
    var out := Render(lines, maxItems);
    if |lines| > maxItems {
      var shown := lines[..maxItems];
      assert forall k | 0 <= k < |shown| :: shown[k] == lines[k];
      assert '\n' !in MoreLine;
      var parts := shown + [MoreLine];
      assert forall k | 0 <= k < |parts| :: '\n' !in parts[k];
      JoinSnoc(shown, MoreLine, "\n");
      assert out == Join(parts, ['\n']);
      SplitJoin(parts, '\n');
    } else {
      assert out == Join(lines, ['\n']);
      SplitJoin(lines, '\n');
    }
  }

  /** A character other than a space that is absent from an item is absent
      from its formatted line. */
  lemma LineAvoids(item: string, c: char)
    requires c !in item && c != ' '
    ensures c !in Format(PartsOf(item))
  {
    var fields := Split(item, Bel);
    SplitAvoids(item, Bel, c);
    forall f | 0 <= f < |fields| ensures c !in Strip(fields[f], IsPySpace) {
      StripAvoids(fields[f], IsPySpace, c);
    }
    var p := PartsOf(item);
    assert c !in p.name && c !in p.qty && c !in p.unit;
    FormatAvoids(p, c);
  }

  /** A character absent from the raw text is absent from every surviving
      line (the only character formatting adds is a space). */
  lemma ParsedLinesAvoid(raw: string, c: char)
    requires c !in raw && c != ' '
    ensures forall k | 0 <= k < |ParsedLines(raw)| :: c !in ParsedLines(raw)[k]
  {
    var stripped := StripBrackets(raw);
    assert c !in stripped;
    var pieces := Split(stripped, '|');
    SplitAvoids(stripped, '|', c);
    var formatted := Formatted(pieces);
    forall m | 0 <= m < |pieces| ensures c !in formatted[m] {
      LineAvoids(pieces[m], c);
    }
    var lines := DropEmpty(formatted);
    assert lines == ParsedLines(raw);
    forall k | 0 <= k < |lines| ensures c !in lines[k] {
      assert lines[k] in formatted;
    }
  }

  /** Read back line by line, the output is the first `maxItems` surviving
      lines in input order, then `MoreLine` exactly when some were cut off.
      (A line holding a newline of its own would read back as two, so the
      raw text is taken to be free of them.) */
  lemma ParseIngredientsLines(raw: string, maxItems: nat)
    requires '\n' !in raw
    requires maxItems >= 1 && |ParsedLines(raw)| >= 1
    ensures var lines := ParsedLines(raw);
            Split(ParseIngredients(raw, maxItems), '\n')
            == if |lines| > maxItems then lines[..maxItems] + [MoreLine] else lines
  {
    ParsedLinesAvoid(raw, '\n');
    RenderReadsBack(ParsedLines(raw), maxItems);
  }

  /** Joining with one more part appends the separator and that part. */
  lemma {:induction false} JoinSnoc(parts: seq<string>, last: string, sep: string)
    requires |parts| >= 1
    ensures Join(parts + [last], sep) == Join(parts, sep) + sep + last
    decreases |parts|
  {
    if |parts| == 1 {
      assert (parts + [last])[1..] == [last];
    } else {
      assert (parts + [last])[1..] == parts[1..] + [last];
      JoinSnoc(parts[1..], last, sep);
    }
  }

  /** The suffix line appears exactly when more lines survived than are
      shown; a short list is shown whole. */
  lemma ParseIngredientsCut(raw: string, maxItems: nat)
    ensures |ParsedLines(raw)| <= maxItems ==> ParseIngredients(raw, maxItems) == Join(ParsedLines(raw), "\n")
    ensures |ParsedLines(raw)| > maxItems ==>
              var out := ParseIngredients(raw, maxItems);
              |out| > |MoreLine| && out[|out| - |MoreLine|..] == MoreLine
  {
    var lines := ParsedLines(raw);
    RenderCut(lines, maxItems);
    assert ParseIngredients(raw, maxItems) == Render(lines, maxItems);
  }

  /** The rendering of any lines ends in the suffix line when they are cut,
      and is their plain join otherwise. */
  lemma RenderCut(lines: seq<string>, maxItems: nat)
    ensures |lines| <= maxItems ==> Render(lines, maxItems) == Join(lines, "\n")
    ensures |lines| > maxItems ==>
              var out := Render(lines, maxItems);
              |out| > |MoreLine| && out[|out| - |MoreLine|..] == MoreLine
  {
    if |lines| > maxItems {
      var head := Join(lines[..maxItems], "\n") + "\n";
      assert Render(lines, maxItems) == head + MoreLine;
    }
  }

  /** Text inside a closed bracket span never reaches the output: the result
      is that of the raw text with the span cut out. */
  lemma BracketTextIgnored(pre: string, inner: string, post: string, maxItems: nat)
    requires '[' !in pre && ']' !in inner
    ensures ParseIngredients(pre + "[" + inner + "]" + post, maxItems)
            == ParseIngredients(pre + post, maxItems)
  {
    BracketSpanDeleted(pre, inner, post);
  }

  // ---------------------------------------------------------------------
  // Ingredient predicates
  // ---------------------------------------------------------------------

  /** pandas `str(x)` of a material cell: a missing cell is the float NaN,
      which prints as `nan`. */
  function CellText(cell: Option<string>): (text: string)
    ensures cell.Some? ==> text == cell.value
    ensures cell.None? ==> Contains(text, "nan") && Contains(text, "a") && Contains(text, "n")
  {
    match cell
    case Some(t) => t
    case None =>
      assert OccursAt("nan", "nan", 0) && OccursAt("nan", "a", 1) && OccursAt("nan", "n", 0);
      "nan"
  }

  /** `all(item in text for item in items)`. */
  function ContainsAll(text: string, items: seq<string>): (b: bool)
    ensures b <==> forall k | 0 <= k < |items| :: Contains(text, items[k])
  {
    if |items| == 0 then true
    else
      assert forall k | 1 <= k < |items| :: items[k] == items[1..][k - 1];
      Contains(text, items[0]) && ContainsAll(text, items[1..])
  }

  /** `any(item in text for item in items)`. */
  function ContainsAny(text: string, items: seq<string>): (b: bool)
    ensures b <==> exists k | 0 <= k < |items| :: Contains(text, items[k])
  {
    if |items| == 0 then false
    else
      assert forall k | 1 <= k < |items| :: items[k] == items[1..][k - 1];
      Contains(text, items[0]) || ContainsAny(text, items[1..])
  }

  /** A recipe that has every one of a non-empty list has one of them. */
  lemma AllImpliesAny(text: string, items: seq<string>)
    requires |items| > 0 && ContainsAll(text, items)
    ensures ContainsAny(text, items)
  {
    assert Contains(text, items[0]);
  }

  // ---------------------------------------------------------------------
  // Fridge recommendation and shopping suggestion
  // ---------------------------------------------------------------------

  /** A dataset row: serial number, title and the raw material cell. */
  datatype Recipe = Recipe(sno: int, title: string, material: Option<string>)

  /** The recipes whose material text contains every fridge item. */
  function FullMatches(dataset: seq<Recipe>, items: seq<string>): (r: seq<Recipe>)
    ensures |r| <= |dataset|
    ensures forall k | 0 <= k < |r| :: r[k] in dataset && ContainsAll(CellText(r[k].material), items)
    ensures forall k | 0 <= k < |dataset| :: ContainsAll(CellText(dataset[k].material), items) ==> dataset[k] in r
  {
    if |dataset| == 0 then []
    else
      var rest := FullMatches(dataset[1..], items);
      assert forall k | 1 <= k < |dataset| :: dataset[k] == dataset[1..][k - 1];
      if ContainsAll(CellText(dataset[0].material), items) then [dataset[0]] + rest else rest
  }

  /** The recipes whose material text contains at least one fridge item. */
  function PartialMatches(dataset: seq<Recipe>, items: seq<string>): (r: seq<Recipe>)
    ensures |r| <= |dataset|
    ensures forall k | 0 <= k < |r| :: r[k] in dataset && ContainsAny(CellText(r[k].material), items)
    ensures forall k | 0 <= k < |dataset| :: ContainsAny(CellText(dataset[k].material), items) ==> dataset[k] in r
  {
    if |dataset| == 0 then []
    else
      var rest := PartialMatches(dataset[1..], items);
      assert forall k | 1 <= k < |dataset| :: dataset[k] == dataset[1..][k - 1];
      if ContainsAny(CellText(dataset[0].material), items) then [dataset[0]] + rest else rest
  }

  /** What `action_recommend_from_fridge` tells the user. `Recommend`
      carries the fridge contents, the candidate recipes the sample is
      drawn from, and whether it fell back to partial matches. */
  datatype FridgeAdvice =
    | AskLogin
    | UnknownUser
    | EmptyFridge
    | NothingCookable
    | Recommend(fridge: seq<string>, candidates: seq<Recipe>, partial: bool)

  /** The names of some fridge rows, in order. */
  function ItemNames(rows: seq<Tables.FridgeItem>): (r: seq<string>)
    ensures |r| == |rows|
    ensures forall k | 0 <= k < |rows| :: r[k] == rows[k].name
  {
    seq(|rows|, k requires 0 <= k < |rows| => rows[k].name)
  }

  /** The names of the rows `ItemsOf` selects are exactly the names of the
      owner's rows in the table. */
  lemma OwnedNames(items: seq<Tables.FridgeItem>, owner: int)
    ensures forall x :: x in ItemNames(Tables.ItemsOf(items, owner)) <==>
              exists k | 0 <= k < |items| :: items[k].owner == owner && items[k].name == x
  {
    forall x ensures x in ItemNames(Tables.ItemsOf(items, owner)) <==>
                     exists k | 0 <= k < |items| :: items[k].owner == owner && items[k].name == x {
      if x in ItemNames(Tables.ItemsOf(items, owner)) {
        OwnedNameHasRow(items, owner, x);
      }
      if exists k | 0 <= k < |items| :: items[k].owner == owner && items[k].name == x {
        var k :| 0 <= k < |items| && items[k].owner == owner && items[k].name == x;
        OwnedRowHasName(items, owner, k);
      }
    }
  }

  lemma OwnedNameHasRow(items: seq<Tables.FridgeItem>, owner: int, x: string)
    requires x in ItemNames(Tables.ItemsOf(items, owner))
    ensures exists k | 0 <= k < |items| :: items[k].owner == owner && items[k].name == x
  {
    var rows := Tables.ItemsOf(items, owner);
    var names := ItemNames(rows);
    var j :| 0 <= j < |names| && names[j] == x;
    var k :| 0 <= k < |items| && items[k] == rows[j];
    assert items[k].owner == owner && items[k].name == x;
  }

  lemma OwnedRowHasName(items: seq<Tables.FridgeItem>, owner: int, k: int)
    requires 0 <= k < |items| && items[k].owner == owner
    ensures items[k].name in ItemNames(Tables.ItemsOf(items, owner))
  {
    var rows := Tables.ItemsOf(items, owner);
    var j :| 0 <= j < |rows| && rows[j] == items[k];
    assert ItemNames(rows)[j] == items[k].name;
  }

  /** The names of every fridge item of the user with handle `uid`, both
      ingredients and seasonings, in storage order; `None` when no such
      user exists. The owner is the first account with that handle, as
      `fetchone` returns it. */
  function FridgeOf(db: Tables.Db, uid: string): (r: Option<seq<string>>)
    ensures r.Some? <==> Tables.UserIdTaken(db.users, uid)
    ensures r.Some? ==> r.value == ItemNames(Tables.ItemsOf(db.items, Tables.FindUser(db.users, uid).value.id))
  {
    match Tables.FindUser(db.users, uid)
    case None => None
    case Some(u) => Some(ItemNames(Tables.ItemsOf(db.items, u.id)))
  }

  /** The fridge the chatbot reads holds exactly the names of the
      `fridge_items` rows owned by the first account with that handle. */
  lemma FridgeHoldsOwnedNames(db: Tables.Db, uid: string)
    requires Tables.UserIdTaken(db.users, uid)
    ensures forall x :: x in FridgeOf(db, uid).value <==>
              exists k | 0 <= k < |db.items| ::
                db.items[k].owner == Tables.FindUser(db.users, uid).value.id && db.items[k].name == x
  {
    OwnedNames(db.items, Tables.FindUser(db.users, uid).value.id);
  }

  /** `ActionRecommendFromFridge.run` up to the sample: full matches when
      there are any, otherwise partial matches, otherwise nothing. What
      the action sends after drawing from the candidates is `Deliver`. */
  function RecommendFromFridge(db: Tables.Db, userSlot: Option<string>, dataset: seq<Recipe>): (a: FridgeAdvice)
    ensures a == AskLogin <==> !Given(userSlot)
    ensures Given(userSlot) ==> (a == UnknownUser <==> !Tables.UserIdTaken(db.users, userSlot.value))
    ensures a == EmptyFridge <==> Given(userSlot) && FridgeOf(db, userSlot.value) == Some([])
    ensures a.Recommend? ==> Given(userSlot) && FridgeOf(db, userSlot.value) == Some(a.fridge)
    ensures a.Recommend? ==> |a.fridge| > 0 && |a.candidates| > 0
    ensures a.Recommend? ==>
              (a.partial <==> |FullMatches(dataset, a.fridge)| == 0)
              && a.candidates == (if a.partial then PartialMatches(dataset, a.fridge)
                                  else FullMatches(dataset, a.fridge))
    ensures a == NothingCookable <==>
              && Given(userSlot) && FridgeOf(db, userSlot.value).Some?
              && |FridgeOf(db, userSlot.value).value| > 0
              && |PartialMatches(dataset, FridgeOf(db, userSlot.value).value)| == 0
    ensures (&& Given(userSlot) && FridgeOf(db, userSlot.value).Some?
             && |FridgeOf(db, userSlot.value).value| > 0
             && |PartialMatches(dataset, FridgeOf(db, userSlot.value).value)| > 0)
            ==> a.Recommend?
  {
    if !Given(userSlot) then AskLogin
    else match FridgeOf(db, userSlot.value)
      case None => UnknownUser
      case Some(items) =>
        if |items| == 0 then EmptyFridge
        else
          var full := FullMatches(dataset, items);
          if |full| > 0 then
            FallbackWidens(dataset, items);
            assert full[0] in PartialMatches(dataset, items);
            Recommend(items, full, false)
          else
            var partial := PartialMatches(dataset, items);
            if |partial| > 0 then Recommend(items, partial, true)
            else NothingCookable
  }

  /** A logged-in user gets recipes exactly when the fridge is not empty
      and some recipe's material text mentions one of its items. */
  lemma RecommendIffCookable(db: Tables.Db, uid: string, dataset: seq<Recipe>)
    requires uid != "" && Tables.UserIdTaken(db.users, uid)
    ensures var fridge := FridgeOf(db, uid).value;
            RecommendFromFridge(db, Some(uid), dataset).Recommend?
            <==> |fridge| > 0 && exists k | 0 <= k < |dataset| :: ContainsAny(CellText(dataset[k].material), fridge)
  {
    PartialMatchesNonEmpty(dataset, FridgeOf(db, uid).value);
  }

  /** Some recipe matches partially exactly when one mentions an item. */
  lemma PartialMatchesNonEmpty(dataset: seq<Recipe>, items: seq<string>)
    ensures |PartialMatches(dataset, items)| > 0 <==>
              exists k | 0 <= k < |dataset| :: ContainsAny(CellText(dataset[k].material), items)
  {
    var partial := PartialMatches(dataset, items);
    if exists k | 0 <= k < |dataset| :: ContainsAny(CellText(dataset[k].material), items) {
      var k :| 0 <= k < |dataset| && ContainsAny(CellText(dataset[k].material), items);
      assert dataset[k] in partial;
    }
    if |partial| > 0 {
      var m :| 0 <= m < |dataset| && dataset[m] == partial[0];
    }
  }

  /** An accepted add of a fridge item appends its name to the fridge the
      chatbot reads for that handle. */
  lemma FridgeOfAfterAdd(db: Tables.Db, req: FridgeRoutes.ItemRequest)
    requires FridgeRoutes.Add(db, req).1.status == 201
    ensures var uid := req.userId.value;
            FridgeOf(FridgeRoutes.Add(db, req).0, uid) == Some(FridgeOf(db, uid).value + [req.itemName.value])
  {
    var uid := req.userId.value;
    var row := FridgeRoutes.Row(db.users, req).value;
    var u := Tables.FindUser(db.users, uid).value;
    assert row.owner == u.id;
    FridgeRoutes.ItemsOfAppend(db.items, row, u.id);
    var old_ := Tables.ItemsOf(db.items, u.id);
    assert ItemNames(old_ + [row]) == ItemNames(old_) + [row.name];
  }

  /** After an accepted add the chatbot no longer reports an empty fridge
      or an unknown user, and a recommendation is made from a fridge that
      holds the new item. */
  lemma AddedItemReachesAdvice(db: Tables.Db, req: FridgeRoutes.ItemRequest, dataset: seq<Recipe>)
    requires FridgeRoutes.Add(db, req).1.status == 201
    ensures var a := RecommendFromFridge(FridgeRoutes.Add(db, req).0, req.userId, dataset);
            a != AskLogin && a != UnknownUser && a != EmptyFridge
            && (a.Recommend? ==> req.itemName.value in a.fridge)
  {
    FridgeOfAfterAdd(db, req);
    var f := FridgeOf(db, req.userId.value).value + [req.itemName.value];
    assert f[|f| - 1] == req.itemName.value;
  }

  /** The fallback never hides a full match: every recipe that has all the
      fridge items is also a partial match, so falling back only widens
      the candidates. */
  lemma FallbackWidens(dataset: seq<Recipe>, items: seq<string>)
    requires |items| > 0
    ensures forall k | 0 <= k < |FullMatches(dataset, items)| ::
              FullMatches(dataset, items)[k] in PartialMatches(dataset, items)
  {
    var full := FullMatches(dataset, items);
    forall k | 0 <= k < |full| ensures full[k] in PartialMatches(dataset, items) {
      AllImpliesAny(CellText(full[k].material), items);
      var m :| 0 <= m < |dataset| && dataset[m] == full[k];
    }
  }

  /** The positions `matched.sample(min(3, len(matched)))` draws from `n`
      candidates: as many as there are, up to three, each a valid
      position, none drawn twice. Which ones is up to the random draw. */
  predicate ValidDraw(picks: seq<nat>, n: nat) {
    && |picks| == (if n < 3 then n else 3)
    && (forall j | 0 <= j < |picks| :: picks[j] < n)
    && (forall i, j | 0 <= i < j < |picks| :: picks[i] != picks[j])
  }

  /** One recipe of the final message: its title and its material text
      as `parse_ingredients(raw_ing, max_items=3)` renders it. The cooking
      steps and the link come from the crawler, which is not modelled. */
  datatype Card = Card(title: string, ingredients: string)

  /** What the action finally does. `Answered` sends the advice's fixed
      text, `Cards` sends the fridge and one card per sampled recipe, and
      `Raised` is the `TypeError` that `re.sub` raises on a NaN material
      cell, which ends the action without a recommendation. */
  datatype FridgeReply =
    | Answered(advice: FridgeAdvice)
    | Cards(fridge: seq<string>, partial: bool, cards: seq<Card>)
    | Raised

  /** The card of a drawn recipe that has material text: its title and
      `parse_ingredients(raw_ing, max_items=3)`. */
  function CardOf(r: Recipe): Card
    requires r.material.Some?
  {
    Card(r.title, ParseIngredients(r.material.value, 3))
  }

  /** The drawn candidates in draw order, or `None` as soon as one of
      them has no material text. */
  function DrawnRecipes(candidates: seq<Recipe>, picks: seq<nat>): (r: Option<seq<Recipe>>)
    requires forall j | 0 <= j < |picks| :: picks[j] < |candidates|
    ensures r.None? <==> exists j | 0 <= j < |picks| :: candidates[picks[j]].material.None?
    ensures r.Some? ==> |r.value| == |picks|
    ensures r.Some? ==> forall j | 0 <= j < |picks| ::
              r.value[j] == candidates[picks[j]] && r.value[j].material.Some?
    decreases |picks|
  {
    if |picks| == 0 then Some([])
    else
      var c := candidates[picks[0]];
      var tail := picks[1..];
      assert forall j | 1 <= j < |picks| :: picks[j] == tail[j - 1];
      if c.material.None? then None
      else
        var rest := DrawnRecipes(candidates, tail);
        if rest.None? then
          var k :| 0 <= k < |tail| && candidates[tail[k]].material.None?;
          assert picks[k + 1] == tail[k];
          None
        else
          var drawn := [c] + rest.value;
          assert forall j | 1 <= j < |picks| :: drawn[j] == rest.value[j - 1];
          Some(drawn)
  }

  /** `ActionRecommendFromFridge.run` from the sample on: the advice that
      ends early is sent as it is; otherwise every drawn recipe becomes a
      card, unless one of them has a NaN material cell, on which
      `parse_ingredients` raises outside the `try`. */
  function Deliver(a: FridgeAdvice, picks: seq<nat>): (o: FridgeReply)
    requires a.Recommend? ==> ValidDraw(picks, |a.candidates|)
    ensures !a.Recommend? ==> o == Answered(a)
    ensures a.Recommend? ==>
              (o == Raised <==> exists j | 0 <= j < |picks| :: a.candidates[picks[j]].material.None?)
    ensures o.Cards? ==>
              && a.Recommend? && o.fridge == a.fridge && o.partial == a.partial
              && |o.cards| == |picks| <= 3
              && forall j | 0 <= j < |picks| ::
                   && a.candidates[picks[j]].material.Some?
                   && o.cards[j] == CardOf(a.candidates[picks[j]])
  {
    if !a.Recommend? then Answered(a)
    else match DrawnRecipes(a.candidates, picks)
      case None => Raised
      case Some(drawn) =>
        Cards(a.fridge, a.partial, seq(|drawn|, j requires 0 <= j < |drawn| => CardOf(drawn[j])))
  }

  /** The positions below `n`. */
  function Below(n: nat): (r: set<nat>)
    ensures forall i: nat :: i in r <==> i < n
    ensures |r| == n
  {
    if n == 0 then {}
    else
      var r := Below(n - 1) + {n - 1};
      assert n - 1 !in Below(n - 1);
      r
  }

  /** The positions a draw holds. */
  function Drawn(picks: seq<nat>): (r: set<nat>)
    ensures forall x: nat :: x in r <==> x in picks
  {
    set x | x in picks
  }

  /** A sequence without repeats has as many distinct values as entries. */
  lemma {:induction false} DistinctCount(picks: seq<nat>)
    requires forall i, j | 0 <= i < j < |picks| :: picks[i] != picks[j]
    ensures |Drawn(picks)| == |picks|
  {
    if |picks| > 0 {
      var tail := picks[1..];
      assert forall i, j | 0 <= i < j < |tail| :: tail[i] == picks[i + 1] && tail[j] == picks[j + 1];
      DistinctCount(tail);
      assert picks[0] !in tail;
      assert Drawn(picks) == Drawn(tail) + {picks[0]};
    }
  }

  /** `n` distinct positions below `n` are all of them. */
  lemma DistinctCovers(picks: seq<nat>, n: nat)
    requires |picks| == n
    requires forall j | 0 <= j < |picks| :: picks[j] < n
    requires forall i, j | 0 <= i < j < |picks| :: picks[i] != picks[j]
    ensures forall i | 0 <= i < n :: i in picks
  {
    var drawn := Drawn(picks);
    var all := Below(n);
    DistinctCount(picks);
    assert drawn <= all;
    assert all * drawn == drawn;
    assert |all - drawn| == 0;
    forall i | 0 <= i < n ensures i in picks {
      assert i in all && i !in all - drawn;
    }
  }

  /** With at most three candidates the sample takes all of them, so a
      single one with a NaN material cell makes the action raise. */
  lemma SmallPoolWithNaNRaises(a: FridgeAdvice, picks: seq<nat>, k: nat)
    requires a.Recommend? && |a.candidates| <= 3 && ValidDraw(picks, |a.candidates|)
    requires k < |a.candidates| && a.candidates[k].material.None?
    ensures Deliver(a, picks) == Raised
  {
    DistinctCovers(picks, |a.candidates|);
    assert k in picks;
    var j :| 0 <= j < |picks| && picks[j] == k;
  }

  /** A logged-in user with a known handle receives recipe cards exactly
      when the fridge is not empty, some recipe mentions one of its items,
      and the draw avoids every candidate whose material cell is NaN. */
  lemma CardsIffCookableDraw(db: Tables.Db, uid: string, dataset: seq<Recipe>, picks: seq<nat>)
    requires uid != "" && Tables.UserIdTaken(db.users, uid)
    requires var a := RecommendFromFridge(db, Some(uid), dataset);
             a.Recommend? ==> ValidDraw(picks, |a.candidates|)
    ensures var a := RecommendFromFridge(db, Some(uid), dataset);
            var fridge := FridgeOf(db, uid).value;
            Deliver(a, picks).Cards? <==>
              && |fridge| > 0
              && (exists k | 0 <= k < |dataset| :: ContainsAny(CellText(dataset[k].material), fridge))
              && (a.Recommend? ==> forall j | 0 <= j < |picks| :: a.candidates[picks[j]].material.Some?)
  {
    RecommendIffCookable(db, uid, dataset);
  }

  /** A known user whose fridge holds `a`, facing one recipe with an empty
      material cell: pandas reads the cell as NaN, `str(NaN)` is `nan`,
      so the recipe is a full match, the only draw takes it, and
      `parse_ingredients` raises on it. */
  lemma NaNMaterialRaises()
    ensures var db := Tables.Db([Tables.User(1, "u", "u", "e", Tables.Hashed("p"))],
                                [Tables.FridgeItem(1, "a", 0)]);
            var a := RecommendFromFridge(db, Some("u"), [Recipe(1, "t", None)]);
            && a == Recommend(["a"], [Recipe(1, "t", None)], false)
            && ValidDraw([0], 1)
            && Deliver(a, [0]) == Raised
  {
    var db := Tables.Db([Tables.User(1, "u", "u", "e", Tables.Hashed("p"))],
                        [Tables.FridgeItem(1, "a", 0)]);
    assert Tables.FindUser(db.users, "u") == Some(db.users[0]);
    assert Tables.ItemsOf(db.items, 1) == db.items;
    assert ContainsAll(CellText(None), ["a"]);
  }

  /** The staples `action_shopping_suggestion` compares the fridge with. */
  const Staples: seq<string> := ["양파", "감자", "당근", "두부", "토마토", "대파", "버섯", "계란"]

  /** The staples not among `items` (by exact name), in staple order. */
  function Missing(staples: seq<string>, items: seq<string>): (r: seq<string>)
    ensures |r| <= |staples|
    ensures forall k | 0 <= k < |r| :: r[k] in staples && r[k] !in items
    ensures forall k | 0 <= k < |staples| :: staples[k] !in items ==> staples[k] in r
  {
    if |staples| == 0 then []
    else
      var rest := Missing(staples[1..], items);
      assert forall k | 1 <= k < |staples| :: staples[k] == staples[1..][k - 1];
      if staples[0] !in items then [staples[0]] + rest else rest
  }

  /** Missing staples are listed in staple order: the list for a
      concatenation is the two lists one after the other. */
  lemma {:induction false} MissingAppend(a: seq<string>, b: seq<string>, items: seq<string>)
    ensures Missing(a + b, items) == Missing(a, items) + Missing(b, items)
    decreases |a|
  {
    if |a| == 0 {
      assert a + b == b;
    } else {
      assert (a + b)[0] == a[0];
      assert (a + b)[1..] == a[1..] + b;
      MissingAppend(a[1..], b, items);
    }
  }

  /** What `action_shopping_suggestion` tells the user. */
  datatype ShoppingAdvice =
    | AskLoginFirst
    | NoSuchUser
    | FridgeIsEmpty
    | WellStocked
    | Buy(fridge: seq<string>, shown: seq<string>)

  /** The answer once the fridge is known: an empty fridge is reported
      before a fully stocked one, and the first five missing staples are
      listed. */
  function Suggest(items: seq<string>, staples: seq<string>): (a: ShoppingAdvice)
    ensures a == FridgeIsEmpty || a == WellStocked || a.Buy?
    ensures a == FridgeIsEmpty <==> |items| == 0
    ensures a == WellStocked <==> |items| > 0 && |Missing(staples, items)| == 0
    ensures a.Buy? ==>
              && a.fridge == items && |items| > 0
              && |a.shown| == (if |Missing(staples, items)| < 5 then |Missing(staples, items)| else 5)
              && a.shown == Missing(staples, items)[..|a.shown|]
              && (forall k | 0 <= k < |a.shown| :: a.shown[k] in staples && a.shown[k] !in items)
  {
    var missing := Missing(staples, items);
    if |items| == 0 then FridgeIsEmpty
    else if |missing| == 0 then WellStocked
    else Buy(items, missing[..if |missing| < 5 then |missing| else 5])
  }

  /** `ActionShoppingSuggestion.run`: the login and user checks, then the
      answer for the user's fridge against the staples. */
  function ShoppingSuggestion(db: Tables.Db, userSlot: Option<string>): (a: ShoppingAdvice)
    ensures a == AskLoginFirst <==> !Given(userSlot)
    ensures Given(userSlot) ==> (a == NoSuchUser <==> !Tables.UserIdTaken(db.users, userSlot.value))
    ensures a == FridgeIsEmpty <==> Given(userSlot) && FridgeOf(db, userSlot.value) == Some([])
    ensures a == WellStocked <==>
              && Given(userSlot) && FridgeOf(db, userSlot.value).Some?
              && |FridgeOf(db, userSlot.value).value| > 0
              && |Missing(Staples, FridgeOf(db, userSlot.value).value)| == 0
    ensures a.Buy? ==>
              && Given(userSlot) && FridgeOf(db, userSlot.value) == Some(a.fridge)
              && |a.fridge| > 0
              && |a.shown| == (if |Missing(Staples, a.fridge)| < 5 then |Missing(Staples, a.fridge)| else 5)
              && a.shown == Missing(Staples, a.fridge)[..|a.shown|]
              && (forall k | 0 <= k < |a.shown| :: a.shown[k] in Staples && a.shown[k] !in a.fridge)
  {
    if !Given(userSlot) then AskLoginFirst
    else match FridgeOf(db, userSlot.value)
      case None => NoSuchUser
      case Some(items) => Suggest(items, Staples)
  }

  /** A logged-in user with a non-empty fridge is told to buy something
      exactly when some staple is not in the fridge. */
  lemma ShoppingIffStapleMissing(db: Tables.Db, uid: string)
    requires uid != "" && Tables.UserIdTaken(db.users, uid)
    ensures var fridge := FridgeOf(db, uid).value;
            ShoppingSuggestion(db, Some(uid)).Buy?
            <==> |fridge| > 0 && exists k | 0 <= k < |Staples| :: Staples[k] !in fridge
  {
    var fridge := FridgeOf(db, uid).value;
    var missing := Missing(Staples, fridge);
    if exists k | 0 <= k < |Staples| :: Staples[k] !in fridge {
      var k :| 0 <= k < |Staples| && Staples[k] !in fridge;
      assert Staples[k] in missing;
    }
    if |missing| > 0 {
      assert missing[0] in Staples && missing[0] !in fridge;
      var k :| 0 <= k < |Staples| && Staples[k] == missing[0];
    }
  }

  /** After an accepted add the shopping list is never the empty-fridge
      answer, and the added item is not among the staples it lists. */
  lemma StockingUpShrinksList(db: Tables.Db, req: FridgeRoutes.ItemRequest)
    requires FridgeRoutes.Add(db, req).1.status == 201
    ensures var a := ShoppingSuggestion(FridgeRoutes.Add(db, req).0, req.userId);
            a != AskLoginFirst && a != NoSuchUser && a != FridgeIsEmpty
            && (a.Buy? ==> req.itemName.value !in a.shown)
  {
    FridgeOfAfterAdd(db, req);
    var f := FridgeOf(db, req.userId.value).value + [req.itemName.value];
    assert f[|f| - 1] == req.itemName.value;
  }

  /** An empty fridge is reported as empty, not as missing every staple. */
  lemma EmptyFridgeFirst(db: Tables.Db, uid: string)
    requires uid != "" && FridgeOf(db, uid) == Some([])
    ensures ShoppingSuggestion(db, Some(uid)) == FridgeIsEmpty
  {
  }
}

=== FILE: saved_recipes.dfy ===
/** The saved-recipes screen: the list of saved recipes, the search filter
    shown above it, and removal by name. The list starts empty because the
    screen has no back end to load from. */
module SavedRecipes {
  import opened Text

  /** A saved recipe; the screen reads only its name. */
  datatype Recipe = Recipe(name: string)

  /** The list the screen starts with. */
  const Initial: seq<Recipe> := []

  /** The text shown when the filtered list is empty. */
  const EmptyText: string := "저장된 레시피가 없습니다."

  /** A recipe is shown when its lower-cased name contains the lower-cased
      search text. */
  predicate Shown(r: Recipe, search: string) {
    Contains(Lower(r.name), Lower(search))
  }

  /** `filtered`: the shown recipes, in list order. */
  function Filtered(recipes: seq<Recipe>, search: string): (f: seq<Recipe>)
    ensures |f| <= |recipes|
    ensures forall r :: r in f <==> r in recipes && Shown(r, search)
  {
    if |recipes| == 0 then []
    else
      var rest := Filtered(recipes[1..], search);
      assert recipes == [recipes[0]] + recipes[1..];
      if Shown(recipes[0], search) then [recipes[0]] + rest else rest
  }

  /** `a` is `b` with some elements left out, order kept. */
  predicate Subsequence(a: seq<Recipe>, b: seq<Recipe>)
    decreases |b|
  {
    if |a| == 0 then true
    else if |b| == 0 then false
    else if a[0] == b[0] then Subsequence(a[1..], b[1..])
    else Subsequence(a, b[1..])
  }

  /** Filtering keeps the order of the list. */
  lemma {:induction false} FilteredInOrder(recipes: seq<Recipe>, search: string)
    ensures Subsequence(Filtered(recipes, search), recipes)
    decreases |recipes|
  {
    if |recipes| > 0 {
      FilteredInOrder(recipes[1..], search);
      var f := Filtered(recipes, search);
      if Shown(recipes[0], search) {
        assert f[1..] == Filtered(recipes[1..], search);
      }
    }
  }

  /** Filtering distributes over concatenation, so the relative order of
      any two shown recipes is their order in the list. */
  lemma {:induction false} FilteredAppend(a: seq<Recipe>, b: seq<Recipe>, search: string)
    ensures Filtered(a + b, search) == Filtered(a, search) + Filtered(b, search)
    decreases |a|
  {
    if |a| == 0 {
      assert a + b == b;
    } else {
      assert (a + b)[0] == a[0];
      assert (a + b)[1..] == a[1..] + b;
      FilteredAppend(a[1..], b, search);
    }
  }

  /** An empty search shows every recipe. */
  lemma {:induction false} EmptySearchKeepsAll(recipes: seq<Recipe>)
    ensures Filtered(recipes, "") == recipes
    decreases |recipes|
  {
    if |recipes| > 0 {
      assert Lower("") == "";
      EmptyOccurs(Lower(recipes[0].name));
      EmptySearchKeepsAll(recipes[1..]);
      assert recipes == [recipes[0]] + recipes[1..];
    }
  }

  /** Lower-casing twice is lower-casing once. */
  lemma LowerIdempotent(s: string)
    ensures Lower(Lower(s)) == Lower(s)
  {
  }

  /** The search ignores the case of its ASCII letters. */
  lemma SearchIgnoresCase(recipes: seq<Recipe>, search: string)
    ensures Filtered(recipes, Lower(search)) == Filtered(recipes, search)
  {
    LowerIdempotent(search);
  }

  /** `removeRecipe`: every recipe with exactly that name goes, the others
      stay in order. */
  function Remove(recipes: seq<Recipe>, name: string): (r: seq<Recipe>)
    ensures |r| <= |recipes|
    ensures forall x :: x in r <==> x in recipes && x.name != name
  {
    if |recipes| == 0 then []
    else
      var rest := Remove(recipes[1..], name);
      assert recipes == [recipes[0]] + recipes[1..];
      if recipes[0].name == name then rest else [recipes[0]] + rest
  }

  /** Removal compares names case-sensitively: a recipe whose name differs
      only in case survives. */
  lemma RemoveIsCaseSensitive()
    ensures Remove([Recipe("Kimchi")], "kimchi") == [Recipe("Kimchi")]
  {
  }

  /** Removal keeps the order of the survivors. */
  lemma {:induction false} RemoveInOrder(recipes: seq<Recipe>, name: string)
    ensures Subsequence(Remove(recipes, name), recipes)
    decreases |recipes|
  {
    if |recipes| > 0 {
      RemoveInOrder(recipes[1..], name);
      var r := Remove(recipes, name);
      if recipes[0].name != name {
        assert r[1..] == Remove(recipes[1..], name);
      }
    }
  }

  /** The text under the search box: the empty-state text exactly when no
      recipe is shown, the empty string when the list is drawn. */
  function EmptyState(recipes: seq<Recipe>, search: string): (t: string)
    ensures t == EmptyText <==> forall r | r in recipes :: !Shown(r, search)
    ensures t == "" <==> exists r | r in recipes :: Shown(r, search)
  {
    var f := Filtered(recipes, search);
    if |f| == 0 then EmptyText
    else
      assert f[0] in f;
      ""
  }

  /** With an empty search, the empty-state text shows iff nothing is
      saved; in particular it shows on the initial screen. */
  lemma EmptyStateInitially(recipes: seq<Recipe>)
    ensures EmptyState(recipes, "") == EmptyText <==> |recipes| == 0
    ensures EmptyState(Initial, "") == EmptyText
  {
    EmptySearchKeepsAll(recipes);
  }
}

=== FILE: sign_up.dfy ===
/** The sign-up screen: the e-mail shape test, the four field checks its
    validation effect runs on every edit, the handling of the two duplicate
    checks, and the guard and 409 routing of the final sign-up request. */
module SignUp {
  import opened Base
  import opened Text

  const IdErrorMsg: string := "아이디는 최소 4자 이상이어야 합니다."
  const EmailEmptyMsg: string := "이메일을 입력해주세요."
  const EmailFormatMsg: string := "올바른 이메일 형식이 아닙니다."
  const PasswordErrorMsg: string := "비밀번호는 최소 6자 이상이어야 합니다."
  const ConfirmErrorMsg: string := "비밀번호가 일치하지 않습니다."

  const MinIdLength: nat := 4
  const MinPasswordLength: nat := 6

  // ---------------------------------------------------------------------
  // validateEmail: /\S+@\S+\.\S+/.test(email)
  // ---------------------------------------------------------------------

  /** A match of `\S+@\S+\.\S+` with its `@` at `at` and its `.` at `dot`:
      a non-space before the `@`, only non-spaces (at least one) between
      `@` and `.`, and a non-space after the `.`. */
  predicate EmailAt(s: string, at: int, dot: int) {
    && 1 <= at && at + 1 < dot && dot + 1 < |s|
    && !IsJsSpace(s[at - 1]) && s[at] == '@'
    && s[dot] == '.' && !IsJsSpace(s[dot + 1])
    && forall k | at < k < dot :: !IsJsSpace(s[k])
  }

  /** The unanchored regular-expression test: a match anywhere will do. */
  function ValidateEmail(s: string): (ok: bool)
    ensures ok ==> '@' in s && '.' in s && |s| >= 5
  {
    exists at, dot | 0 <= at < |s| && 0 <= dot < |s| :: EmailAt(s, at, dot)
  }

  /** A well-formed address passes. */
  lemma PlainAddressPasses()
    ensures ValidateEmail("a@b.c")
  {
    assert EmailAt("a@b.c", 1, 3);
  }

  /** The test is unanchored: a passing string still passes with anything
      around it. */
  lemma EmailSurvivesContext(pre: string, s: string, post: string)
    requires ValidateEmail(s)
    ensures ValidateEmail(pre + s + post)
  {
    var at, dot :| 0 <= at < |s| && 0 <= dot < |s| && EmailAt(s, at, dot);
    var w := pre + s + post;
    assert forall k | 0 <= k < |s| :: w[|pre| + k] == s[k];
    assert EmailAt(w, |pre| + at, |pre| + dot);
  }

  /** A passing string has an `@`, a `.` and at least five characters. */
  lemma EmailNeeds(s: string)
    requires ValidateEmail(s)
    ensures '@' in s && '.' in s && |s| >= 5
  {
    var at, dot :| 0 <= at < |s| && 0 <= dot < |s| && EmailAt(s, at, dot);
  }

  /** An address whose domain has no dot fails, as does one with a space
      between the `@` and the only dot. */
  lemma EmailRejects()
    ensures !ValidateEmail("a@b")
    ensures !ValidateEmail("a@ b.c")
    ensures !ValidateEmail("@b.c")
  {
    var s := "a@ b.c";
    forall at, dot | 0 <= at < |s| && 0 <= dot < |s| ensures !EmailAt(s, at, dot) {
      if EmailAt(s, at, dot) {
        assert at == 1 && dot == 4;
        assert IsJsSpace(s[2]);
      }
    }
  }

  // ---------------------------------------------------------------------
  // The validation effect
  // ---------------------------------------------------------------------

  /** The four inline errors and the overall validity. */
  datatype Checks = Checks(idError: string, emailError: string, passwordError: string,
                           confirmError: string, valid: bool)

  /** The effect run on every edit: four independent checks, valid iff none
      fails. */
  function Check(id: string, email: string, password: string, confirm: string): (c: Checks)
    ensures c.idError != "" <==> |id| < MinIdLength
    ensures c.idError != "" ==> c.idError == IdErrorMsg
    ensures email == "" ==> c.emailError == EmailEmptyMsg
    ensures email != "" ==> (c.emailError != "" <==> !ValidateEmail(email))
    ensures email != "" && !ValidateEmail(email) ==> c.emailError == EmailFormatMsg
    ensures c.passwordError != "" <==> |password| < MinPasswordLength
    ensures c.passwordError != "" ==> c.passwordError == PasswordErrorMsg
    ensures c.confirmError != "" <==> password != confirm
    ensures c.confirmError != "" ==> c.confirmError == ConfirmErrorMsg
    ensures c.valid <==> c.idError == "" && c.emailError == "" && c.passwordError == "" && c.confirmError == ""
  {
    var idError := if id == "" || |id| < MinIdLength then IdErrorMsg else "";
    var emailError := if email == "" then EmailEmptyMsg
                      else if !ValidateEmail(email) then EmailFormatMsg
                      else "";
    var passwordError := if password == "" || |password| < MinPasswordLength then PasswordErrorMsg else "";
    var confirmError := if password != confirm then ConfirmErrorMsg else "";
    var valid := idError == "" && emailError == "" && passwordError == "" && confirmError == "";
    Checks(idError, emailError, passwordError, confirmError, valid)
  }

  /** Validity in terms of the fields alone. */
  lemma ValidIff(id: string, email: string, password: string, confirm: string)
    ensures Check(id, email, password, confirm).valid
            <==> |id| >= MinIdLength && ValidateEmail(email)
                 && |password| >= MinPasswordLength && password == confirm
  {
    if ValidateEmail(email) {
      assert email != "";
    }
  }

  /** Each error depends only on its own fields: changing the others leaves
      it as it was. */
  lemma ChecksIndependent(id: string, email: string, password: string, confirm: string,
                          id': string, email': string, password': string, confirm': string)
    ensures id == id' ==> Check(id, email, password, confirm).idError == Check(id', email', password', confirm').idError
    ensures email == email' ==> Check(id, email, password, confirm).emailError == Check(id', email', password', confirm').emailError
    ensures password == password' ==>
              Check(id, email, password, confirm).passwordError == Check(id', email', password', confirm').passwordError
    ensures password == password' && confirm == confirm' ==>
              Check(id, email, password, confirm).confirmError == Check(id', email', password', confirm').confirmError
  {
  }

  // ---------------------------------------------------------------------
  // The screen
  // ---------------------------------------------------------------------

  /** The screen's state: the four fields, their inline errors, the two
      duplicate-check success notes, and the button state. */
  datatype Form = Form(
    id: string, email: string, password: string, confirm: string,
    idError: string, emailError: string, passwordError: string, confirmError: string,
    idSuccess: string, emailSuccess: string,
    isValid: bool)

  /** Runs the validation effect over the form's fields. */
  function Revalidate(f: Form): Form {
    var c := Check(f.id, f.email, f.password, f.confirm);
    f.(idError := c.idError, emailError := c.emailError, passwordError := c.passwordError,
       confirmError := c.confirmError, isValid := c.valid)
  }

  /** The form as first shown, after the effect's first run. */
  function Initial(): Form {
    Revalidate(Form("", "", "", "", "", "", "", "", "", "", false))
  }

  /** The four input fields. */
  datatype Field = IdField | EmailField | PasswordField | ConfirmField

  /** Typing into one field; the validation effect runs after each edit. */
  function Edit(f: Form, field: Field, text: string): (g: Form)
    ensures field == IdField ==>
              g.id == text && g.email == f.email && g.password == f.password && g.confirm == f.confirm
    ensures field == EmailField ==>
              g.email == text && g.id == f.id && g.password == f.password && g.confirm == f.confirm
    ensures field == PasswordField ==>
              g.password == text && g.id == f.id && g.email == f.email && g.confirm == f.confirm
    ensures field == ConfirmField ==>
              g.confirm == text && g.id == f.id && g.email == f.email && g.password == f.password
    ensures var c := Check(g.id, g.email, g.password, g.confirm);
            && g.idError == c.idError && g.emailError == c.emailError
            && g.passwordError == c.passwordError && g.confirmError == c.confirmError
            && g.isValid == c.valid
    ensures g.idSuccess == f.idSuccess && g.emailSuccess == f.emailSuccess
  {
    match field
    case IdField => Revalidate(f.(id := text))
    case EmailField => Revalidate(f.(email := text))
    case PasswordField => Revalidate(f.(password := text))
    case ConfirmField => Revalidate(f.(confirm := text))
  }

  /** The answer of a duplicate check: status and the body's `error` and
      `message` texts. */
  datatype CheckReply = CheckReply(status: int, error: string, message: string)

  /** `checkDuplicateId`: 409 shows the error and clears the success note,
      200 clears the error and shows the note, anything else is ignored. */
  function IdChecked(f: Form, reply: CheckReply): (g: Form)
    ensures reply.status == 409 ==> g == f.(idError := reply.error, idSuccess := "")
    ensures reply.status == 200 ==> g == f.(idError := "", idSuccess := reply.message)
    ensures reply.status != 409 && reply.status != 200 ==> g == f
    ensures g.isValid == f.isValid
  {
    if reply.status == 409 then f.(idError := reply.error, idSuccess := "")
    else if reply.status == 200 then f.(idError := "", idSuccess := reply.message)
    else f
  }

  /** `checkDuplicateEmail`, the same rules for the e-mail field. */
  function EmailChecked(f: Form, reply: CheckReply): (g: Form)
    ensures reply.status == 409 ==> g == f.(emailError := reply.error, emailSuccess := "")
    ensures reply.status == 200 ==> g == f.(emailError := "", emailSuccess := reply.message)
    ensures reply.status != 409 && reply.status != 200 ==> g == f
    ensures g.isValid == f.isValid
  {
    if reply.status == 409 then f.(emailError := reply.error, emailSuccess := "")
    else if reply.status == 200 then f.(emailError := "", emailSuccess := reply.message)
    else f
  }

  /** A successful duplicate check clears the id's length error while the
      button stays disabled: the button follows the fields, not the
      messages. */
  lemma DuplicateCheckLeavesButton(f: Form, error: string, message: string)
    requires |f.id| < MinIdLength
    requires f.isValid == Check(f.id, f.email, f.password, f.confirm).valid
    ensures var g := IdChecked(f, CheckReply(200, error, message));
            g.idError == "" && g.idSuccess == message && !ButtonEnabled(g)
  {
  }

  /** Likewise for the e-mail check: an address the shape test rejects
      loses its error message on a 200 but still keeps the button
      disabled. */
  lemma DuplicateEmailCheckLeavesButton(f: Form, error: string, message: string)
    requires !ValidateEmail(f.email)
    requires f.isValid == Check(f.id, f.email, f.password, f.confirm).valid
    ensures var g := EmailChecked(f, CheckReply(200, error, message));
            g.emailError == "" && g.emailSuccess == message && !ButtonEnabled(g)
  {
  }

  /** The server's answer to the sign-up request, or `Unreachable` when the
      request or its body failed. */
  datatype SignupReply =
    | Answer(status: int, error: Option<string>)
    | Unreachable

  /** Where the screen goes after pressing sign-up. */
  datatype Next = NoRequest | Stay | ToWelcome

  /** `onSignUp`: nothing when the form is invalid; a 409 puts the error
      under the id field if it mentions `아이디`, else under the e-mail
      field if it mentions `이메일`, else nowhere; other failures are
      silent; success goes to the welcome screen. */
  function OnSignUp(f: Form, reply: SignupReply): (r: (Form, Next))
    ensures !f.isValid ==> r == (f, NoRequest)
    ensures r.1 == NoRequest <==> !f.isValid
    ensures r.1 == ToWelcome <==> f.isValid && reply.Answer? && 200 <= reply.status < 300
    ensures r.0 != f ==> f.isValid && reply.Answer? && reply.status == 409
    ensures f.isValid && reply.Answer? && reply.status == 409 && reply.error.Some? ==>
              var e := reply.error.value;
              r.0 == (if Contains(e, "아이디") then f.(idError := e)
                      else if Contains(e, "이메일") then f.(emailError := e)
                      else f)
    ensures r.0.isValid == f.isValid
  {
    if !f.isValid then (f, NoRequest)
    else match reply
      case Unreachable => (f, Stay)
      case Answer(status, error) =>
        if status == 409 then
          match error
          case None => (f, Stay)
          case Some(e) =>
            if Contains(e, "아이디") then (f.(idError := e), Stay)
            else if Contains(e, "이메일") then (f.(emailError := e), Stay)
            else (f, Stay)
        else if !(200 <= status < 300) then (f, Stay)
        else (f, ToWelcome)
  }

  /** The button is enabled exactly when the validation effect says so. */
  predicate ButtonEnabled(f: Form) {
    f.isValid
  }

  /** After an edit the button is enabled iff the fields pass all four
      checks, and a sign-up reply never changes that. */
  lemma ButtonFollowsFields(f: Form, field: Field, text: string, reply: SignupReply)
    requires f.isValid == Check(f.id, f.email, f.password, f.confirm).valid
    ensures var g := Edit(f, field, text);
            ButtonEnabled(g) <==> |g.id| >= MinIdLength && ValidateEmail(g.email)
                                  && |g.password| >= MinPasswordLength && g.password == g.confirm
    ensures OnSignUp(f, reply).0.isValid == Check(f.id, f.email, f.password, f.confirm).valid
  {
    var g := Edit(f, field, text);
    ValidIff(g.id, g.email, g.password, g.confirm);
  }
}

=== FILE: tables.dfy ===
/** The two SQLite tables the backend and the chatbot actions share, as
    sequences of records in storage order, with the lookups and updates the
    routes run against them. Password hashing is abstracted as an exact,
    collision-free `HashPassword`/`CheckPassword` pair. */
module Tables {
  import opened Base

  /** A stored password hash. Only `CheckPassword` looks inside it. */
  datatype Hash = Hashed(secret: string)

  /** werkzeug's `generate_password_hash`. */
  function HashPassword(password: string): Hash {
    Hashed(password)
  }

  /** werkzeug's `check_password_hash`. */
  predicate CheckPassword(h: Hash, password: string) {
    h == Hashed(password)
  }

  /** A hash accepts exactly the password it was made from. */
  lemma HashChecks(p: string, q: string)
    ensures CheckPassword(HashPassword(p), q) <==> p == q
  {
  }

  /** A row of `users`: numeric primary key `id`, login handle `user_id`,
      display `username`, `email` and password hash. */
  datatype User = User(id: int, userId: string, username: string, email: string, password: Hash)

  /** A row of `fridge_items`: owner (`users.id`), item name, and the
      `is_seasoning` flag as stored (0 for an ingredient). */
  datatype FridgeItem = FridgeItem(owner: int, name: string, isSeasoning: int)

  /** A route's reply: the HTTP status and the body's `error` or `message`
      text. */
  datatype Reply = Reply(status: int, text: string)

  /** The database the routes work on. */
  datatype Db = Db(users: seq<User>, items: seq<FridgeItem>)

  // ---------------------------------------------------------------------
  // users
  // ---------------------------------------------------------------------

  /** Some row has login handle `uid`. */
  predicate UserIdTaken(users: seq<User>, uid: string) {
    exists k | 0 <= k < |users| :: users[k].userId == uid
  }

  /** Some row has e-mail `email`. */
  predicate EmailTaken(users: seq<User>, email: string) {
    exists k | 0 <= k < |users| :: users[k].email == email
  }

  /** `SELECT * FROM users WHERE user_id = ?` followed by `fetchone()`: the
      first row in storage order with that handle, if any. */
  function FindUser(users: seq<User>, uid: string): (r: Option<User>)
    ensures r.Some? <==> UserIdTaken(users, uid)
    ensures r.Some? ==> r.value in users && r.value.userId == uid
    ensures r.Some? ==> exists k | 0 <= k < |users| :: users[k] == r.value && FirstWithId(users, uid, k)
  {
    if |users| == 0 then None
    else if users[0].userId == uid then
      assert FirstWithId(users, uid, 0);
      Some(users[0])
    else
      var r := FindUser(users[1..], uid);
      assert UserIdTaken(users, uid) ==> UserIdTaken(users[1..], uid) by {
        if UserIdTaken(users, uid) {
          var k :| 0 <= k < |users| && users[k].userId == uid;
          assert users[1..][k - 1] == users[k];
        }
      }
      if r.Some? then
        var k :| 0 <= k < |users[1..]| && users[1..][k] == r.value && FirstWithId(users[1..], uid, k);
        FirstWithIdCons(users, uid, k);
        r
      else r
  }

  /** Row `k` is the first one with handle `uid`. */
  predicate FirstWithId(users: seq<User>, uid: string, k: int) {
    0 <= k < |users| && users[k].userId == uid && forall j | 0 <= j < k :: users[j].userId != uid
  }

  lemma FirstWithIdCons(users: seq<User>, uid: string, k: int)
    requires |users| > 0 && users[0].userId != uid
    requires FirstWithId(users[1..], uid, k)
    ensures FirstWithId(users, uid, k + 1) && users[k + 1] == users[1..][k]
  {
    forall j | 1 <= j < k + 1 ensures users[j].userId != uid {
      assert users[j] == users[1..][j - 1];
    }
  }

  /** `SELECT * FROM users WHERE email = ?` followed by `fetchone()`. */
  function FindEmail(users: seq<User>, email: string): (r: Option<User>)
    ensures r.Some? <==> EmailTaken(users, email)
    ensures r.Some? ==> r.value in users && r.value.email == email
    ensures r.Some? ==> exists k | 0 <= k < |users| :: users[k] == r.value && FirstWithEmail(users, email, k)
  {
    if |users| == 0 then None
    else if users[0].email == email then
      assert FirstWithEmail(users, email, 0);
      Some(users[0])
    else
      var r := FindEmail(users[1..], email);
      assert EmailTaken(users, email) ==> EmailTaken(users[1..], email) by {
        if EmailTaken(users, email) {
          var k :| 0 <= k < |users| && users[k].email == email;
          assert users[1..][k - 1] == users[k];
        }
      }
      if r.Some? then
        var k :| 0 <= k < |users[1..]| && users[1..][k] == r.value && FirstWithEmail(users[1..], email, k);
        FirstWithEmailCons(users, email, k);
        r
      else r
  }

  /** Row `k` is the first one with e-mail `email`. */
  predicate FirstWithEmail(users: seq<User>, email: string, k: int) {
    0 <= k < |users| && users[k].email == email && forall j | 0 <= j < k :: users[j].email != email
  }

  lemma FirstWithEmailCons(users: seq<User>, email: string, k: int)
    requires |users| > 0 && users[0].email != email
    requires FirstWithEmail(users[1..], email, k)
    ensures FirstWithEmail(users, email, k + 1) && users[k + 1] == users[1..][k]
  {
    forall j | 1 <= j < k + 1 ensures users[j].email != email {
      assert users[j] == users[1..][j - 1];
    }
  }

  /** A row appended at the end is found only when no earlier row has its
      handle. */
  lemma {:induction false} FindUserAppend(users: seq<User>, u: User, uid: string)
    ensures FindUser(users + [u], uid)
            == if UserIdTaken(users, uid) then FindUser(users, uid)
               else if u.userId == uid then Some(u) else None
    decreases |users|
  {
    if |users| > 0 {
      assert (users + [u])[0] == users[0];
      assert (users + [u])[1..] == users[1..] + [u];
      FindUserAppend(users[1..], u, uid);
      if users[0].userId != uid {
        assert UserIdTaken(users, uid) <==> UserIdTaken(users[1..], uid) by {
          if UserIdTaken(users, uid) {
            var k :| 0 <= k < |users| && users[k].userId == uid;
            assert users[1..][k - 1] == users[k];
          }
          if UserIdTaken(users[1..], uid) {
            var k :| 0 <= k < |users[1..]| && users[1..][k].userId == uid;
            assert users[k + 1] == users[1..][k];
          }
        }
      }
    } else {
      assert users + [u] == [u];
    }
  }

  /** The uniqueness the routes maintain: distinct rows have distinct
      numeric ids, handles and e-mails, and ids are positive (SQLite row
      ids start at 1). */
  predicate UniqueUsers(users: seq<User>) {
    && (forall k | 0 <= k < |users| :: users[k].id >= 1)
    && (forall i, j | 0 <= i < j < |users| ::
          users[i].id != users[j].id
          && users[i].userId != users[j].userId
          && users[i].email != users[j].email)
  }

  /** The row id SQLite assigns to the next insert: one more than the
      largest id in use. */
  function NextId(users: seq<User>): (id: int)
    ensures id >= 1
    ensures forall k | 0 <= k < |users| :: users[k].id < id
  {
    if |users| == 0 then 1
    else
      var rest := NextId(users[1..]);
      assert forall k | 1 <= k < |users| :: users[k] == users[1..][k - 1];
      if users[0].id + 1 > rest then users[0].id + 1 else rest
  }

  /** `UPDATE users SET username = ? WHERE user_id = ?`. A later login
      lookup of that handle finds its row under the new name, every other
      handle finds what it found before, and uniqueness is kept. */
  function SetUsername(users: seq<User>, uid: string, name: string): (r: seq<User>)
    ensures |r| == |users|
    ensures forall k | 0 <= k < |users| ::
              r[k] == if users[k].userId == uid then users[k].(username := name) else users[k]
    ensures FindUser(r, uid) == if UserIdTaken(users, uid) then Some(FindUser(users, uid).value.(username := name)) else None
    ensures forall v | v != uid :: FindUser(r, v) == FindUser(users, v)
    ensures UniqueUsers(users) ==> UniqueUsers(r)
  {
    var r := seq(|users|, k requires 0 <= k < |users| =>
      if users[k].userId == uid then users[k].(username := name) else users[k]);
    FindUserMoved(users, r, uid);
    FindUserKept(users, r, uid);
    KeysKeptUnique(users, r);
    r
  }

  /** `UPDATE users SET password = ? WHERE user_id = ?`. A later login
      lookup of that handle finds its row with the new hash, every other
      handle finds what it found before, and uniqueness is kept. */
  function SetPassword(users: seq<User>, uid: string, h: Hash): (r: seq<User>)
    ensures |r| == |users|
    ensures forall k | 0 <= k < |users| ::
              r[k] == if users[k].userId == uid then users[k].(password := h) else users[k]
    ensures FindUser(r, uid) == if UserIdTaken(users, uid) then Some(FindUser(users, uid).value.(password := h)) else None
    ensures forall v | v != uid :: FindUser(r, v) == FindUser(users, v)
    ensures UniqueUsers(users) ==> UniqueUsers(r)
  {
    var r := seq(|users|, k requires 0 <= k < |users| =>
      if users[k].userId == uid then users[k].(password := h) else users[k]);
    FindUserMoved(users, r, uid);
    FindUserKept(users, r, uid);
    KeysKeptUnique(users, r);
    r
  }

  /** `UPDATE users SET password = ? WHERE email = ?`. A later lookup of
      that e-mail finds its row with the new hash, every other e-mail finds
      what it found before, and uniqueness is kept. */
  function SetPasswordByEmail(users: seq<User>, email: string, h: Hash): (r: seq<User>)
    ensures |r| == |users|
    ensures forall k | 0 <= k < |users| ::
              r[k] == if users[k].email == email then users[k].(password := h) else users[k]
    ensures FindEmail(r, email) == if EmailTaken(users, email) then Some(FindEmail(users, email).value.(password := h)) else None
    ensures forall e | e != email :: FindEmail(r, e) == FindEmail(users, e)
    ensures UniqueUsers(users) ==> UniqueUsers(r)
  {
    var r := seq(|users|, k requires 0 <= k < |users| =>
      if users[k].email == email then users[k].(password := h) else users[k]);
    FindEmailMoved(users, r, email);
    FindEmailKept(users, r, email);
    KeysKeptUnique(users, r);
    r
  }

  /** When a rewrite keeps every handle in place, the lookup of a handle
      lands on the same row index before and after. */
  lemma FindUserMoved(users: seq<User>, r: seq<User>, uid: string)
    requires |r| == |users|
    requires forall k | 0 <= k < |users| :: r[k].userId == users[k].userId
    ensures FindUser(r, uid).Some? <==> FindUser(users, uid).Some?
    ensures FindUser(users, uid).Some? ==>
              exists k | 0 <= k < |users| :: FindUser(users, uid) == Some(users[k]) && FindUser(r, uid) == Some(r[k])
  {
    TakenSame(users, r, uid);
    if FindUser(users, uid).Some? {
      var k :| 0 <= k < |users| && users[k] == FindUser(users, uid).value && FirstWithId(users, uid, k);
      var k' :| 0 <= k' < |r| && r[k'] == FindUser(r, uid).value && FirstWithId(r, uid, k');
      FirstIdSame(users, r, uid, k, k');
    }
  }

  lemma TakenSame(users: seq<User>, r: seq<User>, uid: string)
    requires |r| == |users|
    requires forall j | 0 <= j < |users| :: r[j].userId == users[j].userId
    ensures UserIdTaken(r, uid) <==> UserIdTaken(users, uid)
  {
    if UserIdTaken(users, uid) {
      var k :| 0 <= k < |users| && users[k].userId == uid;
      assert r[k].userId == uid;
    }
  }

  lemma EmailTakenSame(users: seq<User>, r: seq<User>, email: string)
    requires |r| == |users|
    requires forall j | 0 <= j < |users| :: r[j].email == users[j].email
    ensures EmailTaken(r, email) <==> EmailTaken(users, email)
  {
    if EmailTaken(users, email) {
      var k :| 0 <= k < |users| && users[k].email == email;
      assert r[k].email == email;
    }
  }

  /** With the same handles in the same places, the first row with a
      handle is at the same index. */
  lemma FirstIdSame(users: seq<User>, r: seq<User>, uid: string, k: int, k': int)
    requires |r| == |users|
    requires forall j | 0 <= j < |users| :: r[j].userId == users[j].userId
    requires FirstWithId(users, uid, k) && FirstWithId(r, uid, k')
    ensures k == k'
  {
    assert users[k'].userId == r[k'].userId == uid;
    assert r[k].userId == users[k].userId == uid;
  }

  /** A rewrite that keeps the handles and touches only the rows of `uid`
      leaves the lookup of every other handle as it was. */
  lemma FindUserKept(users: seq<User>, r: seq<User>, uid: string)
    requires |r| == |users|
    requires forall k | 0 <= k < |users| :: r[k].userId == users[k].userId
    requires forall k | 0 <= k < |users| :: users[k].userId != uid ==> r[k] == users[k]
    ensures forall v | v != uid :: FindUser(r, v) == FindUser(users, v)
  {
    forall v | v != uid ensures FindUser(r, v) == FindUser(users, v) {
      FindUserMoved(users, r, v);
    }
  }

  /** The e-mail counterpart of `FindUserMoved`. */
  lemma FindEmailMoved(users: seq<User>, r: seq<User>, email: string)
    requires |r| == |users|
    requires forall k | 0 <= k < |users| :: r[k].email == users[k].email
    ensures FindEmail(r, email).Some? <==> FindEmail(users, email).Some?
    ensures FindEmail(users, email).Some? ==>
              exists k | 0 <= k < |users| :: FindEmail(users, email) == Some(users[k]) && FindEmail(r, email) == Some(r[k])
  {
    EmailTakenSame(users, r, email);
    if FindEmail(users, email).Some? {
      var k :| 0 <= k < |users| && users[k] == FindEmail(users, email).value && FirstWithEmail(users, email, k);
      var k' :| 0 <= k' < |r| && r[k'] == FindEmail(r, email).value && FirstWithEmail(r, email, k');
      FirstEmailSame(users, r, email, k, k');
    }
  }

  /** The e-mail counterpart of `FirstIdSame`. */
  lemma FirstEmailSame(users: seq<User>, r: seq<User>, email: string, k: int, k': int)
    requires |r| == |users|
    requires forall j | 0 <= j < |users| :: r[j].email == users[j].email
    requires FirstWithEmail(users, email, k) && FirstWithEmail(r, email, k')
    ensures k == k'
  {
    assert users[k'].email == r[k'].email == email;
    assert r[k].email == users[k].email == email;
  }

  /** The e-mail counterpart of `FindUserKept`. */
  lemma FindEmailKept(users: seq<User>, r: seq<User>, email: string)
    requires |r| == |users|
    requires forall k | 0 <= k < |users| :: r[k].email == users[k].email
    requires forall k | 0 <= k < |users| :: users[k].email != email ==> r[k] == users[k]
    ensures forall e | e != email :: FindEmail(r, e) == FindEmail(users, e)
  {
    forall e | e != email ensures FindEmail(r, e) == FindEmail(users, e) {
      FindEmailMoved(users, r, e);
    }
  }

  /** Rewriting any one field other than id, handle and e-mail keeps the
      users unique. */
  lemma KeysKeptUnique(users: seq<User>, r: seq<User>)
    requires |r| == |users|
    requires forall k | 0 <= k < |users| ::
               r[k].id == users[k].id && r[k].userId == users[k].userId && r[k].email == users[k].email
    ensures UniqueUsers(users) ==> UniqueUsers(r)
  {
  }

  // ---------------------------------------------------------------------
  // fridge_items
  // ---------------------------------------------------------------------

  /** The rows of `fridge_items` owned by `owner`, in storage order. */
  function ItemsOf(items: seq<FridgeItem>, owner: int): (r: seq<FridgeItem>)
    ensures |r| <= |items|
    ensures forall k | 0 <= k < |r| :: r[k].owner == owner && r[k] in items
    ensures forall k | 0 <= k < |items| :: items[k].owner == owner ==> items[k] in r
  {
    if |items| == 0 then []
    else
      var rest := ItemsOf(items[1..], owner);
      assert forall k | 1 <= k < |items| :: items[k] == items[1..][k - 1];
      if items[0].owner == owner then [items[0]] + rest else rest
  }

  /** No owner holds two identical (name, is_seasoning) rows. */
  predicate NoDuplicateItems(items: seq<FridgeItem>) {
    forall i, j | 0 <= i < j < |items| :: items[i] != items[j]
  }
}

=== FILE: text.dfy ===
/** String vocabulary shared by the client screens, the chatbot actions and
    the backend routes: substring search, splitting and joining on a
    separator, whitespace trimming, character counting and ASCII
    lower-casing. Strings are `seq<char>` of Unicode scalar values. */
module Text {

  // ---------------------------------------------------------------------
  // Substrings
  // ---------------------------------------------------------------------

  /** `pat` occurs in `text` starting at index `i`. */
  predicate OccursAt(text: string, pat: string, i: int) {
    0 <= i && i + |pat| <= |text| && text[i..i + |pat|] == pat
  }

  /** Python's `pat in text`, JavaScript's `text.includes(pat)`. */
  predicate Contains(text: string, pat: string) {
    exists i | 0 <= i <= |text| - |pat| :: OccursAt(text, pat, i)
  }

  /** The empty string occurs in every string. */
  lemma EmptyOccurs(text: string)
    ensures Contains(text, "")
  {
    assert OccursAt(text, "", 0);
  }

  /** Every string occurs in itself. */
  lemma SelfOccurs(text: string)
    ensures Contains(text, text)
  {
    assert OccursAt(text, text, 0);
  }

  /** An occurrence survives text added on either side. */
  lemma ContainsWithin(pre: string, text: string, post: string, pat: string)
    requires Contains(text, pat)
    ensures Contains(pre + text + post, pat)
  {
    var i :| 0 <= i <= |text| - |pat| && OccursAt(text, pat, i);
    var whole := pre + text + post;
    assert whole[|pre| + i..|pre| + i + |pat|] == text[i..i + |pat|];
    assert OccursAt(whole, pat, |pre| + i);
  }

  /** A pattern longer than the text cannot occur in it. */
  lemma TooLongAbsent(text: string, pat: string)
    requires |pat| > |text|
    ensures !Contains(text, pat)
  {
  }

  // ---------------------------------------------------------------------
  // Splitting and joining on one separator character
  // ---------------------------------------------------------------------

  /** Position of the first `c` in `s`. */
  function IndexOf(s: string, c: char): (i: nat)
    requires c in s
    ensures i < |s| && s[i] == c && c !in s[..i]
  {
    if s[0] == c then 0 else 1 + IndexOf(s[1..], c)
  }

  /** `sep.join(parts)`: the parts with `sep` between neighbours. */
  function Join(parts: seq<string>, sep: string): string
    decreases |parts|
  {
    if |parts| == 0 then ""
    else if |parts| == 1 then parts[0]
    else parts[0] + sep + Join(parts[1..], sep)
  }

  /** Python `s.split(sep)` for a one-character separator: never empty, no
      part holds the separator, and joining the parts back gives `s`. */
  function Split(s: string, sep: char): (parts: seq<string>)
    ensures |parts| >= 1
    ensures forall k | 0 <= k < |parts| :: sep !in parts[k]
    ensures Join(parts, [sep]) == s
    decreases |s|
  {
    if sep !in s then [s]
    else
      var i := IndexOf(s, sep);
      var rest := Split(s[i + 1..], sep);
      assert s == s[..i] + [sep] + s[i + 1..];
      [s[..i]] + rest
  }

  /** The other round trip: joining parts free of the separator and
      splitting again gives the parts back. */
  lemma {:induction false} SplitJoin(parts: seq<string>, sep: char)
    requires |parts| >= 1
    requires forall k | 0 <= k < |parts| :: sep !in parts[k]
    ensures Split(Join(parts, [sep]), sep) == parts
    decreases |parts|
  {
    if |parts| > 1 {
      var tail := Join(parts[1..], [sep]);
      var s := parts[0] + [sep] + tail;
      assert sep in s by { assert s[|parts[0]|] == sep; }
      assert IndexOf(s, sep) == |parts[0]| by {
        IndexOfAfterFree(parts[0], tail, sep);
      }
      assert Join(parts, [sep]) == s;
      assert s[..|parts[0]|] == parts[0];
      assert s[|parts[0]| + 1..] == tail;
      SplitJoin(parts[1..], sep);
      assert Split(s, sep) == [parts[0]] + Split(tail, sep);
      assert parts == [parts[0]] + parts[1..];
    }
  }

  /** A character absent from `s` is absent from every part of its
      split. */
  lemma {:induction false} SplitAvoids(s: string, sep: char, c: char)
    requires c !in s
    ensures forall k | 0 <= k < |Split(s, sep)| :: c !in Split(s, sep)[k]
    decreases |s|
  {
    if sep in s {
      var i := IndexOf(s, sep);
      assert c !in s[i + 1..] && c !in s[..i];
      SplitAvoids(s[i + 1..], sep, c);
      assert Split(s, sep) == [s[..i]] + Split(s[i + 1..], sep);
    }
  }

  /** The first separator in `a + [sep] + b` is the one after `a` when `a`
      holds none. */
  lemma IndexOfAfterFree(a: string, b: string, sep: char)
    requires sep !in a
    ensures sep in a + [sep] + b
    ensures IndexOf(a + [sep] + b, sep) == |a|
    decreases |a|
  {
    var s := a + [sep] + b;
    assert s[|a|] == sep;
    if |a| > 0 {
      assert s[1..] == a[1..] + [sep] + b;
      IndexOfAfterFree(a[1..], b, sep);
    }
  }

  // ---------------------------------------------------------------------
  // Whitespace
  // ---------------------------------------------------------------------

  /** Python's `str.isspace` for one character. */
  predicate IsPySpace(c: char) {
    c == ' ' || ('\t' <= c <= '\r') || ('\U{1c}' <= c <= '\U{1f}')
    || c == '\U{85}' || c == '\U{a0}' || c == '\U{1680}'
    || ('\U{2000}' <= c <= '\U{200a}') || c == '\U{2028}' || c == '\U{2029}'
    || c == '\U{202f}' || c == '\U{205f}' || c == '\U{3000}'
  }

  /** JavaScript's `\s` (and the characters `String.prototype.trim`
      removes). */
  predicate IsJsSpace(c: char) {
    c == ' ' || ('\t' <= c <= '\r') || c == '\U{a0}' || c == '\U{1680}'
    || ('\U{2000}' <= c <= '\U{200a}') || c == '\U{2028}' || c == '\U{2029}'
    || c == '\U{202f}' || c == '\U{205f}' || c == '\U{3000}' || c == '\U{feff}'
  }

  /** Drop leading characters satisfying `space`: the result is a suffix of
      `s`, everything dropped is space, and it does not start with space. */
  function TrimStart(s: string, space: char -> bool): (r: string)
    ensures |r| <= |s| && r == s[|s| - |r|..]
    ensures forall k | 0 <= k < |s| - |r| :: space(s[k])
    ensures |r| > 0 ==> !space(r[0])
  {
    if |s| > 0 && space(s[0]) then
      var r := TrimStart(s[1..], space);
      assert forall k | 1 <= k < |s| - |r| :: s[k] == s[1..][k - 1];
      r
    else s
  }

  /** Drop trailing characters satisfying `space`. */
  function TrimEnd(s: string, space: char -> bool): (r: string)
    ensures |r| <= |s| && r == s[..|r|]
    ensures forall k | |r| <= k < |s| :: space(s[k])
    ensures |r| > 0 ==> !space(r[|r| - 1])
  {
    if |s| > 0 && space(s[|s| - 1]) then TrimEnd(s[..|s| - 1], space) else s
  }

  /** Python `s.strip()` (with `IsPySpace`) and JavaScript `s.trim()` (with
      `IsJsSpace`): the result is a slice of `s` with only space cut away on
      both sides and no space at either end. */
  function Strip(s: string, space: char -> bool): (r: string)
    ensures exists i :: SliceAt(s, r, i)
    ensures |r| > 0 ==> !space(r[0]) && !space(r[|r| - 1])
    ensures r == "" <==> forall k | 0 <= k < |s| :: space(s[k])
  {
    var t := TrimStart(s, space);
    var r := TrimEnd(t, space);
    SliceOfSuffix(s, t, r);
    StripEmpty(s, t, r, space);
    r
  }

  /** A prefix of a suffix is a slice. */
  lemma SliceOfSuffix(s: string, t: string, r: string)
    requires |t| <= |s| && t == s[|s| - |t|..]
    requires |r| <= |t| && r == t[..|r|]
    ensures SliceAt(s, r, |s| - |t|)
  {
  }

  /** Cutting leading space and then trailing space leaves nothing iff
      every character is space. */
  lemma StripEmpty(s: string, t: string, r: string, space: char -> bool)
    requires |t| <= |s| && t == s[|s| - |t|..]
    requires forall k | 0 <= k < |s| - |t| :: space(s[k])
    requires |t| > 0 ==> !space(t[0])
    requires |r| <= |t| && r == t[..|r|]
    requires forall k | |r| <= k < |t| :: space(t[k])
    ensures r == "" <==> forall k | 0 <= k < |s| :: space(s[k])
  {
    if r != "" {
      assert r[0] == s[|s| - |t|];
    }
  }

  /** `r` is the slice of `s` that starts at index `i`. */
  predicate SliceAt(s: string, r: string, i: int) {
    0 <= i <= |s| - |r| && r == s[i..i + |r|]
  }

  /** Stripping brings in no character. */
  lemma StripAvoids(s: string, space: char -> bool, c: char)
    requires c !in s
    ensures c !in Strip(s, space)
  {
    var r := Strip(s, space);
    var i :| SliceAt(s, r, i);
    forall t | 0 <= t < |r| ensures r[t] != c {
      assert r[t] == s[i + t];
    }
  }

  /** Stripping twice is stripping once. */
  lemma StripIdempotent(s: string, space: char -> bool)
    ensures Strip(Strip(s, space), space) == Strip(s, space)
  {
    var r := Strip(s, space);
    assert TrimStart(r, space) == r;
    assert TrimEnd(r, space) == r;
  }

  // ---------------------------------------------------------------------
  // Counting and case
  // ---------------------------------------------------------------------

  /** Number of occurrences of `c` in `s`. */
  function CountChar(s: string, c: char): nat {
    if |s| == 0 then 0 else (if s[0] == c then 1 else 0) + CountChar(s[1..], c)
  }

  /** Counting distributes over concatenation. */
  lemma {:induction false} CountCharAppend(a: string, b: string, c: char)
    ensures CountChar(a + b, c) == CountChar(a, c) + CountChar(b, c)
    decreases |a|
  {
    if |a| > 0 {
      assert (a + b)[0] == a[0];
      assert (a + b)[1..] == a[1..] + b;
      CountCharAppend(a[1..], b, c);
    } else {
      assert a + b == b;
    }
  }

  /** A character that does not occur is counted zero times. */
  lemma {:induction false} CountCharAbsent(s: string, c: char)
    requires c !in s
    ensures CountChar(s, c) == 0
    decreases |s|
  {
    if |s| > 0 {
      assert c !in s[1..];
      CountCharAbsent(s[1..], c);
    }
  }

  /** ASCII-only lower-casing of one character. */
  function LowerChar(c: char): char {
    if 'A' <= c <= 'Z' then (c as int + 32) as char else c
  }

  /** `s.toLowerCase()` restricted to ASCII letters: same length, each
      character lowered in place. */
  function Lower(s: string): (r: string)
    ensures |r| == |s|
    ensures forall k | 0 <= k < |s| :: r[k] == LowerChar(s[k])
  {
    seq(|s|, k requires 0 <= k < |s| => LowerChar(s[k]))
  }
}

=== FILE: user_settings.dfy ===
/** The account-settings routes over the abstract `users` table: checking
    the current password, replacing it, and renaming. The settings
    blueprint's rename handler is the same code as the authentication one
    and shares its URL, so `AuthRoutes.UpdateUsername` models both. */
module UserSettings {
  import opened Base
  import opened Tables
  import AuthRoutes

  const MissingMsg: string := "입력 정보 부족"
  const NoUserMsg: string := "사용자 없음"
  const MismatchMsg: string := "비밀번호 불일치"
  const VerifiedMsg: string := "비밀번호 확인 성공"
  const ChangedMsg: string := "비밀번호가 성공적으로 변경되었습니다."

  /** The JSON body of a verify or update request: the handle and the
      password (`password` or `new_password`). */
  datatype PasswordRequest = PasswordRequest(userId: Option<string>, password: Option<string>)

  /** `verify_password`: 400 for a missing field, 404 for an unknown
      handle, 401 when the password does not match the first row with that
      handle, 200 when it does. It returns no database: it never writes. */
  function VerifyPassword(db: Db, req: PasswordRequest): (r: Reply)
    ensures r.status in {400, 404, 401, 200}
    ensures r.status == 400 <==> !Given(req.userId) || !Given(req.password)
    ensures r.status == 404 <==> Given(req.userId) && Given(req.password) && !UserIdTaken(db.users, req.userId.value)
    ensures r.status == 200 <==>
              && Given(req.userId) && Given(req.password)
              && FindUser(db.users, req.userId.value).Some?
              && CheckPassword(FindUser(db.users, req.userId.value).value.password, req.password.value)
  {
    if !Given(req.userId) || !Given(req.password) then Reply(400, MissingMsg)
    else match FindUser(db.users, req.userId.value)
      case None => Reply(404, NoUserMsg)
      case Some(u) =>
        if !CheckPassword(u.password, req.password.value) then Reply(401, MismatchMsg)
        else Reply(200, VerifiedMsg)
  }

  /** `update_password`: 400 for a missing field; otherwise every row with
      that handle gets the new hash and the answer is 200, whether or not
      such a row exists. */
  function UpdatePassword(db: Db, req: PasswordRequest): (r: (Db, Reply))
    ensures r.1.status in {400, 200}
    ensures r.1.status == 400 <==> !Given(req.userId) || !Given(req.password)
    ensures r.1.status == 400 ==> r.0 == db
    ensures r.0.items == db.items && |r.0.users| == |db.users|
    ensures r.1.status == 200 ==>
              forall k | 0 <= k < |db.users| ::
                if db.users[k].userId == req.userId.value
                then r.0.users[k] == db.users[k].(password := HashPassword(req.password.value))
                else r.0.users[k] == db.users[k]
  {
    if !Given(req.userId) || !Given(req.password) then (db, Reply(400, MissingMsg))
    else (db.(users := SetPassword(db.users, req.userId.value, HashPassword(req.password.value))), Reply(200, ChangedMsg))
  }

  /** The server enforces no rule on the new password: any non-empty one
      is accepted, however short and even if it equals the old one. */
  lemma NoPasswordRules(db: Db, uid: string, p: string)
    requires uid != "" && p != ""
    ensures UpdatePassword(db, PasswordRequest(Some(uid), Some(p))).1 == Reply(200, ChangedMsg)
  {
  }

  /** Round trip: for a registered handle, updating to `p` and then
      verifying `p` succeeds, and verifying any other password fails with
      401. */
  lemma UpdateThenVerify(db: Db, uid: string, p: string, q: string)
    requires uid != "" && p != "" && q != "" && q != p
    requires UserIdTaken(db.users, uid)
    ensures var db1 := UpdatePassword(db, PasswordRequest(Some(uid), Some(p))).0;
            && VerifyPassword(db1, PasswordRequest(Some(uid), Some(p))).status == 200
            && VerifyPassword(db1, PasswordRequest(Some(uid), Some(q))).status == 401
  {
    var users1 := SetPassword(db.users, uid, HashPassword(p));
    assert FindUser(users1, uid).value.password == HashPassword(p);
  }

  /** The rename handler changes only the `username` of the rows with the
      given handle: ids, handles, e-mails, passwords, other users and the
      fridge table stay as they were. */
  lemma RenameFrame(db: Db, req: AuthRoutes.RenameRequest)
    ensures var r := AuthRoutes.UpdateUsername(db, req).0;
            && r.items == db.items
            && |r.users| == |db.users|
            && forall k | 0 <= k < |db.users| ::
                 && r.users[k].id == db.users[k].id
                 && r.users[k].userId == db.users[k].userId
                 && r.users[k].email == db.users[k].email
                 && r.users[k].password == db.users[k].password
                 && (r.users[k].username != db.users[k].username ==>
                       Given(req.userId) && Given(req.username)
                       && db.users[k].userId == req.userId.value && r.users[k].username == req.username.value)
  {
  }
}
